=== FILE: README.md ===
# orasnap core in Dafny

A model of the core of `orasnap`, a tool that takes schema snapshots of Oracle databases. One run does the following:

1. It discovers the objects in scope in the catalog and extracts their DDL. The DDL is fetched in bulk per owner and type, falling back to one `GET_DDL` call per object. A table's DDL is bundled with its column comments, its table comment and its indexes.
2. It normalises each DDL: line endings, `STORAGE (...)` and `TABLESPACE x` clauses, partition instance lines, trailing blanks and blank runs.
3. It writes one `.sql` file per object under the snapshot root and deletes stale `.sql` files.
4. It commits the snapshot with a message listing the changed files.

A separate exporter appends rows of a DDL audit table to per-object JSON-lines files and keeps a watermark per service and user. The configuration loader validates the YAML document that drives everything.

The model is written as pure functions over immutable values:

- The database is a record of query functions (`Extractor.Database`, the audit `fetch`). The files are a map from paths to contents (`Models.FileMap`). Git is one function from a commit request to its result.
- Every operation returns its error as a value (`Wrappers.Result`) where the Python code raises.
- Each module follows one source file:
  - `Normalizer`, `Clauses` and `Partitions` model `normalize/ddl_normalizer.py`.
  - `SafeNames` and `Writer` model `store/writer.py`.
  - `Catalog`, `Comments`, `Bulk` and `Extractor` model `oracle/extractor.py`.
  - `JsonLine` and `Audit` model `oracle/audit_exporter.py`.
  - `Config` models `config.py`, `Pipeline` models `pipeline.py` and `Models` models `models.py`.
- `Text` and `Wrappers` are shared helpers: the ASCII subset of Python's `str.isspace`, `strip`, `upper`/`lower`, `split` and `join`, and integer printing and parsing.

## Model

| member | source | states |
|---|---|---|
| Models.WriteResult.WrittenFiles | src/orasnap/models.py:33-35 | the written files are the added files followed by the modified files, nothing else |
| Normalizer.ParseLineEnding | src/orasnap/normalize/ddl_normalizer.py:47-51 | a line ending is accepted exactly when its upper-cased name is `LF` or `CRLF`; anything else is the fixed error |
| Normalizer.ParseLineEndingName | src/orasnap/normalize/ddl_normalizer.py:47-51 | the name of each line ending parses back to that line ending |
| Normalizer.ParseLineEndingLower | src/orasnap/normalize/ddl_normalizer.py:47-51 | the setting is case-insensitive: a lower-cased name parses the same |
| Normalizer.FoldLineEndingsNoCr | src/orasnap/normalize/ddl_normalizer.py:54 | after folding CRLF and CR to LF no carriage return is left |
| Normalizer.FoldToCrlf | src/orasnap/normalize/ddl_normalizer.py:73-74 | turning LF into CRLF and folding back gives the LF text again |
| Normalizer.ToCrlfShape | src/orasnap/normalize/ddl_normalizer.py:73-74 | after conversion every CR is followed by LF and every LF is preceded by CR |
| Normalizer.NormalizeCrlf | src/orasnap/normalize/ddl_normalizer.py:73-74 | CRLF output has only CRLF line breaks and folds back to exactly the LF output |
| Normalizer.StripLines | src/orasnap/normalize/ddl_normalizer.py:59 | one output line per input line, each right-stripped |
| Normalizer.StripLinesTidy | src/orasnap/normalize/ddl_normalizer.py:59 | no stripped line has trailing whitespace or a line break |
| Normalizer.CompactMembers | src/orasnap/normalize/ddl_normalizer.py:60-67 | compaction keeps only lines that were in the input |
| Normalizer.CompactKeeps | src/orasnap/normalize/ddl_normalizer.py:60-67 | compaction drops blank lines only: the kept lines are an ordered subsequence of the input, and every non-blank line is kept exactly as often as it occurs |
| Normalizer.CompactedLines | src/orasnap/normalize/ddl_normalizer.py:59-67 | the stripped, compacted lines of a text are tidy and free of `\n`, have no two adjacent blanks, keep the input order, and keep every non-blank line as often as it occurs |
| Normalizer.CompactNoAdjacentBlanks | src/orasnap/normalize/ddl_normalizer.py:60-67 | no two blank lines are adjacent after compaction, and none follows a blank line already emitted |
| Normalizer.JoinLayout | src/orasnap/normalize/ddl_normalizer.py:59-69 | joining tidy lines without adjacent blanks gives text without trailing spaces or double blank lines |
| Normalizer.BodyShape | src/orasnap/normalize/ddl_normalizer.py:59-69 | the stripped body has no trailing spaces or double blank lines, and starts and ends with a non-space |
| Normalizer.LayoutEmpty | src/orasnap/normalize/ddl_normalizer.py:69-71 | the layout is empty exactly when the text is all whitespace, so an empty DDL gets no terminator |
| Normalizer.LayoutShape | src/orasnap/normalize/ddl_normalizer.py:59-71 | a non-empty layout starts with a non-space, ends with exactly one newline after a non-space, and has no trailing spaces or double blank lines |
| Normalizer.LayoutNoCr | src/orasnap/normalize/ddl_normalizer.py:59-71 | the layout steps introduce no carriage return |
| Normalizer.NormalizeEmpty | src/orasnap/normalize/ddl_normalizer.py:53-75 | normalising gives the empty string exactly when the cleaned DDL is all whitespace |
| Normalizer.NormalizeLayout | src/orasnap/normalize/ddl_normalizer.py:53-71 | the LF output of every DDL has the layout shape above |
| Normalizer.CleanedNoCr | src/orasnap/normalize/ddl_normalizer.py:54-57 | clause and partition removal never brings back a carriage return |
| Normalizer.NormalizeLfNoCr | src/orasnap/normalize/ddl_normalizer.py:53-75 | LF output holds no carriage return |
| Partitions.Close | src/orasnap/normalize/ddl_normalizer.py:28-31 | skipping continues exactly while the parenthesis depth is positive or the line ends in a comma |
| Partitions.FinalConsistent | src/orasnap/normalize/ddl_normalizer.py:24-41 | the scanner's state stays consistent over any run of lines |
| Partitions.ScanConcat | src/orasnap/normalize/ddl_normalizer.py:24-41 | scanning two blocks is scanning the first and then the second from the state the first left |
| Partitions.ScanSubsequence | src/orasnap/normalize/ddl_normalizer.py:18-43 | the kept lines are a subsequence of the input lines, in order |
| Partitions.ScanMembers | src/orasnap/normalize/ddl_normalizer.py:18-43 | every kept line is an input line |
| Partitions.NoInstanceKept | src/orasnap/normalize/ddl_normalizer.py:26-32 | no kept line starts a partition instance definition |
| Partitions.ScanIdentity | src/orasnap/normalize/ddl_normalizer.py:18-43 | lines without partition instances all pass through unchanged, and the scanner ends idle |
| Partitions.RemoveNothing | src/orasnap/normalize/ddl_normalizer.py:18-43 | text without partition instance lines is returned unchanged |
| Partitions.SingleLineDefinition | src/orasnap/normalize/ddl_normalizer.py:26-32 | a one-line instance definition that closes its parentheses and has no trailing comma is dropped alone |
| Partitions.TwoLineDefinition | src/orasnap/normalize/ddl_normalizer.py:34-39 | an instance definition continued by a comma is dropped together with its continuation line |
| Clauses.DeleteMatchesChars | src/orasnap/normalize/ddl_normalizer.py:55-56 | removing clause matches never introduces a character absent from the input |
| Clauses.DeleteMatchesNone | src/orasnap/normalize/ddl_normalizer.py:55-56 | text in which the pattern matches nowhere is unchanged |
| Clauses.BodyEnd | src/orasnap/normalize/ddl_normalizer.py:7 | a found end of the STORAGE body is a closing parenthesis at or after the start |
| Clauses.StorageMatch | src/orasnap/normalize/ddl_normalizer.py:7 | a STORAGE match consumes at least one character and stays inside the text |
| Clauses.StorageNeedsParen | src/orasnap/normalize/ddl_normalizer.py:7 | a STORAGE clause only matches when an opening parenthesis follows |
| Clauses.StorageNoParenKept | src/orasnap/normalize/ddl_normalizer.py:7 | text without `(` keeps every STORAGE word |
| Clauses.GroupClose | src/orasnap/normalize/ddl_normalizer.py:7 | inside a balanced body, the next parenthesis after an inner `(` is its `)` |
| Clauses.BodySkip | src/orasnap/normalize/ddl_normalizer.py:7 | a balanced inner group is skipped whole when looking for the body's end |
| Clauses.StorageHead | src/orasnap/normalize/ddl_normalizer.py:7 | leading whitespace, the keyword and spaces before `(` lead to the body's end |
| Clauses.StorageClauseRemoved | src/orasnap/normalize/ddl_normalizer.py:7 | a whitespace-led `STORAGE (...)` with one level of nested groups is removed through its `)` |
| Clauses.StorageTooDeepKept | src/orasnap/normalize/ddl_normalizer.py:7 | a STORAGE body nested two levels deep does not match |
| Clauses.BodyTooDeep | src/orasnap/normalize/ddl_normalizer.py:7 | from an inner `(`, meeting another `(` before any `)` means the body has no end, since only one level of nesting matches |
| Clauses.TablespaceMatch | src/orasnap/normalize/ddl_normalizer.py:6 | a TABLESPACE match consumes at least one character and stays inside the text |
| Clauses.TablespaceHead | src/orasnap/normalize/ddl_normalizer.py:6 | the matcher finds the keyword after the leading whitespace and the name after the spaces |
| Clauses.QuotedTablespaceRemoved | src/orasnap/normalize/ddl_normalizer.py:6 | a whitespace-led `TABLESPACE "name"` is removed through the closing quote |
| Clauses.BareTablespaceRemoved | src/orasnap/normalize/ddl_normalizer.py:6 | a whitespace-led `TABLESPACE name` is removed through the last name character |
| SafeNames.UnsafeRun | src/orasnap/store/writer.py:9 | the run of unsafe characters ends at the first safe one |
| SafeNames.SafeNameOr | src/orasnap/store/writer.py:12-14 | the segment is clean and keeps exactly the value's significant characters in order; the fallback is used exactly when none exist |
| SafeNames.WriterSafeName | src/orasnap/store/writer.py:12-14 | as above with the fallback `unnamed` |
| SafeNames.AuditSafeName | src/orasnap/oracle/audit_exporter.py:53-55 | as above with the fallback `UNKNOWN` |
| SafeNames.SanitizeKeeps | src/orasnap/store/writer.py:9-13 | substitution keeps the significant characters and leaves only safe characters |
| SafeNames.SanitizeSafe | src/orasnap/store/writer.py:9-13 | text of safe characters is unchanged by the substitution |
| SafeNames.TrimUnderscoreClean | src/orasnap/store/writer.py:14 | trimming `_` from safe text gives a clean segment, and gives nothing exactly when nothing significant was there |
| SafeNames.CoreShape | src/orasnap/store/writer.py:13-14 | the cleaned value is empty exactly when it has no significant character; otherwise it is clean and keeps them |
| SafeNames.SafeNameFixed | src/orasnap/store/writer.py:12-14 | a clean segment is its own safe name |
| SafeNames.SafeNameIdempotent | src/orasnap/store/writer.py:12-14 | applying the safe name twice equals applying it once |
| Writer.EntryRelPath | src/orasnap/store/writer.py:21-25 | the path is owner, type and `name.sql`, each a clean segment built from the object's fields |
| Writer.EntryPathSql | src/orasnap/store/writer.py:21-25 | every entry path is a `.sql` file below the snapshot root |
| Writer.StoredContent | src/orasnap/store/writer.py:53-55 | the content ends with a newline and is the DDL plus at most one character |
| Writer.StoredContentFixed | src/orasnap/store/writer.py:53-55 | a DDL is kept as-is exactly when it already ends with a newline, so the step is idempotent |
| Writer.Classify | src/orasnap/store/writer.py:57-67 | added exactly when the file is missing, modified exactly when its content differs, unchanged exactly when it is equal |
| Writer.DesiredPaths | src/orasnap/store/writer.py:48-51 | the desired paths are exactly the entries' paths, all `.sql` files below the root |
| Writer.WriteEntry | src/orasnap/store/writer.py:48-71 | an entry with no file is added, one whose file differs is modified, one whose file matches is counted unchanged and not rewritten; a live run writes the content |
| Writer.DistinctByCount | src/orasnap/store/writer.py:48-51 | the entries' paths are pairwise distinct exactly when the set of desired paths is as large as the entry list |
| Writer.WriteReported | src/orasnap/store/writer.py:39-71 | when each entry has its own path, or in a dry run, the loop's report classifies every entry against the files before the call |
| Writer.WriteAllBuckets | src/orasnap/store/writer.py:48-71 | over the whole loop, added and modified are the targets missing or differing before the run, in entry order, and the rest are counted unchanged; needs distinct targets unless it is a dry run |
| Writer.WriteAll | src/orasnap/store/writer.py:48-71 | the counts grow by the number of entries, and a dry run writes nothing |
| Writer.WriteAllFiles | src/orasnap/store/writer.py:48-71 | a live pass leaves the files overwritten with every entry's content, later entries winning |
| Writer.OverwriteKeys | src/orasnap/store/writer.py:48-71 | writing adds exactly the target paths and leaves other files untouched |
| Writer.OverwriteCurrent | src/orasnap/store/writer.py:48-71 | after writing, every target holds its entry's content |
| Writer.WriteAllCurrent | src/orasnap/store/writer.py:57-62 | when every file already holds its content, the pass counts all as unchanged and writes nothing |
| Writer.Stale | src/orasnap/store/writer.py:73-79 | stale paths are existing files |
| Writer.FinalFilesMirror | src/orasnap/store/writer.py:73-82 | after a live run the `.sql` files under the root are exactly the desired paths, and every other file is untouched |
| Writer.StaleRemoved | src/orasnap/store/writer.py:73-82 | after deletion no stale file remains |
| Writer.DeleteStale | src/orasnap/store/writer.py:73-82 | each stale path is reported once; a live run removes exactly those, a dry run removes nothing |
| Writer.SettledAgain | src/orasnap/store/writer.py:48-82 | a second run on the settled tree reports everything unchanged, deletes nothing and changes nothing |
| Writer.FixedPoint | src/orasnap/store/writer.py:48-82 | a tree holding every entry's content with no stale file is left as it is |
| Writer.SettledCurrent | src/orasnap/store/writer.py:48-82 | after a live run every entry's file holds its content |
| Writer.RerunUnchanged | src/orasnap/store/writer.py:39-89 | running the writer twice with the same entries: the second run adds, modifies and deletes nothing |
| Writer.SameClassification | src/orasnap/store/writer.py:57-70 | with distinct paths the classification depends only on what existed before, not on the writes of the pass |
| Writer.DryRunClassification | src/orasnap/store/writer.py:45-70 | with distinct paths a dry run reports the same added, modified and unchanged as a live run and changes no file |
| Writer.Write | src/orasnap/store/writer.py:39-89 | the counts add up to the entries; deleted are exactly the stale `.sql` files under the root, each once; a dry run changes nothing; a live run mirrors the entries and leaves other files alone; when every entry has its own path, or in a dry run, added, modified and unchanged are the entries missing, differing and matching before the call, in entry order |
| Catalog.MetadataType | src/orasnap/oracle/extractor.py:50-51 | the mapped type for the upper-cased names in the map; otherwise the upper-cased type itself; always upper case |
| Catalog.MetadataTypeIdempotent | src/orasnap/oracle/extractor.py:15-22 | mapping a type twice equals mapping it once |
| Catalog.QuoteRoundTrip | src/orasnap/oracle/extractor.py:61-67 | unquoting a quoted identifier or literal gives the value back, and only its quoted form unquotes to it |
| Catalog.UndoubleDoubled | src/orasnap/oracle/extractor.py:61-67 | undoing the doubling of quote characters gives the original text |
| Catalog.DoubledUndouble | src/orasnap/oracle/extractor.py:61-67 | text that undoubles to a value is exactly that value doubled |
| Catalog.ReadQuotedQuote | src/orasnap/oracle/extractor.py:61-67 | a reader of SQL text recovers the value from its quoted form and stops right after it |
| Catalog.ReadBodyDoubled | src/orasnap/oracle/extractor.py:61-67 | inside a quoted value a doubled quote reads as one quote, and a single quote ends the value |
| Comments.ParseRender | src/orasnap/oracle/extractor.py:259-266 | a statement rendered from a template with separated holes parses back to the values filled in |
| Comments.ColumnStatementParses | src/orasnap/oracle/extractor.py:259-266 | a column comment statement gives back its owner, table, column and comment |
| Comments.TableStatementParses | src/orasnap/oracle/extractor.py:278-281 | a table comment statement gives back its owner, table and comment |
| Comments.Commented | src/orasnap/oracle/extractor.py:259-261 | a row is kept exactly when its comment is not NULL, in query order and as often as it occurs |
| Comments.ColumnStatementsSpec | src/orasnap/oracle/extractor.py:259-266 | one statement per commented row, in order, each naming that row's column and comment |
| Comments.TableCommentsSpec | src/orasnap/oracle/extractor.py:236-283 | the column statements come first, then the table statement exactly when the table has a comment |
| Bulk.Group | src/orasnap/oracle/extractor.py:167-169 | a group holds objects of one owner and type only |
| Bulk.GroupKeysSpec | src/orasnap/oracle/extractor.py:167-169 | the group keys are exactly the keys of the objects, each once |
| Bulk.GroupKeysOrder | src/orasnap/oracle/extractor.py:167-174 | groups come in the order their first object appears |
| Bulk.GroupsFlatPermutation | src/orasnap/oracle/extractor.py:167-169 | the groups together hold the objects, as a permutation |
| Bulk.Chunks | src/orasnap/oracle/extractor.py:176-177 | every chunk is non-empty and holds at most the chunk size |
| Bulk.ChunksFlatten | src/orasnap/oracle/extractor.py:176-177 | the chunks concatenate back to the group |
| Bulk.AllBatchesPermutation | src/orasnap/oracle/extractor.py:167-177 | the batches together hold every object exactly as often as the input does |
| Bulk.AllBatchesShape | src/orasnap/oracle/extractor.py:174-177 | every batch is non-empty, within the chunk size, single-key, and its key is the key of some object |
| Bulk.ByNameSpec | src/orasnap/oracle/extractor.py:208-215 | the map holds exactly the names with a non-NULL row, each with its last non-NULL DDL |
| Bulk.StoreSpec | src/orasnap/oracle/extractor.py:217-223 | the DDL of every resolved object of the chunk is recorded, and nothing else changes |
| Bulk.FailedOfSpec | src/orasnap/oracle/extractor.py:191-232 | the chunk's fallback objects are exactly those without a DDL, and all of them when the query fails |
| Bulk.ResolveBatchSpec | src/orasnap/oracle/extractor.py:191-232 | one chunk adds its failures to the fallback list and its DDLs to the map, leaving other objects alone |
| Bulk.ResolveAllFailed | src/orasnap/oracle/extractor.py:174-232 | the fallback list is the chunks' failures in chunk order |
| Bulk.ResolveAllExtracted | src/orasnap/oracle/extractor.py:174-232 | an object gets a DDL exactly when its chunk's query returned one, and it gets that DDL |
| Bulk.ResolveAllPartition | src/orasnap/oracle/extractor.py:174-232 | each object is either extracted or in the fallback list, never both |
| Bulk.ExtractBulkSpec | src/orasnap/oracle/extractor.py:159-234 | for distinct objects: every object is either extracted with its chunk's DDL or handed to the fallback; nothing outside the input appears |
| Bulk.FailedChunk | src/orasnap/oracle/extractor.py:197-206 | a failed chunk query sends every object of the chunk to the fallback |
| Extractor.OwnerClausePrecedence | src/orasnap/oracle/extractor.py:100-113 | with an include list an owner is admitted exactly when listed; otherwise exactly when not excluded |
| Extractor.PostFilterSpec | src/orasnap/oracle/extractor.py:126-135 | discovered rows keep their order; every row the filter admits is kept; with bundling no INDEX is left; without bundling every row is kept |
| Extractor.Discover | src/orasnap/oracle/extractor.py:83-144 | no object types means no objects; otherwise the query's failure is the result's failure; owners and types come back upper-cased |
| Extractor.GetDdl | src/orasnap/oracle/extractor.py:146-157 | the DDL is the query's non-NULL value; NULL is the fixed error |
| Extractor.IndexObjects | src/orasnap/oracle/extractor.py:302-309 | one INDEX object per row, owner upper-cased |
| Extractor.IndexStatementsSpec | src/orasnap/oracle/extractor.py:314-333 | the statements are the DDLs of the indexes that resolve, in index order |
| Extractor.TableIndexes | src/orasnap/oracle/extractor.py:285-333 | without INDEX in scope there are no index statements; with it, the lookup fails exactly when the index query fails |
| Extractor.BundleTrimmed | src/orasnap/oracle/extractor.py:345-350 | the bundle is a lone newline, or starts and ends its text with a non-space before the newline |
| Extractor.BundleBaseOnly | src/orasnap/oracle/extractor.py:345-350 | with no comments and no indexes the bundle is the stripped DDL and a newline |
| Extractor.BundleStartsWithBase | src/orasnap/oracle/extractor.py:345-350 | the bundle starts with the table's stripped DDL |
| Extractor.BundleLayout | src/orasnap/oracle/extractor.py:345-350 | DDL, comment block and index block are separated by blank lines, comments one per line, indexes by blank lines |
| Extractor.TableBundle | src/orasnap/oracle/extractor.py:335-350 | the bundle succeeds exactly when the comment and index queries do, and is then the base, comments and indexes laid out by `Bundle`, ending with a newline |
| Extractor.ExtractObject | src/orasnap/oracle/extractor.py:373-381 | non-tables use the bulk DDL when there is one and otherwise the single-object fetch; a table's DDL is the bundle built over that same base, and a failing base fails the table before any comment query |
| Extractor.ExtractAllSpec | src/orasnap/oracle/extractor.py:372-390 | every object ends up as exactly one item or one failure; the items keep the discovery order; each succeeded object is an item and each failed one is a failure message |
| Extractor.ItemsDdl | src/orasnap/oracle/extractor.py:372-390 | a non-table item's DDL is its bulk DDL or, failing that, its single fetch; a table item's DDL is the bundle over that base and ends with a newline |
| Extractor.Extract | src/orasnap/oracle/extractor.py:352-394 | extraction fails exactly when discovery fails |
| Extractor.ExtractSpec | src/orasnap/oracle/extractor.py:352-394 | over the discovered objects, the items and failures together account for every object in order, with the DDL rules above |
| Extractor.FallbackIsBulkFailures | src/orasnap/oracle/extractor.py:370-377 | an object is fetched one by one exactly when the bulk pass did not extract it |
| JsonLine.EscapeChar | src/orasnap/oracle/audit_exporter.py:236-238 | an escaped character holds no control character |
| JsonLine.Escape | src/orasnap/oracle/audit_exporter.py:236-238 | an escaped string holds no control character |
| JsonLine.UnescapeEscape | src/orasnap/oracle/audit_exporter.py:236-238 | unescaping an escaped string gives the string back |
| JsonLine.EncodeValue | src/orasnap/oracle/audit_exporter.py:236-238 | an encoded value holds no control character |
| JsonLine.EncodeObject | src/orasnap/oracle/audit_exporter.py:236-238 | an encoded record is enclosed in braces |
| JsonLine.EncodeObjectOneLine | src/orasnap/oracle/audit_exporter.py:236-238 | an encoded record holds no line break, so each record is one line |
| Audit.ValidateTableName | src/orasnap/oracle/audit_exporter.py:112-118 | a blank name means the default table; otherwise the stripped name is accepted exactly when it is a valid table name, else the named error |
| Audit.LoadState | src/orasnap/oracle/audit_exporter.py:60-76 | the state holds exactly the document's entries that read as integers, with those values |
| Audit.OwnerDir | src/orasnap/oracle/audit_exporter.py:200 | the owner folder is a clean segment |
| Audit.TypeDir | src/orasnap/oracle/audit_exporter.py:201 | the type folder is a clean segment |
| Audit.FileNameShape | src/orasnap/oracle/audit_exporter.py:202-204 | the file is the safe object name, or `EVENT_<id>` without one, plus `.jsonl` |
| Audit.TargetShape | src/orasnap/oracle/audit_exporter.py:200-204 | the target lies four levels below the audit root: three clean folders and the file |
| Audit.Line | src/orasnap/oracle/audit_exporter.py:236-238 | each record is written as exactly one line |
| Audit.Export | src/orasnap/oracle/audit_exporter.py:145-248 | a target is never both added and modified |
| Audit.ExportRowsClassify | src/orasnap/oracle/audit_exporter.py:224-230 | added are the targets missing before the export, modified the ones that existed; a dry run touches no file |
| Audit.MaxIdSpec | src/orasnap/oracle/audit_exporter.py:177-198 | the maximum is at least the start and every id, and is the start or one of the ids |
| Audit.ExportRowsMax | src/orasnap/oracle/audit_exporter.py:177-198 | the export tracks the maximum audit id |
| Audit.ExportRowsAppends | src/orasnap/oracle/audit_exporter.py:235-238 | each file ends up as its old content followed by the lines of its rows, in row order |
| Audit.ExportSpec | src/orasnap/oracle/audit_exporter.py:145-248 | with rows: the count is the row count; added are the new targets, modified the existing ones; a live run appends every row's line to its file and saves the state with the key set to the maximum id; a dry run changes nothing |
| Audit.WatermarkSpec | src/orasnap/oracle/audit_exporter.py:240-242 | the saved watermark never goes backwards, covers every exported id, equals the old value or an exported id, and no other key changes |
| Audit.NothingToExport | src/orasnap/oracle/audit_exporter.py:160-172 | an invalid table, a failing query or no rows gives the empty result and touches neither files nor state |
| Audit.DryRunReportsSame | src/orasnap/oracle/audit_exporter.py:232-248 | a dry run reports what a live run would, and writes neither files nor state |
| Config.UpperItems | src/orasnap/config.py:80-85 | the result is the printed, stripped, upper-cased items in their original order with the blank ones dropped: a subsequence of `Cleaned(items)` holding every non-blank cleaned item exactly as often as it occurs there and no blank; each kept name is stripped and upper case |
| Config.ToUpperList | src/orasnap/config.py:80-85 | the list setting is accepted exactly when it is absent or a list; an absent setting gives the empty list and a list gives `UpperItems` of its items; any other value is a `ConfigError` naming the key |
| Config.UpperItemsFixed | src/orasnap/config.py:80-85 | normalised names pass through unchanged |
| Config.ToUpperListIdempotent | src/orasnap/config.py:80-85 | normalising a normalised list changes nothing |
| Config.ResolvePlain | src/orasnap/config.py:88-92 | resolving plain names only appends them |
| Config.ResolvePathInside | src/orasnap/config.py:88-92 | a relative path without `..` lands inside the configuration's directory |
| Config.LoadOracle | src/orasnap/config.py:110-122 | the section loads exactly when the four required keys exist, the port is an integer and host, service and user are non-blank; a missing host names the key; the loaded host, service name and user are the stripped printed values of those keys |
| Config.OracleFrom | src/orasnap/config.py:104-122 | a loaded oracle section has non-empty stripped host, service and user |
| Config.LoadScope | src/orasnap/config.py:124-137 | the section loads exactly when the mode is `hybrid` and the three lists are absent or lists; the include and exclude lists are the normalised lists of those keys; the object types are the normalised `object_types` list, or the default list when that is empty |
| Config.ScopeFrom | src/orasnap/config.py:104-137 | a loaded scope is `hybrid` with normalised, non-empty object types |
| Config.LoadOutput | src/orasnap/config.py:139-145 | the section loads exactly when the upper-cased line ending is LF or CRLF and the root is text; that line ending is kept |
| Config.OutputFrom | src/orasnap/config.py:104-145 | a loaded output section has line ending LF or CRLF |
| Config.LoadGit | src/orasnap/config.py:147-154 | the section loads exactly when the repository path is text; the repository path is resolved against the config directory; a branch is set exactly when one is given and is then its stripped text; the remote is the stripped setting or `origin` when that is blank; the template is the printed setting or the default; `auto_push` is the truthiness of the setting, true when absent |
| Config.GitFrom | src/orasnap/config.py:104-154 | a loaded git section has a non-empty remote |
| Config.LoadLogs | src/orasnap/config.py:156-159 | the section loads exactly when the retention is an integer of at least one, and keeps it |
| Config.LogsFrom | src/orasnap/config.py:104-159 | a loaded logs section has a retention of at least one day |
| Config.Assemble | src/orasnap/config.py:95-161 | the configuration loads exactly when every section does, and is made of them |
| Config.LoadedValid | src/orasnap/config.py:95-161 | every loaded configuration satisfies all the checks the loader makes |
| Config.LoadedSections | src/orasnap/config.py:95-161 | a loaded configuration comes from a mapping document, each section loaded from its part |
| Config.LoadedFromDocument | src/orasnap/config.py:95-161 | the loaded retention, line ending, mode and port are the values the document gives or their defaults |
| Text.ThousandGroups | src/orasnap/config.py:113 | `int()` reads digits grouped by an underscore, as in `1_000` |
| Text.UnderscoreGroups | src/orasnap/config.py:113 | `int()` refuses a leading, trailing or doubled underscore |
| Config.DsnRoundTrip | src/orasnap/config.py:38-40 | the DSN `host:port/service` reads back to its host, port and service |
| Config.DefaultObjectTypesNormal | src/orasnap/config.py:9-23 | the default object types are already normalised names |
| Pipeline.Base | src/orasnap/pipeline.py:49-53 | the formatted template; `snapshot: <timestamp>` exactly when the first field that does not resolve looks up a keyword other than `timestamp` (the `KeyError`); a parse error, an overlong index or a positional field propagates as the failure |
| Pipeline.ParseField | src/orasnap/pipeline.py:50 | a field ends at its first `{`, `}`, `:` or `!` outside brackets; running into the end of the template is `expected '}' before end of string` and a `{` in the name is `unexpected '{' in field name`; a parsed field is its name followed by `}` and the rest of the template when nothing follows the name |
| Pipeline.Resolve | src/orasnap/pipeline.py:50-53 | a field yields the timestamp exactly when it is `timestamp` alone; it is a missing keyword exactly when its argument name is neither an index nor `timestamp` and its leading digits do not overflow, and the missing key is that argument name |
| Pipeline.FormatSource | src/orasnap/pipeline.py:49-53 | a template of literal text and `{timestamp}` fields formats to the text with the timestamp filled in |
| Pipeline.TrailingOpen | src/orasnap/pipeline.py:50 | literal text followed by a lone `{` at the end raises `Single '{' encountered in format string` |
| Pipeline.OpenNeverClosed | src/orasnap/pipeline.py:50 | literal text followed by a `{` whose field has no `{`, `}`, `:` or `!` before the end of the template raises `expected '}' before end of string` |
| Pipeline.BraceInName | src/orasnap/pipeline.py:50 | a `{` inside a field's name raises `unexpected '{' in field name` |
| Pipeline.ConversionMissing | src/orasnap/pipeline.py:50 | a template ending in a field's `!` raises `end of string while looking for conversion specifier` |
| Pipeline.ConversionUnfinished | src/orasnap/pipeline.py:50 | a conversion character followed by anything but `}` or `:` raises `expected ':' after conversion specifier` |
| Pipeline.SpecNeverClosed | src/orasnap/pipeline.py:50 | a format specification with no `}` after it raises `unmatched '{' in format spec` |
| Pipeline.OverlongIndex | src/orasnap/pipeline.py:50-53 | a field whose name starts with digits worth more than `PY_SSIZE_T_MAX` raises `Too many decimal digits in format string`, whatever non-digits follow, so the `KeyError` fallback is not taken |
| Pipeline.OverlongFieldRaises | src/orasnap/pipeline.py:50-53 | the template `{99999999999999999999x}` makes the subject fail rather than fall back |
| Pipeline.PositionalField | src/orasnap/pipeline.py:50 | a positional field `{}` or `{N}` after literal text raises `Replacement index N out of range for positional args tuple`, with `{}` numbered 0 |
| Pipeline.MissingKeyFallback | src/orasnap/pipeline.py:49-53 | a field naming another keyword, whose leading digits do not overflow the index parser, after well-formed text falls back to the default subject whatever follows it |
| Pipeline.LeadThenStamp | src/orasnap/pipeline.py:49-53 | text followed by `{timestamp}` gives the text and the timestamp |
| Pipeline.DefaultTemplateBase | src/orasnap/pipeline.py:49-53 | the default template gives `snapshot: <timestamp>` |
| Pipeline.RepoRelativeRoundTrip | src/orasnap/pipeline.py:33-39 | the path written in a change line reads back to the file, inside or outside the repository |
| Pipeline.ChangeLinesRead | src/orasnap/pipeline.py:55-61 | there is one change line per file: added as `A`, then modified as `M`, then deleted as `D`, each naming its file |
| Pipeline.ChangeLinesOneLine | src/orasnap/pipeline.py:55-61 | no change line holds a line break |
| Pipeline.CommitMessage | src/orasnap/pipeline.py:42-73 | the message is built exactly when the subject's base is |
| Pipeline.MessageLines | src/orasnap/pipeline.py:63-73 | no changes gives the base alone; otherwise the subject with the count, a blank line, the heading, at most 30 bullets and a line counting the rest |
| Pipeline.LogsDirPlacement | src/orasnap/pipeline.py:76-81 | logs go next to a `config` directory (any case) and otherwise next to the configuration file |
| Pipeline.EntriesSpec | src/orasnap/pipeline.py:151-154 | one entry per item, same object; LF entries have no CR; CRLF entries fold back to the LF normalisation |
| Pipeline.Prepare | src/orasnap/pipeline.py:143-154 | preparation fails exactly when extraction fails or the line ending is invalid, and otherwise yields the normalised entries |
| Pipeline.Publish | src/orasnap/pipeline.py:159-180 | one commit request for the snapshot root with the built message and the git settings; a message error sends nothing |
| Pipeline.Run | src/orasnap/pipeline.py:140-204 | the counts report the extraction and the writer; written plus unchanged equals extracted; a dry run changes no file and commits nothing; a live run mirrors the entries and reports the commit's outcome |

## Left out

- The Oracle driver, connections, cursors and SQL text are not modelled. Query results are functions the caller supplies, and the queries are records of their parameters.
- `_configure_transform` and the `DBMS_METADATA` session settings are not modelled. They only change what the database returns.
- The audit query's `AUDIT_ID > watermark` filter and its `ORDER BY` are assumed of the supplied rows, not enforced. The same goes for the catalog query's `GENERATED = 'N'` condition.
- `vcs/git_ops.py` is not part of this model. Committing and pushing are one function from the request to its result.
- `cli.py`, `run_snapshot`, `_setup_logger`, `_purge_old_logs` and all logging calls are not modelled, because they are I/O only.
- The clock is not modelled: the timestamp is a parameter, and so is the log file.
- YAML parsing is not modelled. The configuration starts from a parsed document value.
- Python's `int()` is modelled on text and on integers and booleans. Text may carry surrounding whitespace, a sign, and ASCII digits with single underscores between them. Floats are not part of `Config.Value`, so `int(1521.0)` is not modelled.
- Python's `str()` is exact for None, text, integers and booleans. A list prints as `[...]` and a mapping as `{...}`, not as their repr, because repr's choice of quotes and a mapping's insertion order are not modelled.
- Config.LoadOracle: a host, service name, user or password given as a YAML list or mapping is shown as `[...]` or `{...}`, where the source stores the container's repr. Only the text differs: success and failure are the same.
- Config.LoadGit: a branch, remote or commit template given as a YAML list or mapping is shown as `[...]` or `{...}`, where the source stores the container's repr. Only the text differs.
- Config.LoadLogs: a float retention such as `30.0`, which `int()` truncates, is not modelled, because floats are not part of `Config.Value`.
- Audit.LoadState: a state value written as a JSON float, which `int()` truncates, is not modelled, because floats are not part of the JSON value model.
- `Path.resolve` is modelled as purely lexical `..` handling. Symbolic links and the current directory are not followed.
- Atomic replace is one map update: temporary files and `fsync` are not modelled.
- Text-mode newline translation on read and write is not modelled: file contents are compared as written.
- Writer.RerunUnchanged: holds for the real program only with `line_ending` LF. `read_text` turns `\r\n` into `\n` (writer.py:59), so with CRLF every file reads back as modified on the next run. On Windows the text-mode write in `_atomic_write` (writer.py:27-37) also turns each `\n` into `\r\n`.
- Writer.SettledAgain: holds for the real program only with `line_ending` LF, for the same newline translation.
- Writer.FixedPoint: holds for the real program only with `line_ending` LF, for the same newline translation.
- Writer.EntryPathSql: the safe-name pattern keeps `.`, so an owner or object type that cleans to `.` or `..` is kept as a path segment (writer.py:12-14, 21-24). The model treats paths as sequences of segments, while `pathlib` drops a `.` segment and the filesystem resolves `..` to the parent folder. With such a name the real file lands outside the `owner/type` layout, and an owner and type both `..` put it outside the snapshot root. The source does this too: a schema named `..` is a path traversal.
- Writer.DesiredPaths: the same `.`/`..` aliasing applies. Two different entries can name the same file on disk.
- Writer.FinalFilesMirror: the same `.`/`..` aliasing applies. On disk, the mirror property holds only when no owner or type cleans to `.` or `..`.
- Audit.TargetShape: the same `.`/`..` aliasing applies to the service, owner and type folders (audit_exporter.py:53-55, 200-204). "Four levels below the root" holds of the segment list, not of the resolved path on disk.
- `_serialize` is not modelled. Field values arrive as JSON values already, and floats are not modelled.
- Sorting is not modelled. The audit exporter's sorted file lists are sets, and the writer reports deletions in no particular order, since `rglob` gives none.
- Unicode whitespace and case mapping beyond ASCII are not modelled.
- Closing connections is not modelled, nor LOBs being read before the connection closes.
- Extractor.Extract: a LOB whose `read()` fails in the bulk pass (extractor.py:210-213) is outside that pass's `try` (extractor.py:191-206). In the source the error ends the whole extraction, because the call at extractor.py:370 is outside the per-object `try`. The model has the bulk pass fail chunks whole and never abort.
- Bulk.ExtractBulkSpec: a bulk chunk either returns rows or fails whole; a failure while reading one row's LOB is not modelled. In the source that failure escapes the pass: it aborts `extract` when it happens in the main bulk pass, and fails the table when it happens in the index pass at extractor.py:315.
- Normalising twice can differ from normalising once, so no idempotence is stated. A clause uncovered by the first removal is removed by the second, as in `x STORAGE TABLESPACE T (a)`.
- Pipeline.Base: a field that reaches the `timestamp` argument with a conversion, a format specification, an attribute or an index is treated as an error rather than interpreted (the lookup itself, and every parse error before it, is modelled).
- Pipeline.Format: the largest positional index is taken to be a 64-bit build's `PY_SSIZE_T_MAX`; a longer leading digit run gives `Too many decimal digits in format string`. Only ASCII digits are read as an index: `str.format` also reads other Unicode decimal digits (`{١}` is positional index 1), which the model takes as a keyword name and so as the fallback.
- Audit.Export: its own contract states only that added and modified are disjoint. The full behaviour is `Audit.ExportSpec`, `Audit.NothingToExport` and `Audit.DryRunReportsSame`.
- Pipeline.CommitMessage: its own contract states only when it succeeds. The text is described by `Pipeline.MessageLines` and `Pipeline.ChangeLinesRead`.
- Writer.DryRunClassification: needs distinct entry paths. With two entries for the same path, a live run sees its own earlier write.
- `tests/unit/test_pipeline_audit_state_path.py` refers to an audit configuration that `config.py` does not define, so it is not reflected here.

=== FILE: audit.dfy ===
/** The DDL audit exporter: read the rows of the audit table past the last
    exported id, append each as one JSON line to a file per object, and move
    the watermark in the state file to the largest id seen. The audit files
    are a map from paths to contents; the state file is its parsed value. */
module Audit {
  import opened Wrappers
  import opened Text
  import opened Models
  import opened JsonLine
  import SafeNames
  import Config

  // ---------------------------------------------------------------- the table name

  const DefaultTable: string := "DDL_AUDIT_LOG"

  /** The characters a table name may hold: letters, digits, `_$#."`. */
  predicate TableChar(c: char) {
    ('A' <= c <= 'Z') || ('a' <= c <= 'z') || ('0' <= c <= '9') || c in "_$#.\""
  }

  predicate TableName(t: string) {
    t != "" && forall i :: 0 <= i < |t| ==> TableChar(t[i])
  }

  /** `_validate_table_name`: a blank name means the default table; any other
      name must be made of table characters once stripped. */
  function ValidateTableName(name: string): (r: Result<string, string>)
    ensures Strip(name) == "" ==> r == Success(DefaultTable)
    ensures Strip(name) != "" ==> (r.Success? <==> TableName(Strip(name)))
    ensures Strip(name) != "" && r.Success? ==> r.value == Strip(name)
    ensures r.Failure? ==> r.error == "Invalid audit table name: " + Strip(name)
    ensures r.Success? ==> TableName(r.value)
  {
    var t := Strip(name);
    if t == "" then
      assert TableName(DefaultTable);
      Success(DefaultTable)
    else if !TableName(t) then Failure("Invalid audit table name: " + t)
    else Success(t)
  }

  // ---------------------------------------------------------------- the state file

  /** `SERVICE::USERNAME`, both upper-cased. */
  function StateKey(serviceName: string, username: string): string {
    Upper(serviceName) + "::" + Upper(username)
  }

  /** What the state file holds: nothing, something unreadable, or a parsed
      JSON value. */
  datatype StateFile = NoFile | Unreadable | Parsed(v: Config.Value)

  /** `_load_state`: the entries of a JSON object whose value `int()`
      accepts; anything else is an empty state. */
  function LoadState(f: StateFile): (st: map<string, int>)
    ensures forall k :: k in st ==>
      f.Parsed? && f.v.Dict? && k in f.v.entries && Config.ToInt(f.v.entries[k]) == Success(st[k])
    ensures f.Parsed? && f.v.Dict? ==>
      forall k :: k in f.v.entries && Config.ToInt(f.v.entries[k]).Success? ==> k in st
  {
    if f.Parsed? && f.v.Dict? then
      map k | k in f.v.entries && Config.ToInt(f.v.entries[k]).Success? :: Config.ToInt(f.v.entries[k]).value
    else map[]
  }

  /** `int(state.get(key, 0))`. */
  function Watermark(st: map<string, int>, key: string): int {
    if key in st then st[key] else 0
  }

  // ---------------------------------------------------------------- rows and targets

  /** One audit row, its fields already serialised; the object columns may be
      NULL. */
  datatype AuditRow = AuditRow(
    auditId: int,
    eventTime: Json, sysevent: Json, dbUser: Json, loginUser: Json, currentSchema: Json,
    osUser: Json, host: Json, ipAddress: Json, moduleName: Json,
    objOwner: Option<string>, objType: Option<string>, objName: Option<string>,
    sqlText: Json)

  /** `value or fallback`: NULL and the empty text both fall back. */
  function OrElse(v: Option<string>, fallback: string): string {
    if v.None? || v.value == "" then fallback else v.value
  }

  function Nullable(v: Option<string>): Json {
    if v.Some? then JStr(v.value) else JNull
  }

  /** The file a row goes to, below the audit root: service, owner, type,
      `<name>.jsonl`; a row without an object name is filed as its event. */
  function Target(root: Path, serviceName: string, row: AuditRow): Path {
    root + Segments(serviceName, row)
  }

  function Segments(serviceName: string, row: AuditRow): seq<string> {
    [SafeNames.AuditSafeName(serviceName), OwnerDir(row), TypeDir(row), FileName(row)]
  }

  /** The owner's directory, `UNKNOWN` when the event names none. */
  function OwnerDir(row: AuditRow): (r: string)
    ensures SafeNames.Clean(r)
  {
    SafeNames.AuditSafeName(OrElse(row.objOwner, "UNKNOWN"))
  }

  /** The type's directory, upper-cased with spaces as underscores. */
  function TypeDir(row: AuditRow): (r: string)
    ensures SafeNames.Clean(r)
  {
    SafeNames.AuditSafeName(ReplaceChar(Upper(OrElse(row.objType, "UNKNOWN")), ' ', "_"))
  }

  /** The file of a row: the object's name, or its event when it has none. */
  function FileName(row: AuditRow): string {
    SafeNames.AuditSafeName(OrElse(row.objName, "EVENT_" + IntToString(row.auditId))) + ".jsonl"
  }

  lemma FileNameShape(row: AuditRow)
    ensures var f := FileName(row);
      && EndsWith(f, ".jsonl")
      && f[..|f| - 6] == SafeNames.AuditSafeName(OrElse(row.objName, "EVENT_" + IntToString(row.auditId)))
  {
    var name := SafeNames.AuditSafeName(OrElse(row.objName, "EVENT_" + IntToString(row.auditId)));
    assert (name + ".jsonl")[..|name|] == name;
    assert (name + ".jsonl")[|name|..] == ".jsonl";
  }

  lemma FourBelow(root: Path, a: string, b: string, c: string, f: string)
    requires SafeNames.Clean(a) && SafeNames.Clean(b) && SafeNames.Clean(c)
    ensures var p := root + [a, b, c, f];
      && |p| == |root| + 4 && p[..|root|] == root
      && (forall k :: |root| <= k < |root| + 3 ==> SafeNames.Clean(p[k]))
      && p[|root| + 3] == f
  {
    var p := root + [a, b, c, f];
    assert p[..|root|] == root;
    assert p[|root|] == a && p[|root| + 1] == b && p[|root| + 2] == c;
  }

  /** A target is four clean segments below the root, the last a `.jsonl`
      file named after the object, or after the event when it has no name. */
  lemma TargetShape(root: Path, serviceName: string, row: AuditRow)
    ensures var p := Target(root, serviceName, row);
      && |p| == |root| + 4 && p[..|root|] == root
      && (forall k :: |root| <= k < |root| + 3 ==> SafeNames.Clean(p[k]))
      && p[|root| + 3] == FileName(row)
  {
    FourBelow(root, SafeNames.AuditSafeName(serviceName), OwnerDir(row), TypeDir(row), FileName(row));
  }

  /** Where each row goes and what it writes there. */
  datatype Layout = Layout(target: AuditRow -> Path, line: AuditRow -> string)

  /** The exporter's layout: each row's target below its root, and its line. */
  function LayoutOf(ex: Exporter): Layout {
    Layout(row => Target(ex.root, ex.serviceName, row), Line)
  }

  /** The record written for a row, its fields in the table's column order. */
  function Record(row: AuditRow): seq<(string, Json)> {
    [("audit_id", JInt(row.auditId)),
     ("event_time", row.eventTime),
     ("sysevent", row.sysevent),
     ("db_user", row.dbUser),
     ("login_user", row.loginUser),
     ("current_schema", row.currentSchema),
     ("os_user", row.osUser),
     ("host", row.host),
     ("ip_address", row.ipAddress),
     ("module", row.moduleName),
     ("obj_owner", Nullable(row.objOwner)),
     ("obj_type", Nullable(row.objType)),
     ("obj_name", Nullable(row.objName)),
     ("sql_text", row.sqlText)]
  }

  /** The text appended for a row: its record and a newline. */
  function Line(row: AuditRow): (l: string)
    ensures |l| > 0 && l[|l| - 1] == '\n' && '\n' !in l[..|l| - 1]
  {
    EncodeObjectOneLine(Record(row));
    var e := EncodeObject(Record(row));
    assert (e + "\n")[..|e|] == e;
    e + "\n"
  }

  // ---------------------------------------------------------------- the export loop

  /** The loop's running state: the files, the two report sets, the largest
      id so far. */
  datatype Acc = Acc(files: FileMap, added: set<Path>, modified: set<Path>, maxId: int)

  /** One row. A target first seen as new stays added; one that existed is
      modified. A dry run classifies and never appends. */
  function Step(acc: Acc, lay: Layout, row: AuditRow, dryRun: bool): Acc {
    var t := lay.target(row);
    var maxId := if row.auditId > acc.maxId then row.auditId else acc.maxId;
    var files := if dryRun then acc.files else acc.files[t := ReadOr(acc.files, t) + lay.line(row)];
    if t in acc.added then Acc(files, acc.added, acc.modified, maxId)
    else if t in acc.files then Acc(files, acc.added, acc.modified + {t}, maxId)
    else Acc(files, acc.added + {t}, acc.modified, maxId)
  }

  /** The loop over `rows`, in order. */
  function ExportRows(acc: Acc, lay: Layout, rows: seq<AuditRow>, dryRun: bool): Acc
    decreases |rows|
  {
    if |rows| == 0 then acc
    else Step(ExportRows(acc, lay, rows[..|rows| - 1], dryRun), lay, rows[|rows| - 1], dryRun)
  }

  /** The exporter's settings. */
  datatype Exporter = Exporter(serviceName: string, username: string, root: Path, tableName: string)

  datatype AuditExportResult = AuditExportResult(exportedCount: nat, addedFiles: set<Path>, modifiedFiles: set<Path>)

  /** What a run leaves behind: its report, the audit files, and the state it
      saved, if any. */
  datatype Outcome = Outcome(result: AuditExportResult, files: FileMap, saved: Option<map<string, int>>)

  const NothingExported: AuditExportResult := AuditExportResult(0, {}, {})

  /** `export`: `fetch(table, watermark)` stands for the audit query, which
      returns the rows past the watermark in id order or fails. */
  function Export(ex: Exporter, stateFile: StateFile, files: FileMap,
                  fetch: (string, int) -> Result<seq<AuditRow>, string>, dryRun: bool): (o: Outcome)
    ensures o.result.addedFiles !! o.result.modifiedFiles
  {
    var state := LoadState(stateFile);
    var key := StateKey(ex.serviceName, ex.username);
    var last := Watermark(state, key);
    match ValidateTableName(ex.tableName)
    case Failure(_) => Outcome(NothingExported, files, None)
    case Success(table) =>
      match fetch(table, last)
      case Failure(_) => Outcome(NothingExported, files, None)
      case Success(rows) =>
        if rows == [] then Outcome(NothingExported, files, None)
        else
          var acc := ExportRows(Acc(files, {}, {}, last), LayoutOf(ex), rows, dryRun);
          ExportRowsClassify(files, LayoutOf(ex), rows, dryRun);
          Outcome(AuditExportResult(|rows|, acc.added, acc.modified), acc.files,
                  if dryRun then None else Some(state[key := acc.maxId]))
  }

  // ---------------------------------------------------------------- properties

  /** The files a list of rows goes to. */
  function Targets(lay: Layout, rows: seq<AuditRow>): set<Path> {
    set i | 0 <= i < |rows| :: lay.target(rows[i])
  }

  lemma TargetsSnoc(lay: Layout, rows: seq<AuditRow>)
    requires |rows| > 0
    ensures Targets(lay, rows)
      == Targets(lay, rows[..|rows| - 1]) + {lay.target(rows[|rows| - 1])}
  {
    var init := rows[..|rows| - 1];
    forall p | p in Targets(lay, rows)
      ensures p in Targets(lay, init) + {lay.target(rows[|rows| - 1])}
    {
      var i :| 0 <= i < |rows| && p == lay.target(rows[i]);
      if i < |init| {
        assert rows[i] == init[i];
      }
    }
    forall p | p in Targets(lay, init)
      ensures p in Targets(lay, rows)
    {
      var i :| 0 <= i < |init| && p == lay.target(init[i]);
      assert init[i] == rows[i];
    }
  }

  /** The files the loop holds: the files it started with, plus every target
      when it appends. */
  predicate Classified(acc: Acc, files: FileMap, ts: set<Path>, dryRun: bool) {
    && acc.added == ts - files.Keys
    && acc.modified == ts * files.Keys
    && acc.files.Keys == (if dryRun then files.Keys else files.Keys + ts)
  }

  /** A target is added exactly when it did not exist before the run and
      modified exactly when it did, however many rows it receives; a dry run
      classifies the same and leaves the files alone. */
  lemma {:induction false} ExportRowsClassify(files: FileMap, lay: Layout, rows: seq<AuditRow>, dryRun: bool)
    ensures forall m :: Classified(ExportRows(Acc(files, {}, {}, m), lay, rows, dryRun),
                                   files, Targets(lay, rows), dryRun)
    ensures dryRun ==> forall m :: ExportRows(Acc(files, {}, {}, m), lay, rows, dryRun).files == files
    decreases |rows|
  {
    if |rows| > 0 {
      var init := rows[..|rows| - 1];
      ExportRowsClassify(files, lay, init, dryRun);
      TargetsSnoc(lay, rows);
      forall m ensures Classified(ExportRows(Acc(files, {}, {}, m), lay, rows, dryRun),
                                  files, Targets(lay, rows), dryRun)
      {
        var prev := ExportRows(Acc(files, {}, {}, m), lay, init, dryRun);
        StepClassify(prev, files, Targets(lay, init), lay, rows[|rows| - 1], dryRun);
      }
    }
  }

  lemma StepClassify(acc: Acc, files: FileMap, ts: set<Path>, lay: Layout, row: AuditRow, dryRun: bool)
    requires Classified(acc, files, ts, dryRun)
    ensures Classified(Step(acc, lay, row, dryRun), files, ts + {lay.target(row)}, dryRun)
  {
  }

  /** The largest of `m` and every row id. */
  function MaxId(m: int, rows: seq<AuditRow>): int
    decreases |rows|
  {
    if |rows| == 0 then m
    else
      var prev := MaxId(m, rows[..|rows| - 1]);
      if rows[|rows| - 1].auditId > prev then rows[|rows| - 1].auditId else prev
  }

  /** The largest id is at least the start and every row's id, and is one of
      them. */
  lemma {:induction false} MaxIdSpec(m: int, rows: seq<AuditRow>)
    ensures MaxId(m, rows) >= m
    ensures forall i :: 0 <= i < |rows| ==> MaxId(m, rows) >= rows[i].auditId
    ensures MaxId(m, rows) == m || exists i :: 0 <= i < |rows| && MaxId(m, rows) == rows[i].auditId
    decreases |rows|
  {
    if |rows| > 0 {
      var init := rows[..|rows| - 1];
      MaxIdSpec(m, init);
      assert forall i :: 0 <= i < |init| ==> rows[i] == init[i];
    }
  }

  /** The loop tracks the largest id. */
  lemma {:induction false} ExportRowsMax(acc: Acc, lay: Layout, rows: seq<AuditRow>, dryRun: bool)
    ensures ExportRows(acc, lay, rows, dryRun).maxId == MaxId(acc.maxId, rows)
    decreases |rows|
  {
    if |rows| > 0 {
      ExportRowsMax(acc, lay, rows[..|rows| - 1], dryRun);
    }
  }

  /** The lines a run appends to `p`: one per row that targets it, in row
      order. */
  function LinesFor(lay: Layout, rows: seq<AuditRow>, p: Path): string
    decreases |rows|
  {
    if |rows| == 0 then ""
    else
      var row := rows[|rows| - 1];
      LinesFor(lay, rows[..|rows| - 1], p) + (if lay.target(row) == p then lay.line(row) else "")
  }

  /** A real run only appends: each file ends up as what it held before, then
      one line per row that targets it. */
  lemma {:induction false} ExportRowsAppends(acc: Acc, lay: Layout, rows: seq<AuditRow>, p: Path)
    ensures var r := ExportRows(acc, lay, rows, false);
      && (p in r.files <==> p in acc.files || p in Targets(lay, rows))
      && ReadOr(r.files, p) == ReadOr(acc.files, p) + LinesFor(lay, rows, p)
    decreases |rows|
  {
    if |rows| > 0 {
      var init := rows[..|rows| - 1];
      var row := rows[|rows| - 1];
      var prev := ExportRows(acc, lay, init, false);
      ExportRowsAppends(acc, lay, init, p);
      TargetsSnoc(lay, rows);
      AppendOne(prev.files, lay.target(row), lay.line(row), p, ReadOr(acc.files, p), LinesFor(lay, init, p));
      assert Step(prev, lay, row, false).files == prev.files[lay.target(row) := ReadOr(prev.files, lay.target(row)) + lay.line(row)];
    }
  }

  lemma AppendOne(files: FileMap, t: Path, l: string, p: Path, before: string, lines: string)
    requires ReadOr(files, p) == before + lines
    ensures var f := files[t := ReadOr(files, t) + l];
      && (p in f <==> p in files || p == t)
      && ReadOr(f, p) == before + (lines + if t == p then l else "")
  {
  }

  /** A run that validates its table name, fetches and finds rows exports
      them all: the files it reports are the targets, split by whether they
      existed; a real run appends one line per row to each target and saves
      the old state with the watermark moved to the largest id; a dry run
      changes nothing. */
  lemma ExportSpec(ex: Exporter, stateFile: StateFile, files: FileMap,
                   fetch: (string, int) -> Result<seq<AuditRow>, string>, dryRun: bool)
    requires ValidateTableName(ex.tableName).Success?
    requires var state := LoadState(stateFile); var key := StateKey(ex.serviceName, ex.username);
      fetch(ValidateTableName(ex.tableName).value, Watermark(state, key)).Success?
      && fetch(ValidateTableName(ex.tableName).value, Watermark(state, key)).value != []
    ensures var state := LoadState(stateFile); var key := StateKey(ex.serviceName, ex.username);
      var last := Watermark(state, key);
      var rows := fetch(ValidateTableName(ex.tableName).value, last).value;
      var ts := Targets(LayoutOf(ex), rows);
      var o := Export(ex, stateFile, files, fetch, dryRun);
      && o.result.exportedCount == |rows|
      && o.result.addedFiles == ts - files.Keys
      && o.result.modifiedFiles == ts * files.Keys
      && (dryRun ==> o.files == files && o.saved.None?)
      && (!dryRun ==> o.saved == Some(state[key := MaxId(last, rows)]))
      && (!dryRun ==> forall p :: (p in o.files <==> p in files || p in ts)
                                  && ReadOr(o.files, p) == ReadOr(files, p) + LinesFor(LayoutOf(ex), rows, p))
  {
    var state := LoadState(stateFile);
    var key := StateKey(ex.serviceName, ex.username);
    var last := Watermark(state, key);
    var rows := fetch(ValidateTableName(ex.tableName).value, last).value;
    var start := Acc(files, {}, {}, last);
    ExportRowsClassify(files, LayoutOf(ex), rows, dryRun);
    ExportRowsMax(start, LayoutOf(ex), rows, dryRun);
    if !dryRun {
      forall p ensures var r := ExportRows(start, LayoutOf(ex), rows, false);
        && (p in r.files <==> p in files || p in Targets(LayoutOf(ex), rows))
        && ReadOr(r.files, p) == ReadOr(files, p) + LinesFor(LayoutOf(ex), rows, p)
      {
        ExportRowsAppends(start, LayoutOf(ex), rows, p);
      }
    }
  }

  /** The watermark saved never moves back, is at least every exported id,
      and only the exporter's own key changes; state entries that were not
      integers are not written back. */
  lemma WatermarkSpec(ex: Exporter, stateFile: StateFile, files: FileMap,
                      fetch: (string, int) -> Result<seq<AuditRow>, string>)
    requires Export(ex, stateFile, files, fetch, false).saved.Some?
    ensures var state := LoadState(stateFile); var key := StateKey(ex.serviceName, ex.username);
      var last := Watermark(state, key);
      var rows := fetch(ValidateTableName(ex.tableName).value, last).value;
      var saved := Export(ex, stateFile, files, fetch, false).saved.value;
      && key in saved
      && saved[key] >= last
      && (forall i :: 0 <= i < |rows| ==> saved[key] >= rows[i].auditId)
      && (saved[key] == last || exists i :: 0 <= i < |rows| && saved[key] == rows[i].auditId)
      && (forall k :: k in saved <==> k == key || k in state)
      && (forall k :: k in saved && k != key ==> saved[k] == state[k])
  {
    var state := LoadState(stateFile);
    var key := StateKey(ex.serviceName, ex.username);
    var last := Watermark(state, key);
    var rows := fetch(ValidateTableName(ex.tableName).value, last).value;
    ExportSpec(ex, stateFile, files, fetch, false);
    MaxIdSpec(last, rows);
  }

  /** An invalid table name, a failing fetch (a missing table included) and an
      empty result all export nothing, touch no file and save no state. */
  lemma NothingToExport(ex: Exporter, stateFile: StateFile, files: FileMap,
                        fetch: (string, int) -> Result<seq<AuditRow>, string>, dryRun: bool)
    requires var t := ValidateTableName(ex.tableName);
      var last := Watermark(LoadState(stateFile), StateKey(ex.serviceName, ex.username));
      t.Failure? || fetch(t.value, last).Failure? || fetch(t.value, last).value == []
    ensures Export(ex, stateFile, files, fetch, dryRun) == Outcome(NothingExported, files, None)
  {
  }

  /** A dry run reports what a real run would. */
  lemma DryRunReportsSame(ex: Exporter, stateFile: StateFile, files: FileMap,
                          fetch: (string, int) -> Result<seq<AuditRow>, string>)
    ensures Export(ex, stateFile, files, fetch, true).result == Export(ex, stateFile, files, fetch, false).result
    ensures Export(ex, stateFile, files, fetch, true).files == files
    ensures Export(ex, stateFile, files, fetch, true).saved.None?
  {
    var t := ValidateTableName(ex.tableName);
    var last := Watermark(LoadState(stateFile), StateKey(ex.serviceName, ex.username));
    if t.Success? && fetch(t.value, last).Success? && fetch(t.value, last).value != [] {
      ExportSpec(ex, stateFile, files, fetch, true);
      ExportSpec(ex, stateFile, files, fetch, false);
    }
  }
}

=== FILE: bulk.dfy ===
/** Bulk DDL extraction: objects are grouped by owner and type in order of
    first appearance, each group is cut into chunks of at most 500 objects,
    and each chunk is fetched with one catalog query. An object whose chunk
    query fails, or whose row is absent or NULL, is handed back for
    per-object extraction. */
module Bulk {
  import opened Wrappers
  import opened Models
  import Catalog

  const ChunkSize: nat := 500

  /** The dictionary key `grouped` uses. */
  datatype GroupKey = GroupKey(owner: string, objectType: string)

  function KeyOf(o: DbObject): GroupKey {
    GroupKey(o.owner, o.objectType)
  }

  /** No element occurs twice. */
  predicate Distinct<T(==)>(s: seq<T>) {
    forall i, j :: 0 <= i < j < |s| ==> s[i] != s[j]
  }

  // ---------------------------------------------------------------- grouping

  /** The group keys in the order the `grouped` dictionary first sees them. */
  function GroupKeys(objects: seq<DbObject>): seq<GroupKey>
    decreases |objects|
  {
    if |objects| == 0 then []
    else
      var ks := GroupKeys(objects[..|objects| - 1]);
      var k := KeyOf(objects[|objects| - 1]);
      if k in ks then ks else ks + [k]
  }

  /** The objects of one group, in input order. */
  function Group(objects: seq<DbObject>, k: GroupKey): (g: seq<DbObject>)
    ensures forall o :: o in g ==> o in objects && KeyOf(o) == k
    decreases |objects|
  {
    if |objects| == 0 then []
    else (if KeyOf(objects[0]) == k then [objects[0]] else []) + Group(objects[1..], k)
  }

  /** `group[start : start + 500]` for each start. */
  function Chunks(group: seq<DbObject>): (cs: seq<seq<DbObject>>)
    ensures forall i :: 0 <= i < |cs| ==> 0 < |cs[i]| <= ChunkSize
    decreases |group|
  {
    if |group| == 0 then []
    else if |group| <= ChunkSize then [group]
    else [group[..ChunkSize]] + Chunks(group[ChunkSize..])
  }

  /** One chunk with the group it belongs to. */
  datatype Batch = Batch(key: GroupKey, objects: seq<DbObject>)

  function BatchesOfGroup(k: GroupKey, cs: seq<seq<DbObject>>): (bs: seq<Batch>)
    ensures |bs| == |cs| && forall i :: 0 <= i < |cs| ==> bs[i] == Batch(k, cs[i])
  {
    seq(|cs|, i requires 0 <= i < |cs| => Batch(k, cs[i]))
  }

  /** The chunks of the groups `keys`, group after group. */
  function BatchesOf(objects: seq<DbObject>, keys: seq<GroupKey>): seq<Batch>
    decreases |keys|
  {
    if |keys| == 0 then []
    else BatchesOfGroup(keys[0], Chunks(Group(objects, keys[0]))) + BatchesOf(objects, keys[1..])
  }

  /** Every chunk the bulk extraction queries, in query order. */
  function AllBatches(objects: seq<DbObject>): seq<Batch> {
    BatchesOf(objects, GroupKeys(objects))
  }

  /** All objects of a batch list, batch after batch. */
  function BatchObjects(bs: seq<Batch>): seq<DbObject>
    decreases |bs|
  {
    if |bs| == 0 then [] else bs[0].objects + BatchObjects(bs[1..])
  }

  // ---------------------------------------------------------------- the catalog query

  /** One result row: the object name and its DDL, NULL as `None`. */
  datatype Row = Row(name: string, value: Option<string>)

  /** The binds of one chunk query. */
  datatype BulkQuery = BulkQuery(metadataType: string, owner: string, objectType: string, names: seq<string>)

  function QueryOf(b: Batch): BulkQuery {
    BulkQuery(Catalog.MetadataType(b.key.objectType), b.key.owner, b.key.objectType,
      seq(|b.objects|, i requires 0 <= i < |b.objects| => b.objects[i].objectName))
  }

  /** `by_name`: each non-NULL row overwrites earlier rows of its name; NULL
      rows are skipped. */
  function ByName(rows: seq<Row>): map<string, string>
    decreases |rows|
  {
    if |rows| == 0 then map[]
    else
      var m := ByName(rows[..|rows| - 1]);
      var last := rows[|rows| - 1];
      if last.value.None? then m else m[last.name := last.value.value]
  }

  /** What a chunk's query says about one of its objects. */
  function Verdict(result: Result<seq<Row>, string>, o: DbObject): Option<string> {
    match result
    case Failure(_) => None
    case Success(rows) =>
      var byName := ByName(rows);
      if o.objectName in byName then Some(byName[o.objectName]) else None
  }

  /** The objects of a chunk that are handed back: all of them when the
      query fails, else those without a DDL. */
  function FailedOf(result: Result<seq<Row>, string>, objects: seq<DbObject>): (f: seq<DbObject>)
    decreases |objects|
  {
    if |objects| == 0 then []
    else (if Verdict(result, objects[0]).None? then [objects[0]] else []) + FailedOf(result, objects[1..])
  }

  /** The bulk extraction's result: DDL by object, and objects to retry one by one. */
  datatype Outcome = Outcome(extracted: map<DbObject, string>, failed: seq<DbObject>)

  /** Record a chunk's DDLs. */
  function Store(ex: map<DbObject, string>, result: Result<seq<Row>, string>, objects: seq<DbObject>): map<DbObject, string>
    decreases |objects|
  {
    if |objects| == 0 then ex
    else
      var v := Verdict(result, objects[0]);
      Store(if v.Some? then ex[objects[0] := v.value] else ex, result, objects[1..])
  }

  /** One chunk of the loop. */
  function ResolveBatch(acc: Outcome, b: Batch, fetch: BulkQuery -> Result<seq<Row>, string>): Outcome {
    var result := fetch(QueryOf(b));
    match result
    case Failure(_) => Outcome(acc.extracted, acc.failed + b.objects)
    case Success(_) => Outcome(Store(acc.extracted, result, b.objects), acc.failed + FailedOf(result, b.objects))
  }

  function ResolveAll(acc: Outcome, bs: seq<Batch>, fetch: BulkQuery -> Result<seq<Row>, string>): Outcome
    decreases |bs|
  {
    if |bs| == 0 then acc else ResolveAll(ResolveBatch(acc, bs[0], fetch), bs[1..], fetch)
  }

  /** `_extract_ddl_bulk`. */
  function ExtractBulk(objects: seq<DbObject>, fetch: BulkQuery -> Result<seq<Row>, string>): Outcome {
    if |objects| == 0 then Outcome(map[], [])
    else ResolveAll(Outcome(map[], []), AllBatches(objects), fetch)
  }

  // ---------------------------------------------------------------- grouping lemmas

  /** Concatenate a sequence of sequences. */
  function Flatten<T>(ss: seq<seq<T>>): seq<T>
    decreases |ss|
  {
    if |ss| == 0 then [] else ss[0] + Flatten(ss[1..])
  }

  /** The chunks of a group, put back together, are the group. */
  lemma {:induction false} ChunksFlatten(group: seq<DbObject>)
    ensures Flatten(Chunks(group)) == group
    decreases |group|
  {
    if |group| > ChunkSize {
      ChunksFlatten(group[ChunkSize..]);
      assert Chunks(group)[1..] == Chunks(group[ChunkSize..]);
      assert group[..ChunkSize] + group[ChunkSize..] == group;
    }
  }

  /** Every key of the input is a group key, every group key is the key of
      some input object, and no key is listed twice. */
  lemma {:induction false} GroupKeysSpec(objects: seq<DbObject>)
    ensures KeysOf(objects, GroupKeys(objects))
    ensures Distinct(GroupKeys(objects))
    decreases |objects|
  {
    if |objects| > 0 {
      var p := objects[..|objects| - 1];
      var x := objects[|objects| - 1];
      GroupKeysSpec(p);
      assert objects == p + [x];
      assert forall o :: o in p ==> o in objects;
    }
  }

  /** Some object before position `n` has key `k`. */
  predicate SeenBefore(objects: seq<DbObject>, n: int, k: GroupKey) {
    exists m :: 0 <= m < n && m < |objects| && KeyOf(objects[m]) == k
  }

  /** Before any object of a later group, some object of each earlier
      group has been seen. */
  predicate FirstSeenOrder(objects: seq<DbObject>, keys: seq<GroupKey>) {
    forall i, j, n :: 0 <= i < j < |keys| && 0 <= n < |objects| && KeyOf(objects[n]) == keys[j] ==>
      SeenBefore(objects, n, keys[i])
  }

  /** The groups come in order of first appearance. */
  lemma {:induction false} GroupKeysOrder(objects: seq<DbObject>)
    ensures FirstSeenOrder(objects, GroupKeys(objects))
    decreases |objects|
  {
    if |objects| > 0 {
      var p := objects[..|objects| - 1];
      GroupKeysOrder(p);
      GroupKeysSpec(p);
      var x := objects[|objects| - 1];
      assert objects == p + [x];
      var ks := GroupKeys(p);
      var keys := GroupKeys(objects);
      forall i, j, n | 0 <= i < j < |keys| && 0 <= n < |objects| && KeyOf(objects[n]) == keys[j]
        ensures SeenBefore(objects, n, keys[i])
      {
        assert keys[i] == ks[i];
        if j < |ks| {
          assert keys[j] == ks[j];
          OldKeyOrder(p, x, ks, i, j, n);
        } else {
          NewKeyOrder(p, x, ks, i, n);
        }
      }
    }
  }

  /** `keys` are exactly the keys of `objects`. */
  predicate KeysOf(objects: seq<DbObject>, keys: seq<GroupKey>) {
    && (forall o :: o in objects ==> KeyOf(o) in keys)
    && (forall k :: k in keys ==> exists o :: o in objects && KeyOf(o) == k)
  }

  /** An old group key keeps its place when one object is appended. */
  lemma OldKeyOrder(p: seq<DbObject>, x: DbObject, ks: seq<GroupKey>, i: nat, j: nat, n: nat)
    requires FirstSeenOrder(p, ks) && KeysOf(p, ks)
    requires i < j < |ks| && n <= |p| && KeyOf((p + [x])[n]) == ks[j]
    ensures SeenBefore(p + [x], n, ks[i])
  {
    var n' := SomeIndexOf(p, ks, j);
    var n'' := if n < |p| then n else n';
    assert KeyOf(p[n'']) == ks[j] by {
      if n < |p| {
        assert (p + [x])[n] == p[n];
      }
    }
    assert SeenBefore(p, n'', ks[i]);
    var m :| 0 <= m < n'' && m < |p| && KeyOf(p[m]) == ks[i];
    assert (p + [x])[m] == p[m];
  }

  /** A position of an object with the `j`-th key. */
  lemma SomeIndexOf(p: seq<DbObject>, ks: seq<GroupKey>, j: nat) returns (n: nat)
    requires KeysOf(p, ks) && j < |ks|
    ensures n < |p| && KeyOf(p[n]) == ks[j]
  {
    assert ks[j] in ks;
    var w :| w in p && KeyOf(w) == ks[j];
    n :| n < |p| && p[n] == w;
  }


  /** A new group key comes after every old one. */
  lemma NewKeyOrder(p: seq<DbObject>, x: DbObject, ks: seq<GroupKey>, i: nat, n: nat)
    requires KeysOf(p, ks)
    requires KeyOf(x) !in ks
    requires i < |ks| && n <= |p| && KeyOf((p + [x])[n]) == KeyOf(x)
    ensures SeenBefore(p + [x], n, ks[i])
  {
    var objects := p + [x];
    assert n == |p|;
    assert ks[i] in ks;
    var w :| w in p && KeyOf(w) == ks[i];
    var m :| 0 <= m < |p| && p[m] == w;
    assert objects[m] == p[m];
  }

  /** The groups `ks`, one after another. */
  function GroupsFlat(objects: seq<DbObject>, ks: seq<GroupKey>): seq<DbObject>
    decreases |ks|
  {
    if |ks| == 0 then [] else Group(objects, ks[0]) + GroupsFlat(objects, ks[1..])
  }

  lemma {:induction false} GroupsFlatCons(o: DbObject, rest: seq<DbObject>, ks: seq<GroupKey>)
    requires Distinct(ks)
    ensures multiset(GroupsFlat([o] + rest, ks))
      == multiset(GroupsFlat(rest, ks)) + (if KeyOf(o) in ks then multiset{o} else multiset{})
    decreases |ks|
  {
    if |ks| > 0 {
      var tail := ks[1..];
      assert Distinct(tail) by {
        assert forall i :: 0 <= i < |tail| ==> tail[i] == ks[i + 1];
      }
      GroupsFlatCons(o, rest, tail);
      KeyInCons(KeyOf(o), ks);
      GroupCons(o, rest, ks[0]);
      MultisetConcat(Group([o] + rest, ks[0]), GroupsFlat([o] + rest, tail));
      MultisetConcat(Group(rest, ks[0]), GroupsFlat(rest, tail));
    }
  }

  lemma MultisetConcat(a: seq<DbObject>, b: seq<DbObject>)
    ensures multiset(a + b) == multiset(a) + multiset(b)
  {
  }

  /** With distinct keys, a key is the first one or among the others, not both. */
  lemma KeyInCons(k: GroupKey, ks: seq<GroupKey>)
    requires Distinct(ks) && |ks| > 0
    ensures k in ks <==> k == ks[0] || k in ks[1..]
    ensures !(k == ks[0] && k in ks[1..])
  {
    assert ks == [ks[0]] + ks[1..];
  }

  lemma GroupCons(o: DbObject, rest: seq<DbObject>, k: GroupKey)
    ensures multiset(Group([o] + rest, k)) == multiset(Group(rest, k)) + (if KeyOf(o) == k then multiset{o} else multiset{})
  {
    assert ([o] + rest)[1..] == rest;
  }

  /** Grouping by a list of distinct keys that covers every object's key
      loses and duplicates nothing. */
  lemma {:induction false} GroupsFlatPermutation(objects: seq<DbObject>, ks: seq<GroupKey>)
    requires Distinct(ks)
    requires forall o :: o in objects ==> KeyOf(o) in ks
    ensures multiset(GroupsFlat(objects, ks)) == multiset(objects)
    decreases |objects|
  {
    if |objects| == 0 {
      GroupsFlatEmpty(ks);
    } else {
      var o, rest := objects[0], objects[1..];
      assert objects == [o] + rest;
      GroupsFlatPermutation(rest, ks);
      GroupsFlatCons(o, rest, ks);
    }
  }

  lemma {:induction false} GroupsFlatEmpty(ks: seq<GroupKey>)
    ensures GroupsFlat([], ks) == []
    decreases |ks|
  {
    if |ks| > 0 {
      GroupsFlatEmpty(ks[1..]);
    }
  }

  lemma {:induction false} BatchObjectsConcat(a: seq<Batch>, b: seq<Batch>)
    ensures BatchObjects(a + b) == BatchObjects(a) + BatchObjects(b)
    decreases |a|
  {
    if |a| > 0 {
      assert (a + b)[1..] == a[1..] + b;
      BatchObjectsConcat(a[1..], b);
    } else {
      assert a + b == b;
    }
  }

  lemma {:induction false} BatchObjectsOfGroup(k: GroupKey, cs: seq<seq<DbObject>>)
    ensures BatchObjects(BatchesOfGroup(k, cs)) == Flatten(cs)
    decreases |cs|
  {
    if |cs| > 0 {
      assert BatchesOfGroup(k, cs)[1..] == BatchesOfGroup(k, cs[1..]);
      BatchObjectsOfGroup(k, cs[1..]);
    }
  }

  lemma {:induction false} BatchesOfObjects(objects: seq<DbObject>, ks: seq<GroupKey>)
    ensures BatchObjects(BatchesOf(objects, ks)) == GroupsFlat(objects, ks)
    decreases |ks|
  {
    if |ks| > 0 {
      var g := Group(objects, ks[0]);
      BatchesOfObjects(objects, ks[1..]);
      BatchObjectsConcat(BatchesOfGroup(ks[0], Chunks(g)), BatchesOf(objects, ks[1..]));
      BatchObjectsOfGroup(ks[0], Chunks(g));
      ChunksFlatten(g);
    }
  }

  /** The chunks queried hold every input object exactly as often as the
      input does. */
  lemma AllBatchesPermutation(objects: seq<DbObject>)
    ensures multiset(BatchObjects(AllBatches(objects))) == multiset(objects)
  {
    GroupKeysSpec(objects);
    BatchesOfObjects(objects, GroupKeys(objects));
    GroupsFlatPermutation(objects, GroupKeys(objects));
  }

  lemma {:induction false} BatchesOfShape(objects: seq<DbObject>, ks: seq<GroupKey>)
    ensures forall b :: b in BatchesOf(objects, ks) ==>
      0 < |b.objects| <= ChunkSize && b.key in ks && forall o :: o in b.objects ==> KeyOf(o) == b.key
    decreases |ks|
  {
    if |ks| > 0 {
      var g := Group(objects, ks[0]);
      var cs := Chunks(g);
      BatchesOfShape(objects, ks[1..]);
      ChunksFlatten(g);
      forall i | 0 <= i < |cs|
        ensures forall o :: o in cs[i] ==> o in g
      {
        FlattenMember(cs, i);
      }
    }
  }

  lemma {:induction false} FlattenMember<T>(ss: seq<seq<T>>, i: nat)
    requires i < |ss|
    ensures forall x :: x in ss[i] ==> x in Flatten(ss)
    decreases i
  {
    if i > 0 {
      FlattenMember(ss[1..], i - 1);
    }
  }

  /** Every chunk is non-empty, at most 500 long, and holds objects of one
      owner and type only. */
  lemma AllBatchesShape(objects: seq<DbObject>)
    ensures forall b :: b in AllBatches(objects) ==>
      && 0 < |b.objects| <= ChunkSize
      && (forall o :: o in b.objects ==> KeyOf(o) == b.key)
      && exists o :: o in objects && KeyOf(o) == b.key
  {
    GroupKeysSpec(objects);
    BatchesOfShape(objects, GroupKeys(objects));
  }

  // ---------------------------------------------------------------- distinctness

  lemma {:induction false} DistinctCount<T>(s: seq<T>)
    requires Distinct(s)
    ensures forall x :: multiset(s)[x] <= 1
    decreases |s|
  {
    if |s| > 0 {
      assert s == [s[0]] + s[1..];
      assert Distinct(s[1..]) by {
        assert forall i :: 0 <= i < |s[1..]| ==> s[1..][i] == s[i + 1];
      }
      DistinctCount(s[1..]);
      assert s[0] !in s[1..];
    }
  }

  lemma DuplicateCount<T>(s: seq<T>, i: nat, j: nat)
    requires i < j < |s|
    ensures s[i] == s[j] ==> multiset(s)[s[i]] >= 2
  {
    assert s == s[..j] + [s[j]] + s[j + 1..];
    assert s[i] == s[..j][i];
    assert s[i] in multiset(s[..j]);
  }

  /** A rearrangement of a sequence without repetitions has none either. */
  lemma DistinctPermutation<T>(a: seq<T>, b: seq<T>)
    requires multiset(a) == multiset(b) && Distinct(b)
    ensures Distinct(a)
  {
    DistinctCount(b);
    forall i, j | 0 <= i < j < |a|
      ensures a[i] != a[j]
    {
      DuplicateCount(a, i, j);
      assert multiset(a)[a[i]] <= 1;
    }
  }

  lemma DistinctConcat<T>(a: seq<T>, b: seq<T>)
    requires Distinct(a + b)
    ensures Distinct(a) && Distinct(b)
    ensures forall x :: x in a ==> x !in b
  {
    assert forall i :: 0 <= i < |a| ==> (a + b)[i] == a[i];
    assert forall i :: 0 <= i < |b| ==> (a + b)[|a| + i] == b[i];
    forall x | x in a
      ensures x !in b
    {
      var i :| 0 <= i < |a| && a[i] == x;
      forall k | 0 <= k < |b|
        ensures b[k] != x
      {
        assert (a + b)[i] != (a + b)[|a| + k];
      }
    }
  }

  // ---------------------------------------------------------------- resolution lemmas

  /** The DDL row of `name` that `by_name` keeps: the last non-NULL one. */
  predicate LastRow(rows: seq<Row>, name: string, ddl: string) {
    exists i :: 0 <= i < |rows| && rows[i] == Row(name, Some(ddl))
      && forall j :: i < j < |rows| && rows[j].name == name ==> rows[j].value.None?
  }

  /** `by_name` holds exactly the names with a non-NULL row, each with its
      last non-NULL DDL. */
  lemma {:induction false} ByNameSpec(rows: seq<Row>)
    ensures forall name :: name in ByName(rows) ==> LastRow(rows, name, ByName(rows)[name])
    ensures forall i :: 0 <= i < |rows| && rows[i].value.Some? ==> rows[i].name in ByName(rows)
    decreases |rows|
  {
    if |rows| > 0 {
      var p := rows[..|rows| - 1];
      var last := rows[|rows| - 1];
      var m := ByName(p);
      ByNameSpec(p);
      assert forall i :: 0 <= i < |p| ==> rows[i] == p[i];
      forall name | name in ByName(rows)
        ensures LastRow(rows, name, ByName(rows)[name])
      {
        if last.value.Some? && name == last.name {
          assert rows[|rows| - 1] == Row(name, Some(ByName(rows)[name]));
        } else {
          assert name in m && ByName(rows)[name] == m[name];
          assert rows == p + [last];
          LastRowExtend(p, last, name, m[name]);
        }
      }
    }
  }

  lemma LastRowExtend(p: seq<Row>, last: Row, name: string, ddl: string)
    requires LastRow(p, name, ddl)
    requires last.value.None? || last.name != name
    ensures LastRow(p + [last], name, ddl)
  {
    var rows := p + [last];
    var i :| 0 <= i < |p| && p[i] == Row(name, Some(ddl))
      && forall j :: i < j < |p| && p[j].name == name ==> p[j].value.None?;
    assert rows[i] == p[i];
    assert forall j :: i < j < |rows| - 1 ==> rows[j] == p[j];
  }

  /** The objects handed back from a chunk are those without a DDL. */
  lemma {:induction false} FailedOfSpec(result: Result<seq<Row>, string>, objects: seq<DbObject>)
    ensures forall o :: o in FailedOf(result, objects) <==> o in objects && Verdict(result, o).None?
    ensures result.Failure? ==> FailedOf(result, objects) == objects
    decreases |objects|
  {
    if |objects| > 0 {
      FailedOfSpec(result, objects[1..]);
      assert objects == [objects[0]] + objects[1..];
    }
  }

  /** Storing a chunk records the DDL of every object that has one and
      leaves every other entry as it was. */
  lemma {:induction false} StoreSpec(ex: map<DbObject, string>, result: Result<seq<Row>, string>, objects: seq<DbObject>)
    ensures var st := Store(ex, result, objects);
      forall o :: o in objects && Verdict(result, o).Some? ==> o in st && st[o] == Verdict(result, o).value
    ensures var st := Store(ex, result, objects);
      forall o :: !(o in objects && Verdict(result, o).Some?) ==> (o in st <==> o in ex) && (o in ex ==> st[o] == ex[o])
    decreases |objects|
  {
    if |objects| > 0 {
      var o0 := objects[0];
      var v := Verdict(result, o0);
      var ex' := if v.Some? then ex[o0 := v.value] else ex;
      StoreSpec(ex', result, objects[1..]);
      assert objects == [o0] + objects[1..];
    }
  }

  /** What one chunk adds to the outcome. */
  lemma ResolveBatchSpec(acc: Outcome, b: Batch, fetch: BulkQuery -> Result<seq<Row>, string>)
    ensures var r := ResolveBatch(acc, b, fetch); var res := fetch(QueryOf(b));
      r.failed == acc.failed + FailedOf(res, b.objects)
    ensures var r := ResolveBatch(acc, b, fetch); var res := fetch(QueryOf(b));
      forall o :: o in b.objects && Verdict(res, o).Some? ==> o in r.extracted && r.extracted[o] == Verdict(res, o).value
    ensures var r := ResolveBatch(acc, b, fetch); var res := fetch(QueryOf(b));
      forall o :: !(o in b.objects && Verdict(res, o).Some?) ==>
        (o in r.extracted <==> o in acc.extracted) && (o in acc.extracted ==> r.extracted[o] == acc.extracted[o])
  {
    var res := fetch(QueryOf(b));
    FailedOfSpec(res, b.objects);
    StoreSpec(acc.extracted, res, b.objects);
  }

  /** The objects handed back by every chunk, chunk after chunk. */
  function FailedAll(bs: seq<Batch>, fetch: BulkQuery -> Result<seq<Row>, string>): seq<DbObject>
    decreases |bs|
  {
    if |bs| == 0 then []
    else FailedOf(fetch(QueryOf(bs[0])), bs[0].objects) + FailedAll(bs[1..], fetch)
  }

  lemma {:induction false} BatchMember(bs: seq<Batch>, j: nat)
    requires j < |bs|
    ensures forall o :: o in bs[j].objects ==> o in BatchObjects(bs)
    decreases j
  {
    if j > 0 {
      BatchMember(bs[1..], j - 1);
    }
  }

  lemma {:induction false} FailedAllMembers(bs: seq<Batch>, fetch: BulkQuery -> Result<seq<Row>, string>)
    ensures forall o :: o in FailedAll(bs, fetch) ==> o in BatchObjects(bs)
    decreases |bs|
  {
    if |bs| > 0 {
      FailedAllMembers(bs[1..], fetch);
      FailedOfSpec(fetch(QueryOf(bs[0])), bs[0].objects);
    }
  }

  /** The chunk loop hands back each chunk's objects, chunk after chunk. */
  lemma {:induction false} ResolveAllFailed(acc: Outcome, bs: seq<Batch>, fetch: BulkQuery -> Result<seq<Row>, string>)
    ensures ResolveAll(acc, bs, fetch).failed == acc.failed + FailedAll(bs, fetch)
    decreases |bs|
  {
    if |bs| > 0 {
      ResolveBatchSpec(acc, bs[0], fetch);
      ResolveAllFailed(ResolveBatch(acc, bs[0], fetch), bs[1..], fetch);
    }
  }

  /** The chunk loop extracts an object exactly when its chunk's query gave
      it a DDL, with that DDL, and leaves every other entry alone. */
  lemma {:induction false} ResolveAllExtracted(acc: Outcome, bs: seq<Batch>, fetch: BulkQuery -> Result<seq<Row>, string>)
    requires Distinct(BatchObjects(bs))
    requires forall o :: o in BatchObjects(bs) ==> o !in acc.extracted
    ensures var r := ResolveAll(acc, bs, fetch);
      forall j, o :: 0 <= j < |bs| && o in bs[j].objects ==>
        (o in r.extracted <==> Verdict(fetch(QueryOf(bs[j])), o).Some?)
        && (o in r.extracted ==> r.extracted[o] == Verdict(fetch(QueryOf(bs[j])), o).value)
    ensures var r := ResolveAll(acc, bs, fetch);
      forall o :: o !in BatchObjects(bs) ==>
        (o in r.extracted <==> o in acc.extracted) && (o in acc.extracted ==> r.extracted[o] == acc.extracted[o])
    decreases |bs|
  {
    if |bs| > 0 {
      var b0, rest := bs[0], bs[1..];
      var acc1 := ResolveBatch(acc, b0, fetch);
      var r := ResolveAll(acc, bs, fetch);
      DistinctConcat(b0.objects, BatchObjects(rest));
      ResolveBatchSpec(acc, b0, fetch);
      ResolveAllExtracted(acc1, rest, fetch);
      forall j, o | 0 <= j < |bs| && o in bs[j].objects
        ensures (o in r.extracted <==> Verdict(fetch(QueryOf(bs[j])), o).Some?)
          && (o in r.extracted ==> r.extracted[o] == Verdict(fetch(QueryOf(bs[j])), o).value)
      {
        if j > 0 {
          assert bs[j] == rest[j - 1];
        }
      }
    }
  }

  /** Every object of the chunks is either extracted or handed back, never
      both. */
  lemma {:induction false} ResolveAllPartition(acc: Outcome, bs: seq<Batch>, fetch: BulkQuery -> Result<seq<Row>, string>)
    requires Distinct(BatchObjects(bs))
    requires forall o :: o in BatchObjects(bs) ==> o !in acc.extracted
    ensures var r := ResolveAll(acc, bs, fetch);
      forall o :: o in BatchObjects(bs) ==> (o in r.extracted <==> o !in FailedAll(bs, fetch))
    decreases |bs|
  {
    if |bs| > 0 {
      var b0, rest := bs[0], bs[1..];
      var res := fetch(QueryOf(b0));
      var acc1 := ResolveBatch(acc, b0, fetch);
      DistinctConcat(b0.objects, BatchObjects(rest));
      ResolveBatchSpec(acc, b0, fetch);
      FailedOfSpec(res, b0.objects);
      FailedAllMembers(rest, fetch);
      ResolveAllExtracted(acc1, rest, fetch);
      ResolveAllPartition(acc1, rest, fetch);
    }
  }

  /** `_extract_ddl_bulk` on distinct objects: every object lies in exactly
      one queried chunk; it is extracted exactly when that chunk's query
      returned a non-NULL DDL for its name, with that DDL, and otherwise it
      is handed back; nothing else appears in either result. The handed-back
      list is each chunk's in query order, the whole chunk when its query
      failed. */
  lemma ExtractBulkSpec(objects: seq<DbObject>, fetch: BulkQuery -> Result<seq<Row>, string>)
    requires Distinct(objects)
    ensures var out := ExtractBulk(objects, fetch); var bs := AllBatches(objects);
      out.failed == FailedAll(bs, fetch)
    ensures var out := ExtractBulk(objects, fetch); var bs := AllBatches(objects);
      forall j, o :: 0 <= j < |bs| && o in bs[j].objects ==>
        (o in out.extracted <==> Verdict(fetch(QueryOf(bs[j])), o).Some?)
        && (o in out.extracted ==> out.extracted[o] == Verdict(fetch(QueryOf(bs[j])), o).value)
    ensures var out := ExtractBulk(objects, fetch);
      forall o :: o in objects ==> (o in out.extracted <==> o !in out.failed)
    ensures var out := ExtractBulk(objects, fetch);
      forall o :: o in out.extracted || o in out.failed ==> o in objects
    ensures Distinct(BatchObjects(AllBatches(objects)))
  {
    var bs := AllBatches(objects);
    AllBatchesPermutation(objects);
    DistinctPermutation(BatchObjects(bs), objects);
    assert forall o :: o in BatchObjects(bs) <==> o in objects by {
      assert forall o :: o in BatchObjects(bs) <==> o in multiset(BatchObjects(bs));
    }
    if |objects| > 0 {
      ResolveAllFailed(Outcome(map[], []), bs, fetch);
      ResolveAllExtracted(Outcome(map[], []), bs, fetch);
      ResolveAllPartition(Outcome(map[], []), bs, fetch);
      FailedAllMembers(bs, fetch);
    } else {
      assert bs == [] by { GroupsFlatEmpty([]); }
    }
  }

  /** Each chunk's failure list is the chunk itself when its query failed. */
  lemma FailedChunk(bs: seq<Batch>, fetch: BulkQuery -> Result<seq<Row>, string>, j: nat)
    requires j < |bs| && fetch(QueryOf(bs[j])).Failure?
    ensures FailedOf(fetch(QueryOf(bs[j])), bs[j].objects) == bs[j].objects
  {
    FailedOfSpec(fetch(QueryOf(bs[j])), bs[j].objects);
  }
}

=== FILE: catalog.dfy ===
/** Catalog naming helpers of the extractor: the object-type names the
    metadata package expects, and SQL quoting of identifiers and literals. */
module Catalog {
  import opened Wrappers
  import opened Text

  /** The catalog's spaced type names and the metadata package's names for
      them. */
  const TypeMap: map<string, string> := map[
    "PACKAGE BODY" := "PACKAGE_BODY",
    "TYPE BODY" := "TYPE_BODY",
    "MATERIALIZED VIEW" := "MATERIALIZED_VIEW",
    "JAVA SOURCE" := "JAVA_SOURCE",
    "JAVA CLASS" := "JAVA_CLASS",
    "JAVA RESOURCE" := "JAVA_RESOURCE"
  ]

  /** Text without lower-case letters is its own upper case. */
  lemma UpperNoop(s: string)
    requires forall i :: 0 <= i < |s| ==> !('a' <= s[i] <= 'z')
    ensures Upper(s) == s
  {
  }

  /** `_metadata_type`: the mapped name of the upper-cased type, or the
      upper-cased type itself. */
  function MetadataType(objectType: string): (r: string)
    ensures Upper(objectType) in TypeMap ==> r == TypeMap[Upper(objectType)]
    ensures Upper(objectType) !in TypeMap ==> r == Upper(objectType)
    ensures Upper(r) == r
  {
    var u := Upper(objectType);
    if u in TypeMap then
      var v := TypeMap[u];
      assert forall k :: k in TypeMap ==> forall i :: 0 <= i < |TypeMap[k]| ==> !('a' <= TypeMap[k][i] <= 'z');
      UpperNoop(v);
      v
    else
      UpperOfUpper(objectType);
      u
  }

  lemma UpperOfUpper(s: string)
    ensures Upper(Upper(s)) == Upper(s)
  {
  }

  /** Mapping a mapped name again changes nothing: no metadata name is a
      catalog name. */
  lemma MetadataTypeIdempotent(objectType: string)
    ensures MetadataType(MetadataType(objectType)) == MetadataType(objectType)
  {
    var r := MetadataType(objectType);
    assert forall k :: k in TypeMap ==> TypeMap[k] !in TypeMap;
  }

  // ---------------------------------------------------------------- quoting

  /** Wrap `s` in the quote character `q`, doubling every `q` inside. */
  function Quote(q: char, s: string): (r: string)
    ensures |r| >= 2 && r[0] == q && r[|r| - 1] == q
  {
    [q] + ReplaceChar(s, q, [q, q]) + [q]
  }

  /** `_quote_identifier`. */
  function QuoteIdentifier(identifier: string): string {
    Quote('"', identifier)
  }

  /** `_quote_literal`. */
  function QuoteLiteral(value: string): string {
    Quote('\'', value)
  }

  /** Undo the doubling: every `q` must come in a pair. */
  function Undouble(q: char, t: string): Option<string>
    decreases |t|
  {
    if |t| == 0 then Some("")
    else if t[0] != q then
      match Undouble(q, t[1..])
      case Some(rest) => Some([t[0]] + rest)
      case None => None
    else if |t| >= 2 && t[1] == q then
      match Undouble(q, t[2..])
      case Some(rest) => Some([q] + rest)
      case None => None
    else None
  }

  /** Read a quoted text back. */
  function Unquote(q: char, t: string): Option<string> {
    if |t| >= 2 && t[0] == q && t[|t| - 1] == q then Undouble(q, t[1..|t| - 1]) else None
  }

  lemma {:induction false} UndoubleDoubled(q: char, s: string)
    ensures Undouble(q, ReplaceChar(s, q, [q, q])) == Some(s)
    decreases |s|
  {
    if |s| > 0 {
      var rest := ReplaceChar(s[1..], q, [q, q]);
      UndoubleDoubled(q, s[1..]);
      if s[0] == q {
        assert ReplaceChar(s, q, [q, q]) == [q, q] + rest;
        assert ([q, q] + rest)[2..] == rest;
      } else {
        assert ReplaceChar(s, q, [q, q]) == [s[0]] + rest;
        assert ([s[0]] + rest)[1..] == rest;
      }
      assert [s[0]] + s[1..] == s;
    }
  }

  lemma {:induction false} DoubledUndouble(q: char, t: string, s: string)
    requires Undouble(q, t) == Some(s)
    ensures ReplaceChar(s, q, [q, q]) == t
    decreases |t|
  {
    if |t| > 0 {
      if t[0] != q {
        var rest := Undouble(q, t[1..]).value;
        DoubledUndouble(q, t[1..], rest);
        assert s == [t[0]] + rest;
        assert s[1..] == rest;
        assert [t[0]] + t[1..] == t;
      } else {
        var rest := Undouble(q, t[2..]).value;
        DoubledUndouble(q, t[2..], rest);
        assert s == [q] + rest;
        assert s[1..] == rest;
        assert [q, q] + t[2..] == t;
      }
    }
  }

  /** Quoting is undone by unquoting, and only the quoted form of `s`
      unquotes to `s`. */
  lemma QuoteRoundTrip(q: char, s: string, t: string)
    ensures Unquote(q, Quote(q, s)) == Some(s)
    ensures Unquote(q, t) == Some(s) ==> t == Quote(q, s)
  {
    var d := ReplaceChar(s, q, [q, q]);
    var r := Quote(q, s);
    assert r[1..|r| - 1] == d;
    UndoubleDoubled(q, s);
    if Unquote(q, t) == Some(s) {
      DoubledUndouble(q, t[1..|t| - 1], s);
      assert t == [q] + t[1..|t| - 1] + [q];
    }
  }

  /** Read one quoted token from the front of `s`: the unquoted text and
      what follows the closing quote. A doubled quote stands for one quote
      character; a single one closes the token. */
  function ReadQuoted(q: char, s: string): Option<(string, string)> {
    if |s| > 0 && s[0] == q then ReadBody(q, s[1..]) else None
  }

  function ReadBody(q: char, t: string): Option<(string, string)>
    decreases |t|
  {
    if |t| == 0 then None
    else if t[0] == q then
      if |t| >= 2 && t[1] == q then
        match ReadBody(q, t[2..])
        case Some(p) => Some(([q] + p.0, p.1))
        case None => None
      else Some(("", t[1..]))
    else
      match ReadBody(q, t[1..])
      case Some(p) => Some(([t[0]] + p.0, p.1))
      case None => None
  }

  lemma {:induction false} ReadBodyDoubled(q: char, v: string, rest: string)
    requires rest == [] || rest[0] != q
    ensures ReadBody(q, ReplaceChar(v, q, [q, q]) + [q] + rest) == Some((v, rest))
    decreases |v|
  {
    var t := ReplaceChar(v, q, [q, q]) + [q] + rest;
    if |v| == 0 {
      assert t == [q] + rest;
      assert t[1..] == rest;
    } else {
      var tail := ReplaceChar(v[1..], q, [q, q]) + [q] + rest;
      ReadBodyDoubled(q, v[1..], rest);
      if v[0] == q {
        assert t == [q, q] + tail;
        ReadBodyQuote(q, tail, v[1..], rest);
      } else {
        assert t == [v[0]] + tail;
        ReadBodyChar(q, v[0], tail, v[1..], rest);
      }
      assert [v[0]] + v[1..] == v;
    }
  }

  /** A doubled quote reads as one quote of the body. */
  lemma ReadBodyQuote(q: char, tail: string, a: string, b: string)
    requires ReadBody(q, tail) == Some((a, b))
    ensures ReadBody(q, [q, q] + tail) == Some(([q] + a, b))
  {
    assert ([q, q] + tail)[2..] == tail;
  }

  /** Any other character is read as itself. */
  lemma ReadBodyChar(q: char, c: char, tail: string, a: string, b: string)
    requires c != q && ReadBody(q, tail) == Some((a, b))
    ensures ReadBody(q, [c] + tail) == Some(([c] + a, b))
  {
    assert ([c] + tail)[1..] == tail;
  }


  /** A quoted token is read back whole, provided the text after it does
      not start with another quote. */
  lemma ReadQuotedQuote(q: char, v: string, rest: string)
    requires rest == [] || rest[0] != q
    ensures ReadQuoted(q, Quote(q, v) + rest) == Some((v, rest))
  {
    var s := Quote(q, v) + rest;
    assert s[1..] == ReplaceChar(v, q, [q, q]) + [q] + rest;
    ReadBodyDoubled(q, v, rest);
  }
}

=== FILE: clauses.dfy ===
/** Hand-written scanners for the two clause patterns the DDL normaliser deletes
    with `re.sub(pattern, "", text)`:

      STORAGE:    `(?is)\s+STORAGE\s*\((?:[^)(]+|\([^)(]*\))*\)`
      TABLESPACE: `(?is)\s+TABLESPACE\s+(?:"[^"]+"|[A-Z0-9_$#]+)`

    Neither pattern admits two different matches at one position: every `\s+`
    or `[^..]+` run is followed by a character it cannot contain, so a
    backtracking matcher finds exactly the one match the scanners below
    compute. Case-insensitivity is ASCII case-insensitivity. */
module Clauses {
  import opened Wrappers
  import opened Text

  /** The character classes the two patterns repeat. */
  datatype Class = Spaces | NonQuotes | NameChars

  /** `[A-Z0-9_$#]` under IGNORECASE. */
  predicate IsNameChar(c: char) {
    'A' <= c <= 'Z' || 'a' <= c <= 'z' || '0' <= c <= '9' || c == '_' || c == '$' || c == '#'
  }

  predicate In(k: Class, c: char) {
    match k
    case Spaces => IsSpace(c)
    case NonQuotes => c != '"'
    case NameChars => IsNameChar(c)
  }

  /** The end of the longest run of class-`k` characters starting at `i`. */
  function SkipWhile(s: string, i: nat, k: Class): (j: nat)
    requires i <= |s|
    ensures i <= j <= |s|
    ensures forall x :: i <= x < j ==> In(k, s[x])
    ensures j < |s| ==> !In(k, s[j])
    decreases |s| - i
  {
    if i < |s| && In(k, s[i]) then SkipWhile(s, i + 1, k) else i
  }

  /** A run is determined by where its characters stop belonging to the class. */
  lemma {:induction false} SkipWhileAt(s: string, i: nat, j: nat, k: Class)
    requires i <= j <= |s|
    requires forall x :: i <= x < j ==> In(k, s[x])
    requires j < |s| ==> !In(k, s[j])
    ensures SkipWhile(s, i, k) == j
    decreases j - i
  {
    if i < j {
      SkipWhileAt(s, i + 1, j, k);
    }
  }

  /** Does the upper-case keyword `kw` occur, in any ASCII case, at `s[i..]`? */
  predicate KeywordAt(s: string, i: nat, kw: string) {
    i + |kw| <= |s| && forall x :: 0 <= x < |kw| ==> UpperChar(s[i + x]) == kw[x]
  }

  /** A keyword starting with a letter cannot start inside a whitespace run. */
  lemma KeywordStart(s: string, i: nat, kw: string)
    requires KeywordAt(s, i, kw) && |kw| > 0 && 'A' <= kw[0] <= 'Z'
    ensures !IsSpace(s[i])
  {
    assert UpperChar(s[i + 0]) == kw[0];
  }

  /** Deletes every match of `m`, scanning left to right and resuming after each
      match, as `re.sub(pattern, "", s)` does. `m(t)` is the length of the match
      that starts `t`, if there is one. */
  function DeleteMatches(s: string, m: string -> Option<nat>): string
    decreases |s|
  {
    if |s| == 0 then ""
    else
      var n := m(s).GetOr(0);
      if 0 < n <= |s| then DeleteMatches(s[n..], m) else [s[0]] + DeleteMatches(s[1..], m)
  }

  /** Deleting matches never introduces a character. */
  lemma {:induction false} DeleteMatchesChars(s: string, m: string -> Option<nat>, c: char)
    requires c !in s
    ensures c !in DeleteMatches(s, m)
    decreases |s|
  {
    if |s| > 0 {
      var n := m(s).GetOr(0);
      if 0 < n <= |s| {
        assert forall i :: 0 <= i < |s| - n ==> s[n..][i] == s[i + n];
        DeleteMatchesChars(s[n..], m, c);
      } else {
        assert forall i :: 0 <= i < |s| - 1 ==> s[1..][i] == s[i + 1];
        DeleteMatchesChars(s[1..], m, c);
      }
    }
  }

  /** Where no match starts, deletion leaves the text as it is. */
  lemma {:induction false} DeleteMatchesNone(s: string, m: string -> Option<nat>)
    requires forall k :: 0 <= k < |s| ==> m(s[k..]).GetOr(0) == 0
    ensures DeleteMatches(s, m) == s
    decreases |s|
  {
    if |s| > 0 {
      assert m(s[0..]).GetOr(0) == 0;
      assert s[0..] == s;
      assert forall k :: 0 <= k < |s| - 1 ==> s[1..][k..] == s[k + 1..];
      DeleteMatchesNone(s[1..], m);
    }
  }

  // ---------------------------------------------------------------- STORAGE

  predicate IsParen(c: char) {
    c == '(' || c == ')'
  }

  /** The first index at or after `p` holding a parenthesis, or `|s|`. */
  function NextParen(s: string, p: nat): (q: nat)
    requires p <= |s|
    ensures p <= q <= |s|
    ensures q < |s| ==> IsParen(s[q])
    ensures forall i :: p <= i < q ==> !IsParen(s[i])
    decreases |s| - p
  {
    if p == |s| || IsParen(s[p]) then p else NextParen(s, p + 1)
  }

  lemma {:induction false} NextParenAt(s: string, p: nat, j: nat)
    requires p <= j < |s| && IsParen(s[j])
    requires forall i :: p <= i < j ==> !IsParen(s[i])
    ensures NextParen(s, p) == j
    decreases j - p
  {
    if p < j {
      NextParenAt(s, p + 1, j);
    }
  }

  /** Scans the clause body `(?:[^)(]+|\([^)(]*\))*` from `p` and returns the
      index of the `)` that closes the clause, if the body is well formed. */
  function BodyEnd(s: string, p: nat): (r: Option<nat>)
    requires p <= |s|
    ensures r.Some? ==> p <= r.value < |s| && s[r.value] == ')'
    decreases |s| - p
  {
    if p == |s| then None
    else if s[p] == ')' then Some(p)
    else if s[p] == '(' then
      var q := NextParen(s, p + 1);
      if q < |s| && s[q] == ')' then BodyEnd(s, q + 1) else None
    else BodyEnd(s, p + 1)
  }

  const StorageKeyword := "STORAGE"

  /** The length of the STORAGE clause match that starts `s`, if any. */
  function StorageMatch(s: string): (r: Option<nat>)
    ensures r.Some? ==> 0 < r.value <= |s|
  {
    var w := SkipWhile(s, 0, Spaces);
    if w == 0 || !KeywordAt(s, w, StorageKeyword) then None
    else
      var p := SkipWhile(s, w + |StorageKeyword|, Spaces);
      if p < |s| && s[p] == '(' then
        match BodyEnd(s, p + 1)
        case Some(q) => Some(q + 1)
        case None => None
      else None
  }

  /** `STORAGE_PATTERN.sub("", s)`. */
  function RemoveStorage(s: string): string {
    DeleteMatches(s, StorageMatch)
  }

  /** Every STORAGE clause contains an opening parenthesis. */
  lemma StorageNeedsParen(s: string)
    requires StorageMatch(s).Some?
    ensures '(' in s
  {
    var w := SkipWhile(s, 0, Spaces);
    var p := SkipWhile(s, w + |StorageKeyword|, Spaces);
    assert s[p] == '(';
  }

  /** Text without an opening parenthesis has no STORAGE clause to delete. */
  lemma StorageNoParenKept(s: string)
    requires '(' !in s
    ensures RemoveStorage(s) == s
  {
    forall k | 0 <= k < |s|
      ensures StorageMatch(s[k..]).GetOr(0) == 0
    {
      if StorageMatch(s[k..]).Some? {
        StorageNeedsParen(s[k..]);
        assert false;
      }
    }
    DeleteMatchesNone(s, StorageMatch);
  }

  /** Parenthesis depth change of one character. */
  function ParenDelta(c: char): int {
    if c == '(' then 1 else if c == ')' then -1 else 0
  }

  /** `s[i..j]`, read from depth `d`, keeps its parenthesis depth between 0
      and 1 and ends at depth 0: read from depth 0, it is balanced and nests
      at most one level deep. */
  predicate NestIn(s: string, i: nat, j: nat, d: int)
    requires i <= j <= |s|
    decreases j - i
  {
    if i == j then d == 0
    else
      var d' := d + ParenDelta(s[i]);
      0 <= d' <= 1 && NestIn(s, i + 1, j, d')
  }

  /** Inside a group (depth 1) the next parenthesis is the group's `)`. */
  lemma {:induction false} GroupClose(s: string, i: nat, j: nat)
    requires i <= j <= |s| && NestIn(s, i, j, 1)
    ensures var q := NextParen(s, i); q < j && s[q] == ')' && NestIn(s, q + 1, j, 0)
    decreases j - i
  {
    if s[i] != ')' {
      GroupClose(s, i + 1, j);
    }
  }

  /** The body scanner passes over a one-level-nested stretch of body without
      stopping. */
  lemma {:induction false} BodySkip(s: string, i: nat, j: nat)
    requires i <= j <= |s| && NestIn(s, i, j, 0)
    ensures BodyEnd(s, i) == BodyEnd(s, j)
    decreases j - i
  {
    if i < j {
      if s[i] == '(' {
        GroupClose(s, i + 1, j);
        BodySkip(s, NextParen(s, i + 1) + 1, j);
      } else {
        BodySkip(s, i + 1, j);
      }
    }
  }

  /** Whitespace `s[..w]`, the keyword, whitespace up to `p`, `(`: the scanner
      then hands `s[p + 1..]` to the body scanner. */
  lemma StorageHead(s: string, w: nat, p: nat)
    requires 0 < w && w + 7 <= p < |s|
    requires forall i :: 0 <= i < w ==> IsSpace(s[i])
    requires KeywordAt(s, w, StorageKeyword)
    requires forall i :: w + 7 <= i < p ==> IsSpace(s[i])
    requires s[p] == '('
    ensures StorageMatch(s) == match BodyEnd(s, p + 1)
      case Some(q) => Some(q + 1)
      case None => None
  {
    KeywordStart(s, w, StorageKeyword);
    SkipWhileAt(s, 0, w, Spaces);
    SkipWhileAt(s, w + 7, p, Spaces);
  }

  /** A whitespace-preceded `STORAGE ( body )` clause is one match, deleted
      together with its leading whitespace, when its body `s[p + 1..j]` nests
      parentheses at most one level deep. Stated by positions: whitespace
      `s[..w]`, the keyword in any case, whitespace up to `p`, `(` at `p`,
      the body, `)` at `j`. */
  lemma StorageClauseRemoved(s: string, w: nat, p: nat, j: nat)
    requires 0 < w && w + 7 <= p < j < |s|
    requires forall i :: 0 <= i < w ==> IsSpace(s[i])
    requires KeywordAt(s, w, StorageKeyword)
    requires forall i :: w + 7 <= i < p ==> IsSpace(s[i])
    requires s[p] == '(' && NestIn(s, p + 1, j, 0) && s[j] == ')'
    ensures StorageMatch(s) == Some(j + 1)
    ensures RemoveStorage(s) == RemoveStorage(s[j + 1..])
  {
    StorageHead(s, w, p);
    BodySkip(s, p + 1, j);
  }

  /** A STORAGE clause whose body opens a second level of nesting, at `o`
      inside a group opened at `u`, does not match at all, so it stays in the
      text. */
  lemma StorageTooDeepKept(s: string, w: nat, p: nat, u: nat, o: nat)
    requires 0 < w && w + 7 <= p < u < o < |s|
    requires forall i :: 0 <= i < w ==> IsSpace(s[i])
    requires KeywordAt(s, w, StorageKeyword)
    requires forall i :: w + 7 <= i < p ==> IsSpace(s[i])
    requires s[p] == '(' && NestIn(s, p + 1, u, 0)
    requires s[u] == '(' && s[o] == '('
    requires forall i :: u < i < o ==> !IsParen(s[i])
    ensures StorageMatch(s) == None
  {
    StorageHead(s, w, p);
    BodySkip(s, p + 1, u);
    BodyTooDeep(s, u, o);
  }

  /** A group that opens another group before closing ends the body scan
      without a match. */
  lemma BodyTooDeep(s: string, u: nat, o: nat)
    requires u < o < |s| && s[u] == '(' && s[o] == '('
    requires forall i :: u < i < o ==> !IsParen(s[i])
    ensures BodyEnd(s, u) == None
  {
    NextParenAt(s, u + 1, o);
  }

  // ---------------------------------------------------------------- TABLESPACE

  const TablespaceKeyword := "TABLESPACE"

  /** The length of the TABLESPACE clause match that starts `s`, if any. */
  function TablespaceMatch(s: string): (r: Option<nat>)
    ensures r.Some? ==> 0 < r.value <= |s|
  {
    var w := SkipWhile(s, 0, Spaces);
    if w == 0 || !KeywordAt(s, w, TablespaceKeyword) then None
    else
      var k := w + |TablespaceKeyword|;
      var p := SkipWhile(s, k, Spaces);
      if p == k then None
      else if p < |s| && s[p] == '"' then
        var q := SkipWhile(s, p + 1, NonQuotes);
        if p + 1 < q < |s| then Some(q + 1) else None
      else
        var e := SkipWhile(s, p, NameChars);
        if p < e then Some(e) else None
  }

  /** `TABLESPACE_PATTERN.sub("", s)`. */
  function RemoveTablespace(s: string): string {
    DeleteMatches(s, TablespaceMatch)
  }

  /** Whitespace `s[..w]`, the keyword, whitespace up to `p`: the scanner then
      looks at `s[p..]` for the name. */
  lemma TablespaceHead(s: string, w: nat, p: nat)
    requires 0 < w && w + 10 < p < |s|
    requires forall i :: 0 <= i < w ==> IsSpace(s[i])
    requires KeywordAt(s, w, TablespaceKeyword)
    requires forall i :: w + 10 <= i < p ==> IsSpace(s[i])
    requires !IsSpace(s[p])
    ensures SkipWhile(s, 0, Spaces) == w
    ensures SkipWhile(s, w + 10, Spaces) == p
  {
    KeywordStart(s, w, TablespaceKeyword);
    SkipWhileAt(s, 0, w, Spaces);
    SkipWhileAt(s, w + 10, p, Spaces);
  }

  /** A whitespace-preceded `TABLESPACE "name"` clause, with a non-empty
      quoted name `s[p + 1..q]`, is one match, deleted together with its
      leading whitespace. */
  lemma QuotedTablespaceRemoved(s: string, w: nat, p: nat, q: nat)
    requires 0 < w && w + 10 < p && p + 1 < q < |s|
    requires forall i :: 0 <= i < w ==> IsSpace(s[i])
    requires KeywordAt(s, w, TablespaceKeyword)
    requires forall i :: w + 10 <= i < p ==> IsSpace(s[i])
    requires s[p] == '"' && s[q] == '"'
    requires forall i :: p < i < q ==> s[i] != '"'
    ensures TablespaceMatch(s) == Some(q + 1)
    ensures RemoveTablespace(s) == RemoveTablespace(s[q + 1..])
  {
    TablespaceHead(s, w, p);
    SkipWhileAt(s, p + 1, q, NonQuotes);
  }

  /** A whitespace-preceded `TABLESPACE name` clause, with a bare name
      `s[p..e]` of name characters, is one match, name and leading whitespace
      included. */
  lemma BareTablespaceRemoved(s: string, w: nat, p: nat, e: nat)
    requires 0 < w && w + 10 < p < e <= |s|
    requires forall i :: 0 <= i < w ==> IsSpace(s[i])
    requires KeywordAt(s, w, TablespaceKeyword)
    requires forall i :: w + 10 <= i < p ==> IsSpace(s[i])
    requires forall i :: p <= i < e ==> IsNameChar(s[i])
    requires e < |s| ==> !IsNameChar(s[e])
    ensures TablespaceMatch(s) == Some(e)
    ensures RemoveTablespace(s) == RemoveTablespace(s[e..])
  {
    assert IsNameChar(s[p]);
    TablespaceHead(s, w, p);
    SkipWhileAt(s, p, e, NameChars);
  }
}

=== FILE: comments.dfy ===
/** The `COMMENT ON` statements the extractor appends to a table's DDL, and
    a reader for them: every statement is a template of fixed text and
    quoted values, and reading a rendered statement gives its values back. */
module Comments {
  import opened Wrappers
  import opened Text
  import opened Models
  import Catalog
  import Partitions

  /** A piece of a statement template: fixed text, or a value quoted with `q`. */
  datatype Piece = Lit(text: string) | Quoted(q: char)

  /** How many values a template takes. */
  function Holes(pieces: seq<Piece>): nat
    decreases |pieces|
  {
    if |pieces| == 0 then 0 else (if pieces[0].Quoted? then 1 else 0) + Holes(pieces[1..])
  }

  /** Fill a template's holes with `values`, in order. */
  function Render(pieces: seq<Piece>, values: seq<string>): string
    requires |values| == Holes(pieces)
    decreases |pieces|
  {
    if |pieces| == 0 then ""
    else match pieces[0]
      case Lit(t) => t + Render(pieces[1..], values)
      case Quoted(q) => Catalog.Quote(q, values[0]) + Render(pieces[1..], values[1..])
  }

  /** Read a statement against a template: the values of its holes. */
  function Parse(pieces: seq<Piece>, s: string): Option<seq<string>>
    decreases |pieces|
  {
    if |pieces| == 0 then (if s == "" then Some([]) else None)
    else match pieces[0]
      case Lit(t) => if StartsWith(s, t) then Parse(pieces[1..], s[|t|..]) else None
      case Quoted(q) =>
        match Catalog.ReadQuoted(q, s)
        case None => None
        case Some(p) =>
          match Parse(pieces[1..], p.1)
          case None => None
          case Some(vs) => Some([p.0] + vs)
  }

  /** Every quoted hole is last or followed by non-empty fixed text that does
      not start with its quote character, so the reader knows where it ends. */
  predicate Separated(pieces: seq<Piece>) {
    forall i :: 0 <= i < |pieces| && pieces[i].Quoted? ==>
      i + 1 == |pieces| || (pieces[i + 1].Lit? && pieces[i + 1].text != "" && pieces[i + 1].text[0] != pieces[i].q)
  }

  lemma RenderStart(pieces: seq<Piece>, values: seq<string>)
    requires |pieces| > 0 && pieces[0].Lit? && |values| == Holes(pieces)
    ensures StartsWith(Render(pieces, values), pieces[0].text)
  {
    var t := pieces[0].text;
    assert Render(pieces, values)[..|t|] == t;
  }

  /** Reading a rendered statement gives back the values it was rendered with. */
  lemma {:induction false} ParseRender(pieces: seq<Piece>, values: seq<string>)
    requires Separated(pieces) && |values| == Holes(pieces)
    ensures Parse(pieces, Render(pieces, values)) == Some(values)
    decreases |pieces|
  {
    if |pieces| > 0 {
      var rest := pieces[1..];
      assert Separated(rest) by {
        forall i | 0 <= i < |rest| && rest[i].Quoted?
          ensures i + 1 == |rest| || (rest[i + 1].Lit? && rest[i + 1].text != "" && rest[i + 1].text[0] != rest[i].q)
        {
          assert rest[i] == pieces[i + 1];
        }
      }
      match pieces[0]
      case Lit(t) =>
        var r := Render(rest, values);
        ParseRender(rest, values);
        assert (t + r)[|t|..] == r;
      case Quoted(q) =>
        var r := Render(rest, values[1..]);
        ParseRender(rest, values[1..]);
        if |rest| > 0 {
          RenderStart(rest, values[1..]);
          assert r[0] == rest[0].text[0];
        }
        Catalog.ReadQuotedQuote(q, values[0], r);
        assert [values[0]] + values[1..] == values;
    }
  }

  // ---------------------------------------------------------------- the two statements

  const ColumnTemplate: seq<Piece> := [
    Lit("COMMENT ON COLUMN "), Quoted('"'), Lit("."), Quoted('"'), Lit("."), Quoted('"'),
    Lit(" IS "), Quoted('\''), Lit(";")]

  const TableTemplate: seq<Piece> := [
    Lit("COMMENT ON TABLE "), Quoted('"'), Lit("."), Quoted('"'), Lit(" IS "), Quoted('\''), Lit(";")]

  lemma ColumnTemplateShape()
    ensures Holes(ColumnTemplate) == 4 && Separated(ColumnTemplate)
  {
  }

  lemma TableTemplateShape()
    ensures Holes(TableTemplate) == 3 && Separated(TableTemplate)
  {
  }

  /** `COMMENT ON COLUMN "owner"."table"."column" IS 'comment';`, the names
      quoted as identifiers and the comment as a literal. */
  function ColumnStatement(owner: string, table: string, column: string, comment: string): string {
    ColumnTemplateShape();
    Render(ColumnTemplate, [owner, table, column, comment])
  }

  /** `COMMENT ON TABLE "owner"."table" IS 'comment';` */
  function TableStatement(owner: string, table: string, comment: string): string {
    TableTemplateShape();
    Render(TableTemplate, [owner, table, comment])
  }

  /** A column comment statement names its owner, table and column and
      carries its comment, each recoverable whatever quotes they hold. */
  lemma ColumnStatementParses(owner: string, table: string, column: string, comment: string)
    ensures Parse(ColumnTemplate, ColumnStatement(owner, table, column, comment)) == Some([owner, table, column, comment])
  {
    ColumnTemplateShape();
    ParseRender(ColumnTemplate, [owner, table, column, comment]);
  }

  /** A table comment statement names its owner and table and carries its
      comment, each recoverable whatever quotes they hold. */
  lemma TableStatementParses(owner: string, table: string, comment: string)
    ensures Parse(TableTemplate, TableStatement(owner, table, comment)) == Some([owner, table, comment])
  {
    TableTemplateShape();
    ParseRender(TableTemplate, [owner, table, comment]);
  }

  // ---------------------------------------------------------------- a table's comments

  /** One row of the column-comment query. */
  datatype CommentRow = CommentRow(column: string, comment: Option<string>)

  /** The rows that have a comment, in order. */
  function Commented(rows: seq<CommentRow>): (r: seq<CommentRow>)
    ensures |r| <= |rows|
    ensures forall k :: 0 <= k < |r| ==> r[k].comment.Some? && r[k] in rows
    ensures forall k :: 0 <= k < |rows| && rows[k].comment.Some? ==> rows[k] in r
    ensures Partitions.IsSubsequence(r, rows)
    ensures forall x :: multiset(r)[x] == (if x.comment.Some? then multiset(rows)[x] else 0)
    decreases |rows|
  {
    if |rows| == 0 then []
    else
      var tail := Commented(rows[1..]);
      assert multiset(rows) == multiset{rows[0]} + multiset(rows[1..]) by {
        assert rows == [rows[0]] + rows[1..];
      }
      if rows[0].comment.Some? then
        assert ([rows[0]] + tail)[1..] == tail;
        assert multiset([rows[0]] + tail) == multiset{rows[0]} + multiset(tail);
        [rows[0]] + tail
      else
        tail
  }

  /** The column statements of a table, in column order; rows with a NULL
      comment are skipped. */
  function ColumnStatements(table: DbObject, rows: seq<CommentRow>): seq<string> {
    var cs := Commented(rows);
    seq(|cs|, k requires 0 <= k < |cs| => ColumnStatement(table.owner, table.objectName, cs[k].column, cs[k].comment.value))
  }

  /** The k-th column statement reads back as the k-th commented row, on
      this table. */
  lemma ColumnStatementsSpec(table: DbObject, rows: seq<CommentRow>)
    ensures var st := ColumnStatements(table, rows); var cs := Commented(rows);
      && |st| == |cs|
      && forall k :: 0 <= k < |st| ==> (cs[k].comment.Some?
        && Parse(ColumnTemplate, st[k]) == Some([table.owner, table.objectName, cs[k].column, cs[k].comment.value]))
  {
    var st := ColumnStatements(table, rows);
    var cs := Commented(rows);
    forall k | 0 <= k < |st|
      ensures Parse(ColumnTemplate, st[k]) == Some([table.owner, table.objectName, cs[k].column, cs[k].comment.value])
    {
      ColumnStatementParses(table.owner, table.objectName, cs[k].column, cs[k].comment.value);
    }
  }

  /** `_extract_table_comments`: the column statements, then the table
      statement when the table has a comment. A failing query fails the
      whole step; the table query runs only after the column query. */
  function TableComments(table: DbObject, columns: Result<seq<CommentRow>, string>,
                         tableComment: Result<Option<string>, string>): Result<seq<string>, string>
  {
    match columns
    case Failure(e) => Failure(e)
    case Success(rows) =>
      match tableComment
      case Failure(e) => Failure(e)
      case Success(c) =>
        var st := ColumnStatements(table, rows);
        Success(if c.Some? then st + [TableStatement(table.owner, table.objectName, c.value)] else st)
  }

  /** The statements are one per commented column, in order, plus one for the
      table comment when there is one; each reads back as what it records. */
  lemma TableCommentsSpec(table: DbObject, rows: seq<CommentRow>, tableComment: Option<string>)
    ensures var r := TableComments(table, Success(rows), Success(tableComment));
      && r.Success?
      && |r.value| == |Commented(rows)| + (if tableComment.Some? then 1 else 0)
      && (forall k :: 0 <= k < |Commented(rows)| ==>
           (Commented(rows)[k].comment.Some?
            && Parse(ColumnTemplate, r.value[k])
               == Some([table.owner, table.objectName, Commented(rows)[k].column, Commented(rows)[k].comment.value])))
      && (tableComment.Some? ==>
           Parse(TableTemplate, r.value[|r.value| - 1]) == Some([table.owner, table.objectName, tableComment.value]))
  {
    ColumnStatementsSpec(table, rows);
    if tableComment.Some? {
      TableStatementParses(table.owner, table.objectName, tableComment.value);
    }
  }
}

=== FILE: config.dfy ===
/** Loading and validating the YAML configuration: the parsed document is a
    tree of values, every field has its default, and every rule the loader
    enforces is an error path. */
module Config {
  import opened Wrappers
  import opened Text
  import opened Models
  import Partitions

  /** A parsed YAML value. */
  datatype Value = Null | Str(s: string) | Int(i: int) | Bool(b: bool) | List(items: seq<Value>) | Dict(entries: map<string, Value>)

  /** Python's `str(v)` for the scalar values; containers print as a fixed
      placeholder. */
  function Show(v: Value): string {
    match v
    case Null => "None"
    case Str(s) => s
    case Int(i) => IntToString(i)
    case Bool(b) => if b then "True" else "False"
    case List(_) => "[...]"
    case Dict(_) => "{...}"
  }

  /** Python's truth value. */
  predicate Truthy(v: Value) {
    match v
    case Null => false
    case Str(s) => s != ""
    case Int(i) => i != 0
    case Bool(b) => b
    case List(items) => items != []
    case Dict(entries) => entries != map[]
  }

  /** `m.get(key, default)`. */
  function Get(m: map<string, Value>, key: string, default: Value): Value {
    if key in m then m[key] else default
  }

  /** Python's `int(v)`. */
  function ToInt(v: Value): Result<int, string> {
    match v
    case Int(i) => Success(i)
    case Bool(b) => Success(if b then 1 else 0)
    case Str(s) =>
      var p := ParseInt(s);
      if p.Some? then Success(p.value) else Failure("invalid literal for int() with base 10: '" + s + "'")
    case _ => Failure("int() argument must be a string, a bytes-like object or a real number")
  }

  // ---------------------------------------------------------------- the configuration

  const DefaultObjectTypes: seq<string> := [
    "TABLE", "VIEW", "INDEX", "SEQUENCE", "SYNONYM", "TRIGGER", "TYPE", "TYPE BODY",
    "PROCEDURE", "FUNCTION", "PACKAGE", "PACKAGE BODY", "MATERIALIZED VIEW"]

  const DefaultPort: int := 1521
  const DefaultRetentionDays: int := 30
  const DefaultTemplate: string := "snapshot: {timestamp}"
  const DefaultRemote: string := "origin"

  datatype OracleConfig = OracleConfig(host: string, port: int, serviceName: string, username: string, password: string)
  {
    /** `host:port/service_name`. */
    function Dsn(): string {
      host + ":" + IntToString(port) + "/" + serviceName
    }
  }

  datatype ScopeConfig = ScopeConfig(
    discoveryMode: string,
    includeSchemas: seq<string>,
    excludeSchemas: seq<string>,
    objectTypes: seq<string>)

  datatype OutputConfig = OutputConfig(snapshotRoot: Path, lineEnding: string)

  datatype GitConfig = GitConfig(
    repoPath: Path,
    branch: Option<string>,
    commitMessageTemplate: string,
    autoPush: bool,
    remote: string)

  datatype LogsConfig = LogsConfig(retentionDays: int)

  datatype AppConfig = AppConfig(
    oracle: OracleConfig,
    scope: ScopeConfig,
    output: OutputConfig,
    git: GitConfig,
    logs: LogsConfig)

  // ---------------------------------------------------------------- field readers

  /** Text with nothing to strip at either end. */
  predicate Stripped(s: string) {
    s == [] || (!IsSpace(s[0]) && !IsSpace(s[|s| - 1]))
  }

  /** A normalised list entry: non-empty, stripped, upper case. */
  predicate UpperName(s: string) {
    s != "" && Stripped(s) && NoLower(s)
  }

  /** No lower-case ASCII letter: upper-casing changes nothing. */
  predicate NoLower(s: string) {
    forall i :: 0 <= i < |s| ==> !('a' <= s[i] <= 'z')
  }

  /** One list entry stripped and upper-cased; empty when nothing is left. */
  function UpperItem(v: Value): (r: string)
    ensures r != "" ==> UpperName(r)
  {
    var t := Strip(Show(v));
    StripStripped(Show(v));
    UpperKeepsStripped(t);
    Upper(t)
  }

  /** Reference for the list cleaning: every item printed, stripped and
      upper-cased, blanks included. */
  function Cleaned(items: seq<Value>): (r: seq<string>)
    ensures |r| == |items| && forall i :: 0 <= i < |items| ==> r[i] == UpperItem(items[i])
  {
    seq(|items|, i requires 0 <= i < |items| => UpperItem(items[i]))
  }

  lemma CleanedCons(items: seq<Value>)
    requires |items| > 0
    ensures Cleaned(items) == [UpperItem(items[0])] + Cleaned(items[1..])
    ensures multiset(Cleaned(items)) == multiset{UpperItem(items[0])} + multiset(Cleaned(items[1..]))
    ensures Cleaned(items)[1..] == Cleaned(items[1..])
  {
    var c := Cleaned(items);
    var d := [UpperItem(items[0])] + Cleaned(items[1..]);
    assert |c| == |d|;
    forall i | 0 <= i < |c| ensures c[i] == d[i] {
      if i > 0 {
        assert items[1..][i - 1] == items[i];
      }
    }
    assert c == d;
  }

  /** The kept entries of a list, stripped and upper-cased: the cleaned
      items in order, each as often as it occurs, with the blanks dropped. */
  function UpperItems(items: seq<Value>): (r: seq<string>)
    ensures |r| <= |items|
    ensures forall s :: s in r ==> UpperName(s)
    ensures "" !in r
    ensures Partitions.IsSubsequence(r, Cleaned(items))
    ensures forall x :: multiset(r)[x] == (if x == "" then 0 else multiset(Cleaned(items))[x])
    decreases |items|
  {
    if |items| == 0 then []
    else
      var n := UpperItem(items[0]);
      var rest := UpperItems(items[1..]);
      CleanedCons(items);
      if n != "" then
        assert ([n] + rest)[1..] == rest;
        assert multiset([n] + rest) == multiset{n} + multiset(rest);
        [n] + rest
      else
        rest
  }

  lemma StripStripped(s: string)
    ensures Stripped(Strip(s))
  {
    TrimShape(s, Whitespace);
  }

  lemma UpperKeepsStripped(t: string)
    requires Stripped(t)
    ensures Stripped(Upper(t)) && NoLower(Upper(t))
  {
  }

  /** `_to_upper_list`: `None` is the empty list, a non-list is an error. */
  function ToUpperList(raw: Value): (r: Result<seq<string>, string>)
    ensures r.Success? <==> raw.Null? || raw.List?
    ensures raw.Null? ==> r == Success([])
    ensures raw.List? ==> r == Success(UpperItems(raw.items))
    ensures r.Success? ==> forall k :: 0 <= k < |r.value| ==> UpperName(r.value[k])
  {
    match raw
    case Null => Success([])
    case List(items) => Success(UpperItems(items))
    case _ => Failure("List type is required.")
  }

  function AsStrings(names: seq<string>): (vs: seq<Value>)
    ensures |vs| == |names| && forall k :: 0 <= k < |names| ==> vs[k] == Str(names[k])
  {
    seq(|names|, k requires 0 <= k < |names| => Str(names[k]))
  }

  /** Normalising an already normalised list changes nothing. */
  lemma {:induction false} UpperItemsFixed(names: seq<string>)
    requires forall k :: 0 <= k < |names| ==> UpperName(names[k])
    ensures UpperItems(AsStrings(names)) == names
    decreases |names|
  {
    if |names| > 0 {
      assert AsStrings(names)[1..] == AsStrings(names[1..]);
      UpperItemFixed(names[0]);
      UpperItemsFixed(names[1..]);
      ConsSplit(names);
    }
  }

  lemma ConsSplit(names: seq<string>)
    requires |names| > 0
    ensures [names[0]] + names[1..] == names
  {
  }

  lemma UpperItemFixed(n: string)
    requires UpperName(n)
    ensures UpperItem(Str(n)) == n
  {
    TrimNoop(n, Whitespace);
    assert Upper(n) == n;
  }

  /** `_to_upper_list` is idempotent. */
  lemma ToUpperListIdempotent(raw: Value)
    requires ToUpperList(raw).Success?
    ensures ToUpperList(List(AsStrings(ToUpperList(raw).value))) == ToUpperList(raw)
  {
    UpperItemsFixed(ToUpperList(raw).value);
  }

  /** The path segments of `raw` as `pathlib` keeps them: empty and `.`
      segments vanish, `..` stays. */
  function PlainSegments(parts: seq<string>): (r: seq<string>)
    ensures forall k :: 0 <= k < |r| ==> r[k] != "" && r[k] != "."
    decreases |parts|
  {
    if |parts| == 0 then []
    else (if parts[0] == "" || parts[0] == "." then [] else [parts[0]]) + PlainSegments(parts[1..])
  }

  /** Resolve relative segments against `base`: `..` climbs, never above
      the root. */
  function Resolve(base: Path, parts: seq<string>): Path
    decreases |parts|
  {
    if |parts| == 0 then base
    else
      var p := parts[0];
      var next := if p == ".." then (if |base| == 0 then base else base[..|base| - 1]) else base + [p];
      Resolve(next, parts[1..])
  }

  /** `_resolve_path`: an absolute path is taken as written; a relative one
      is joined to the configuration's directory and resolved. */
  function ResolvePath(raw: string, baseDir: Path): Path {
    var parts := PlainSegments(Split(raw, '/'));
    if StartsWith(raw, "/") then parts else Resolve(baseDir, parts)
  }

  /** Resolving plain names only appends them. */
  lemma {:induction false} ResolvePlain(base: Path, parts: seq<string>)
    requires forall k :: 0 <= k < |parts| ==> parts[k] != ".."
    ensures Resolve(base, parts) == base + parts
    decreases |parts|
  {
    if |parts| > 0 {
      ResolvePlain(base + [parts[0]], parts[1..]);
      assert base + [parts[0]] + parts[1..] == base + parts;
    }
  }

  /** A relative path without `..` lands inside the base directory. */
  lemma ResolvePathInside(raw: string, baseDir: Path)
    requires !StartsWith(raw, "/") && forall k :: 0 <= k < |Split(raw, '/')| ==> Split(raw, '/')[k] != ".."
    ensures var parts := PlainSegments(Split(raw, '/'));
      ResolvePath(raw, baseDir) == baseDir + parts
  {
    PlainNoDotDot(Split(raw, '/'));
    ResolvePlain(baseDir, PlainSegments(Split(raw, '/')));
  }

  lemma {:induction false} PlainNoDotDot(parts: seq<string>)
    requires forall k :: 0 <= k < |parts| ==> parts[k] != ".."
    ensures forall k :: 0 <= k < |PlainSegments(parts)| ==> PlainSegments(parts)[k] != ".."
    decreases |parts|
  {
    if |parts| > 0 {
      PlainNoDotDot(parts[1..]);
    }
  }

  /** `Path(raw)` accepts text only. */
  function PathText(v: Value): Result<string, string> {
    if v.Str? then Success(v.s) else Failure("expected str, bytes or os.PathLike object")
  }

  // ---------------------------------------------------------------- sections

  /** `raw.get(key) or {}`: a missing or empty section is an empty mapping;
      any other non-mapping fails where the loader first reads from it. */
  function Section(raw: map<string, Value>, key: string): Result<map<string, Value>, string> {
    var v := Get(raw, key, Null);
    if !Truthy(v) then Success(map[])
    else if v.Dict? then Success(v.entries)
    else Failure("section " + key + " is not a mapping")
  }

  /** `oracle_raw[key]`, a missing key being the loader's error. */
  function Required(sec: map<string, Value>, key: string): Result<Value, string> {
    if key in sec then Success(sec[key]) else Failure("Missing oracle config field: '" + key + "'")
  }

  function LoadOracle(sec: map<string, Value>): (r: Result<OracleConfig, string>)
    ensures r.Success? <==>
      && "host" in sec && "service_name" in sec && "username" in sec && "password" in sec
      && ToInt(Get(sec, "port", Int(DefaultPort))).Success?
      && Strip(Show(sec["host"])) != "" && Strip(Show(sec["service_name"])) != "" && Strip(Show(sec["username"])) != ""
    ensures "host" !in sec ==> r == Failure("Missing oracle config field: 'host'")
    ensures r.Success? ==> r.value.port == ToInt(Get(sec, "port", Int(DefaultPort))).value && r.value.password == Show(sec["password"])
    ensures r.Success? ==> r.value.host != "" && r.value.serviceName != "" && r.value.username != ""
    ensures r.Success? ==> Stripped(r.value.host) && Stripped(r.value.serviceName) && Stripped(r.value.username)
    ensures r.Success? ==>
      && r.value.host == Strip(Show(sec["host"]))
      && r.value.serviceName == Strip(Show(sec["service_name"]))
      && r.value.username == Strip(Show(sec["username"]))
  {
    match Required(sec, "host")
    case Failure(e) =>
      assert "Missing oracle config field: '" + "host" + "'" == "Missing oracle config field: 'host'";
      Failure(e)
    case Success(h) =>
      match ToInt(Get(sec, "port", Int(DefaultPort)))
      case Failure(e) => Failure(e)
      case Success(port) =>
        match Required(sec, "service_name")
        case Failure(e) => Failure(e)
        case Success(sn) =>
          match Required(sec, "username")
          case Failure(e) => Failure(e)
          case Success(u) =>
            match Required(sec, "password")
            case Failure(e) => Failure(e)
            case Success(pw) =>
              StripStripped(Show(h));
              StripStripped(Show(sn));
              StripStripped(Show(u));
              var o := OracleConfig(Strip(Show(h)), port, Strip(Show(sn)), Strip(Show(u)), Show(pw));
              if o.host == "" || o.serviceName == "" || o.username == "" then
                Failure("oracle.host/service_name/username must be non-empty.")
              else Success(o)
  }

  function LoadScope(sec: map<string, Value>): (r: Result<ScopeConfig, string>)
    ensures r.Success? <==>
      && Lower(Strip(Show(Get(sec, "discovery_mode", Str("hybrid"))))) == "hybrid"
      && ToUpperList(Get(sec, "include_schemas", Null)).Success?
      && ToUpperList(Get(sec, "exclude_schemas", Null)).Success?
      && ToUpperList(Get(sec, "object_types", Null)).Success?
    ensures r.Success? && ToUpperList(Get(sec, "object_types", Null)) == Success([]) ==> r.value.objectTypes == DefaultObjectTypes
    ensures r.Success? ==> r.value.discoveryMode == "hybrid" && r.value.objectTypes != []
    ensures r.Success? ==> forall k :: 0 <= k < |r.value.objectTypes| ==> UpperName(r.value.objectTypes[k])
    ensures r.Success? ==> forall k :: 0 <= k < |r.value.includeSchemas| ==> UpperName(r.value.includeSchemas[k])
    ensures r.Success? ==> forall k :: 0 <= k < |r.value.excludeSchemas| ==> UpperName(r.value.excludeSchemas[k])
    ensures r.Success? ==>
      && r.value.includeSchemas == ToUpperList(Get(sec, "include_schemas", Null)).value
      && r.value.excludeSchemas == ToUpperList(Get(sec, "exclude_schemas", Null)).value
    ensures r.Success? ==>
      var types := ToUpperList(Get(sec, "object_types", Null)).value;
      r.value.objectTypes == (if types == [] then DefaultObjectTypes else types)
  {
    DefaultObjectTypesNormal();
    var mode := Lower(Strip(Show(Get(sec, "discovery_mode", Str("hybrid")))));
    if mode != "hybrid" then Failure("scope.discovery_mode must be 'hybrid'.")
    else
      match ToUpperList(Get(sec, "include_schemas", Null))
      case Failure(e) => Failure(e)
      case Success(inc) =>
        match ToUpperList(Get(sec, "exclude_schemas", Null))
        case Failure(e) => Failure(e)
        case Success(exc) =>
          match ToUpperList(Get(sec, "object_types", Null))
          case Failure(e) => Failure(e)
          case Success(types) =>
            Success(ScopeConfig(mode, inc, exc, if types == [] then DefaultObjectTypes else types))
  }

  function LoadOutput(sec: map<string, Value>, baseDir: Path): (r: Result<OutputConfig, string>)
    ensures r.Success? <==>
      Upper(Strip(Show(Get(sec, "line_ending", Str("LF"))))) in {"LF", "CRLF"} && Get(sec, "snapshot_root", Str("snapshots")).Str?
    ensures r.Success? ==> r.value.lineEnding == Upper(Strip(Show(Get(sec, "line_ending", Str("LF")))))
    ensures r.Success? ==> r.value.lineEnding in {"LF", "CRLF"}
  {
    var le := Upper(Strip(Show(Get(sec, "line_ending", Str("LF")))));
    if le != "LF" && le != "CRLF" then Failure("output.line_ending must be LF or CRLF.")
    else
      match PathText(Get(sec, "snapshot_root", Str("snapshots")))
      case Failure(e) => Failure(e)
      case Success(root) => Success(OutputConfig(ResolvePath(root, baseDir), le))
  }

  function LoadGit(sec: map<string, Value>, baseDir: Path): (r: Result<GitConfig, string>)
    ensures r.Success? <==> Get(sec, "repo_path", Str(".")).Str?
    ensures r.Success? ==> (r.value.branch.Some? <==> "branch" in sec && Truthy(sec["branch"]))
    ensures r.Success? ==> r.value.remote != ""
    ensures r.Success? ==> r.value.repoPath == ResolvePath(Get(sec, "repo_path", Str(".")).s, baseDir)
    ensures r.Success? && r.value.branch.Some? ==> r.value.branch.value == Strip(Show(sec["branch"]))
    ensures r.Success? ==>
      var remote := Strip(Show(Get(sec, "remote", Str(DefaultRemote))));
      r.value.remote == (if remote == "" then DefaultRemote else remote)
    ensures r.Success? ==> r.value.commitMessageTemplate == Show(Get(sec, "commit_message_template", Str(DefaultTemplate)))
    ensures r.Success? ==> r.value.autoPush == Truthy(Get(sec, "auto_push", Bool(true)))
  {
    match PathText(Get(sec, "repo_path", Str(".")))
    case Failure(e) => Failure(e)
    case Success(repo) =>
      var branch := if "branch" in sec && Truthy(sec["branch"]) then Some(Strip(Show(sec["branch"]))) else None;
      var remote := Strip(Show(Get(sec, "remote", Str(DefaultRemote))));
      Success(GitConfig(
        ResolvePath(repo, baseDir),
        branch,
        Show(Get(sec, "commit_message_template", Str(DefaultTemplate))),
        Truthy(Get(sec, "auto_push", Bool(true))),
        if remote == "" then DefaultRemote else remote))
  }

  function LoadLogs(sec: map<string, Value>): (r: Result<LogsConfig, string>)
    ensures r.Success? <==> ToInt(Get(sec, "retention_days", Int(DefaultRetentionDays))).Success?
                            && ToInt(Get(sec, "retention_days", Int(DefaultRetentionDays))).value >= 1
    ensures r.Success? ==> r.value.retentionDays == ToInt(Get(sec, "retention_days", Int(DefaultRetentionDays))).value
    ensures r.Success? ==> r.value.retentionDays >= 1
  {
    match ToInt(Get(sec, "retention_days", Int(DefaultRetentionDays)))
    case Failure(e) => Failure(e)
    case Success(days) =>
      if days < 1 then Failure("logs.retention_days must be >= 1.") else Success(LogsConfig(days))
  }

  /** The parsed document, or `None` when the file does not exist. */
  type Document = Option<Value>

  function PathString(p: Path): string {
    "/" + Join(p, "/")
  }

  /** `yaml.safe_load(...) or {}`: an empty document is an empty mapping. */
  function Root(v: Value): Value {
    if Truthy(v) then v else Dict(map[])
  }

  /** The configuration file's directory. */
  function Parent(p: Path): Path {
    if |p| == 0 then [] else p[..|p| - 1]
  }

  /** Read one section with its loader; a non-mapping section fails. */
  function OracleFrom(raw: map<string, Value>): (r: Result<OracleConfig, string>)
    ensures r.Success? ==> r.value.host != "" && r.value.serviceName != "" && r.value.username != ""
    ensures r.Success? ==> Stripped(r.value.host) && Stripped(r.value.serviceName) && Stripped(r.value.username)
  {
    match Section(raw, "oracle")
    case Failure(e) => Failure(e)
    case Success(sec) => LoadOracle(sec)
  }

  function ScopeFrom(raw: map<string, Value>): (r: Result<ScopeConfig, string>)
    ensures r.Success? ==> r.value.discoveryMode == "hybrid" && r.value.objectTypes != []
    ensures r.Success? ==> forall k :: 0 <= k < |r.value.objectTypes| ==> UpperName(r.value.objectTypes[k])
    ensures r.Success? ==> forall k :: 0 <= k < |r.value.includeSchemas| ==> UpperName(r.value.includeSchemas[k])
    ensures r.Success? ==> forall k :: 0 <= k < |r.value.excludeSchemas| ==> UpperName(r.value.excludeSchemas[k])
  {
    match Section(raw, "scope")
    case Failure(e) => Failure(e)
    case Success(sec) => LoadScope(sec)
  }

  function OutputFrom(raw: map<string, Value>, baseDir: Path): (r: Result<OutputConfig, string>)
    ensures r.Success? ==> r.value.lineEnding in {"LF", "CRLF"}
  {
    match Section(raw, "output")
    case Failure(e) => Failure(e)
    case Success(sec) => LoadOutput(sec, baseDir)
  }

  function GitFrom(raw: map<string, Value>, baseDir: Path): (r: Result<GitConfig, string>)
    ensures r.Success? ==> r.value.remote != ""
  {
    match Section(raw, "git")
    case Failure(e) => Failure(e)
    case Success(sec) => LoadGit(sec, baseDir)
  }

  function LogsFrom(raw: map<string, Value>): (r: Result<LogsConfig, string>)
    ensures r.Success? ==> r.value.retentionDays >= 1
  {
    match Section(raw, "logs")
    case Failure(e) => Failure(e)
    case Success(sec) => LoadLogs(sec)
  }

  /** `load_config`: `configPath` is the resolved path of the file. The
      sections are checked in the loader's order (oracle, scope, output,
      git, logs) and the first failure is the one reported; every reader is
      pure, so reading them all first changes nothing. */
  function LoadConfig(configPath: Path, document: Document): Result<AppConfig, string> {
    if document.None? then Failure("Config file not found: " + PathString(configPath))
    else
      var raw := Root(document.value);
      if !raw.Dict? then Failure("Root config must be a map/dictionary.")
      else
        var baseDir := Parent(configPath);
        Assemble(OracleFrom(raw.entries), ScopeFrom(raw.entries), OutputFrom(raw.entries, baseDir),
                 GitFrom(raw.entries, baseDir), LogsFrom(raw.entries))
  }

  /** The first failing section, in the loader's order, or the whole
      configuration. */
  function Assemble(oracle: Result<OracleConfig, string>, scope: Result<ScopeConfig, string>,
                    output: Result<OutputConfig, string>, git: Result<GitConfig, string>,
                    logs: Result<LogsConfig, string>): (r: Result<AppConfig, string>)
    ensures r.Success? <==> oracle.Success? && scope.Success? && output.Success? && git.Success? && logs.Success?
    ensures r.Success? ==> r.value == AppConfig(oracle.value, scope.value, output.value, git.value, logs.value)
  {
    if oracle.Failure? then Failure(oracle.error)
    else if scope.Failure? then Failure(scope.error)
    else if output.Failure? then Failure(output.error)
    else if git.Failure? then Failure(git.error)
    else if logs.Failure? then Failure(logs.error)
    else Success(AppConfig(oracle.value, scope.value, output.value, git.value, logs.value))
  }

  // ---------------------------------------------------------------- properties

  /** Cut a data source name at its first `:` and the first `/` after it. */
  function SplitDsn(dsn: string): Option<(string, string, string)> {
    var k := IndexOf(dsn, ':');
    if k == |dsn| then None
    else
      var rest := dsn[k + 1..];
      var j := IndexOf(rest, '/');
      if j == |rest| then None
      else Some((dsn[..k], rest[..j], rest[j + 1..]))
  }

  /** Read a data source name back into host, port and service. */
  function ParseDsn(dsn: string): Option<(string, int, string)> {
    match SplitDsn(dsn)
    case None => None
    case Some((host, p, service)) =>
      var port := ParseInt(p);
      if port.None? then None else Some((host, port.value, service))
  }

  lemma NoSlashInInt(n: int)
    ensures '/' !in IntToString(n)
  {
    var digits := NatToString(if n < 0 then -n else n);
    assert forall i :: 0 <= i < |digits| ==> IsDigit(digits[i]);
  }

  /** Splitting `a + [c] + b` at the first `c` gives `a` and `b` back when
      `a` has no `c`. */
  lemma SplitAtFirst(a: string, b: string, c: char)
    requires c !in a
    ensures var s := a + [c] + b; var k := IndexOf(s, c);
      k == |a| && s[..k] == a && s[k + 1..] == b
  {
    IndexOfAfterFree(a, b, c);
    var s := a + [c] + b;
    assert s[..|a|] == a;
    assert s[|a| + 1..] == b;
  }

  /** The data source name gives back host, port and service whenever the
      host has no `:`. */
  lemma DsnRoundTrip(o: OracleConfig)
    requires ':' !in o.host
    ensures ParseDsn(o.Dsn()) == Some((o.host, o.port, o.serviceName))
  {
    NoSlashInInt(o.port);
    ParsePrintedInt(o.port);
    SplitDsnParts(o.host, IntToString(o.port), o.serviceName);
  }

  lemma SplitDsnParts(host: string, p: string, service: string)
    requires ':' !in host && '/' !in p
    ensures SplitDsn(host + ":" + p + "/" + service) == Some((host, p, service))
  {
    var s := host + ":" + p + "/" + service;
    var rest := p + ['/'] + service;
    assert s == host + [':'] + rest;
    SplitAtFirst(host, rest, ':');
    SplitAtFirst(p, service, '/');
  }


  lemma DefaultObjectTypesNormal()
    ensures forall k :: 0 <= k < |DefaultObjectTypes| ==> UpperName(DefaultObjectTypes[k])
  {
    forall k | 0 <= k < |DefaultObjectTypes|
      ensures UpperName(DefaultObjectTypes[k])
    {
      CapitalWords(DefaultObjectTypes[k]);
    }
  }

  /** Capital letters and inner spaces make a normalised name. */
  lemma CapitalWords(s: string)
    requires s != "" && s[0] != ' ' && s[|s| - 1] != ' '
    requires forall i :: 0 <= i < |s| ==> 'A' <= s[i] <= 'Z' || s[i] == ' '
    ensures UpperName(s)
  {
  }

  /** Every rule the loader enforces. */
  predicate Valid(c: AppConfig) {
    && c.oracle.host != "" && c.oracle.serviceName != "" && c.oracle.username != ""
    && Stripped(c.oracle.host) && Stripped(c.oracle.serviceName) && Stripped(c.oracle.username)
    && c.scope.discoveryMode == "hybrid"
    && (forall k :: 0 <= k < |c.scope.includeSchemas| ==> UpperName(c.scope.includeSchemas[k]))
    && (forall k :: 0 <= k < |c.scope.excludeSchemas| ==> UpperName(c.scope.excludeSchemas[k]))
    && c.scope.objectTypes != []
    && (forall k :: 0 <= k < |c.scope.objectTypes| ==> UpperName(c.scope.objectTypes[k]))
    && c.output.lineEnding in {"LF", "CRLF"}
    && c.git.remote != ""
    && c.logs.retentionDays >= 1
  }

  /** The section of the document the loader reads `key` from. */
  function DocSection(document: Document, key: string): map<string, Value> {
    if document.Some? && Root(document.value).Dict? && key in Root(document.value).entries
       && Root(document.value).entries[key].Dict?
    then Root(document.value).entries[key].entries
    else map[]
  }

  /** What the loader reads each section from. */
  lemma SectionOf(document: Document, key: string)
    requires document.Some? && Root(document.value).Dict?
    requires Section(Root(document.value).entries, key).Success?
    ensures Section(Root(document.value).entries, key).value == DocSection(document, key)
  {
  }

  /** A loaded configuration obeys every rule. */
  lemma LoadedValid(configPath: Path, document: Document)
    requires LoadConfig(configPath, document).Success?
    ensures Valid(LoadConfig(configPath, document).value)
  {
  }

  /** The sections a loaded document was read from all loaded. */
  lemma LoadedSections(configPath: Path, document: Document)
    requires LoadConfig(configPath, document).Success?
    ensures document.Some? && Root(document.value).Dict?
    ensures var raw := Root(document.value).entries; var c := LoadConfig(configPath, document).value;
      && OracleFrom(raw) == Success(c.oracle)
      && ScopeFrom(raw) == Success(c.scope)
      && OutputFrom(raw, Parent(configPath)) == Success(c.output)
      && GitFrom(raw, Parent(configPath)) == Success(c.git)
      && LogsFrom(raw) == Success(c.logs)
  {
  }

  lemma OracleFromDocument(document: Document)
    requires document.Some? && Root(document.value).Dict?
    requires OracleFrom(Root(document.value).entries).Success?
    ensures ToInt(Get(DocSection(document, "oracle"), "port", Int(DefaultPort)))
            == Success(OracleFrom(Root(document.value).entries).value.port)
  {
    SectionOf(document, "oracle");
  }

  lemma ScopeFromDocument(document: Document)
    requires document.Some? && Root(document.value).Dict?
    requires ScopeFrom(Root(document.value).entries).Success?
    ensures Lower(Strip(Show(Get(DocSection(document, "scope"), "discovery_mode", Str("hybrid"))))) == "hybrid"
  {
    SectionOf(document, "scope");
  }

  lemma OutputFromDocument(document: Document, baseDir: Path)
    requires document.Some? && Root(document.value).Dict?
    requires OutputFrom(Root(document.value).entries, baseDir).Success?
    ensures Upper(Strip(Show(Get(DocSection(document, "output"), "line_ending", Str("LF")))))
            == OutputFrom(Root(document.value).entries, baseDir).value.lineEnding
  {
    SectionOf(document, "output");
  }

  lemma LogsFromDocument(document: Document)
    requires document.Some? && Root(document.value).Dict?
    requires LogsFrom(Root(document.value).entries).Success?
    ensures ToInt(Get(DocSection(document, "logs"), "retention_days", Int(DefaultRetentionDays)))
            == Success(LogsFrom(Root(document.value).entries).value.retentionDays)
  {
    SectionOf(document, "logs");
  }

  /** A loaded configuration takes its rule-bound fields from the document,
      falling back to the defaults: retention days, line ending, discovery
      mode and port, so a document that breaks a rule is never loaded. */
  lemma LoadedFromDocument(configPath: Path, document: Document)
    requires LoadConfig(configPath, document).Success?
    ensures var c := LoadConfig(configPath, document).value;
      && ToInt(Get(DocSection(document, "logs"), "retention_days", Int(DefaultRetentionDays))) == Success(c.logs.retentionDays)
      && Upper(Strip(Show(Get(DocSection(document, "output"), "line_ending", Str("LF"))))) == c.output.lineEnding
      && Lower(Strip(Show(Get(DocSection(document, "scope"), "discovery_mode", Str("hybrid"))))) == "hybrid"
      && ToInt(Get(DocSection(document, "oracle"), "port", Int(DefaultPort))) == Success(c.oracle.port)
  {
    LoadedSections(configPath, document);
    OracleFromDocument(document);
    ScopeFromDocument(document);
    OutputFromDocument(document, Parent(configPath));
    LogsFromDocument(document);
  }
}

=== FILE: extractor.dfy ===
/** The metadata extractor: discover the objects in scope, fetch their DDL in
    bulk with a per-object fallback, bundle each table with its comments and
    indexes, and collect one item or one failure per object. The database is
    a record of query functions, each returning rows or an error. */
module Extractor {
  import opened Wrappers
  import opened Text
  import opened Models
  import Catalog
  import Bulk
  import Comments
  import Partitions
  import Config

  // ---------------------------------------------------------------- the database

  /** Which owners the discovery query admits. */
  datatype OwnerClause = AnyOwner | OwnerIn(owners: seq<string>) | OwnerNotIn(owners: seq<string>)

  /** The discovery query: object types and the owner restriction. */
  datatype DiscoveryQuery = DiscoveryQuery(objectTypes: seq<string>, owners: OwnerClause)

  /** One row of the discovery query, as the catalog spells it. */
  datatype CatalogRow = CatalogRow(owner: string, objectType: string, objectName: string)

  /** The arguments of a single `GET_DDL` call. */
  datatype DdlQuery = DdlQuery(metadataType: string, objectName: string, owner: string)

  /** One row of a table's index listing. */
  datatype IndexRow = IndexRow(owner: string, name: string)

  /** Every query the extractor runs. A `Failure` is the exception the query
      raised; `getDdl` gives `None` for a NULL result. */
  datatype Database = Database(
    discover: DiscoveryQuery -> Result<seq<CatalogRow>, string>,
    bulkDdl: Bulk.BulkQuery -> Result<seq<Bulk.Row>, string>,
    getDdl: DdlQuery -> Result<Option<string>, string>,
    columnComments: DbObject -> Result<seq<Comments.CommentRow>, string>,
    tableComment: DbObject -> Result<Option<string>, string>,
    tableIndexes: DbObject -> Result<seq<IndexRow>, string>)

  // ---------------------------------------------------------------- discovery

  function UpperAll(items: seq<string>): (r: seq<string>)
    ensures |r| == |items| && forall i :: 0 <= i < |items| ==> r[i] == Upper(items[i])
  {
    seq(|items|, i requires 0 <= i < |items| => Upper(items[i]))
  }

  /** `_should_bundle_table_related`: both TABLE and INDEX are configured. */
  predicate ShouldBundle(objectTypes: seq<string>) {
    "TABLE" in UpperAll(objectTypes) && "INDEX" in UpperAll(objectTypes)
  }

  /** A non-empty included list wins; otherwise a non-empty excluded list;
      otherwise every owner. */
  function OwnerClauseOf(included: seq<string>, excluded: seq<string>): OwnerClause {
    if included != [] then OwnerIn(UpperAll(included))
    else if excluded != [] then OwnerNotIn(UpperAll(excluded))
    else AnyOwner
  }

  predicate Admits(c: OwnerClause, owner: string) {
    match c
    case AnyOwner => true
    case OwnerIn(os) => owner in os
    case OwnerNotIn(os) => owner !in os
  }

  /** An owner is admitted exactly when it is listed in a non-empty included
      list, or, with no included list, when no excluded entry names it. */
  lemma OwnerClausePrecedence(included: seq<string>, excluded: seq<string>, owner: string)
    ensures Admits(OwnerClauseOf(included, excluded), owner) <==>
      if included != [] then exists i :: 0 <= i < |included| && Upper(included[i]) == owner
      else forall i :: 0 <= i < |excluded| ==> Upper(excluded[i]) != owner
  {
    if included != [] {
      var u := UpperAll(included);
      if owner in u {
        var i :| 0 <= i < |u| && u[i] == owner;
        assert Upper(included[i]) == owner;
      }
    } else if excluded != [] {
      var u := UpperAll(excluded);
      if owner in u {
        var i :| 0 <= i < |u| && u[i] == owner;
        assert Upper(excluded[i]) == owner;
      }
    }
  }

  function DiscoveryQueryOf(scope: Config.ScopeConfig): DiscoveryQuery {
    DiscoveryQuery(UpperAll(scope.objectTypes), OwnerClauseOf(scope.includeSchemas, scope.excludeSchemas))
  }

  /** A discovered row as an object: owner and type upper-cased, the name as
      the catalog has it. */
  function Normal(row: CatalogRow): DbObject {
    DbObject(Upper(row.owner), Upper(row.objectType), row.objectName)
  }

  /** Whether the post-filter keeps a row: INDEX rows go when tables carry
      their indexes. */
  predicate KeptRow(row: CatalogRow, bundle: bool) {
    !(bundle && Upper(row.objectType) == "INDEX")
  }

  /** The filter over the discovery rows, in row order. */
  function PostFilter(rows: seq<CatalogRow>, bundle: bool): (r: seq<DbObject>)
    ensures |r| <= |rows|
    decreases |rows|
  {
    if |rows| == 0 then []
    else (if KeptRow(rows[0], bundle) then [Normal(rows[0])] else []) + PostFilter(rows[1..], bundle)
  }

  function NormalAll(rows: seq<CatalogRow>): (r: seq<DbObject>)
    ensures |r| == |rows| && forall i :: 0 <= i < |rows| ==> r[i] == Normal(rows[i])
  {
    seq(|rows|, i requires 0 <= i < |rows| => Normal(rows[i]))
  }

  /** The filtered objects keep the order of their rows, every kept row
      appears, and no INDEX is left when tables carry their indexes; without
      bundling every row is kept. */
  lemma PostFilterSpec(rows: seq<CatalogRow>, bundle: bool)
    ensures Partitions.IsSubsequence(PostFilter(rows, bundle), NormalAll(rows))
    ensures forall i :: 0 <= i < |rows| && KeptRow(rows[i], bundle) ==> Normal(rows[i]) in PostFilter(rows, bundle)
    ensures forall o :: o in PostFilter(rows, bundle) ==> o in NormalAll(rows)
    ensures bundle ==> forall o :: o in PostFilter(rows, bundle) ==> o.objectType != "INDEX"
    ensures !bundle ==> PostFilter(rows, bundle) == NormalAll(rows)
  {
    PostFilterOrder(rows, bundle);
    SubsequenceMembers(PostFilter(rows, bundle), NormalAll(rows));
    PostFilterCovers(rows, bundle);
    PostFilterKinds(rows, bundle);
  }

  lemma {:induction false} PostFilterOrder(rows: seq<CatalogRow>, bundle: bool)
    ensures Partitions.IsSubsequence(PostFilter(rows, bundle), NormalAll(rows))
    decreases |rows|
  {
    if |rows| > 0 {
      var r := PostFilter(rows, bundle);
      var tail := PostFilter(rows[1..], bundle);
      var n := NormalAll(rows);
      PostFilterOrder(rows[1..], bundle);
      assert n[1..] == NormalAll(rows[1..]);
      if KeptRow(rows[0], bundle) {
        assert r[0] == n[0] && r[1..] == tail;
      } else {
        assert r == tail;
        SubsequenceSkip(tail, n);
      }
    }
  }

  lemma {:induction false} PostFilterCovers(rows: seq<CatalogRow>, bundle: bool)
    ensures forall i :: 0 <= i < |rows| && KeptRow(rows[i], bundle) ==> Normal(rows[i]) in PostFilter(rows, bundle)
    decreases |rows|
  {
    if |rows| > 0 {
      var r := PostFilter(rows, bundle);
      PostFilterCovers(rows[1..], bundle);
      assert r == (if KeptRow(rows[0], bundle) then [Normal(rows[0])] else []) + PostFilter(rows[1..], bundle);
      forall i | 0 <= i < |rows| && KeptRow(rows[i], bundle)
        ensures Normal(rows[i]) in r
      {
        if i > 0 {
          assert rows[i] == rows[1..][i - 1];
        }
      }
    }
  }

  lemma {:induction false} PostFilterKinds(rows: seq<CatalogRow>, bundle: bool)
    ensures bundle ==> forall o :: o in PostFilter(rows, bundle) ==> o.objectType != "INDEX"
    ensures !bundle ==> PostFilter(rows, bundle) == NormalAll(rows)
    decreases |rows|
  {
    if |rows| > 0 {
      var r := PostFilter(rows, bundle);
      var tail := PostFilter(rows[1..], bundle);
      PostFilterKinds(rows[1..], bundle);
      assert r == (if KeptRow(rows[0], bundle) then [Normal(rows[0])] else []) + tail;
      if !bundle {
        assert NormalAll(rows) == [Normal(rows[0])] + NormalAll(rows[1..]);
      }
    }
  }


  lemma SubsequenceSkip<T>(sub: seq<T>, s: seq<T>)
    requires |s| > 0 && Partitions.IsSubsequence(sub, s[1..])
    ensures Partitions.IsSubsequence(sub, s)
  {
  }

  /** `_discover_objects`: no configured type means no query and nothing
      discovered; a failing query fails the extraction. */
  function Discover(scope: Config.ScopeConfig, db: Database): (r: Result<seq<DbObject>, string>)
    ensures scope.objectTypes == [] ==> r == Success([])
    ensures scope.objectTypes != [] ==> (r.Failure? <==> db.discover(DiscoveryQueryOf(scope)).Failure?)
    ensures r.Success? ==> forall o :: o in r.value ==> Upper(o.owner) == o.owner && Upper(o.objectType) == o.objectType
  {
    if scope.objectTypes == [] then Success([])
    else
      match db.discover(DiscoveryQueryOf(scope))
      case Failure(e) => Failure(e)
      case Success(rows) =>
        PostFilterSpec(rows, ShouldBundle(scope.objectTypes));
        forall o | o in NormalAll(rows)
          ensures Upper(o.owner) == o.owner && Upper(o.objectType) == o.objectType
        {
          Catalog.UpperOfUpper(o.owner);
        }
        Success(PostFilter(rows, ShouldBundle(scope.objectTypes)))
  }

  // ---------------------------------------------------------------- single DDL

  /** `_extract_ddl`: `GET_DDL` under the metadata type name; a NULL result is
      an error. */
  function GetDdl(db: Database, o: DbObject): (r: Result<string, string>)
    ensures var res := db.getDdl(DdlQuery(Catalog.MetadataType(o.objectType), o.objectName, o.owner));
      && (r.Success? <==> res.Success? && res.value.Some?)
      && (r.Success? ==> r.value == res.value.value)
      && (res.Success? && res.value.None? ==> r == Failure("GET_DDL returned NULL."))
  {
    match db.getDdl(DdlQuery(Catalog.MetadataType(o.objectType), o.objectName, o.owner))
    case Failure(e) => Failure(e)
    case Success(None) => Failure("GET_DDL returned NULL.")
    case Success(Some(d)) => Success(d)
  }

  // ---------------------------------------------------------------- table bundles

  function IndexObjects(rows: seq<IndexRow>): (r: seq<DbObject>)
    ensures |r| == |rows|
    ensures forall i :: 0 <= i < |rows| ==> r[i] == DbObject(Upper(rows[i].owner), "INDEX", rows[i].name)
  {
    seq(|rows|, i requires 0 <= i < |rows| => DbObject(Upper(rows[i].owner), "INDEX", rows[i].name))
  }

  /** The DDL an index contributes, when it contributes one. */
  function IndexDdl(o: DbObject, bulk: map<DbObject, string>, db: Database): Option<string> {
    if o in bulk then Some(Strip(bulk[o]))
    else if GetDdl(db, o).Success? then Some(Strip(GetDdl(db, o).value))
    else None
  }

  /** The DDL of each index in order: the bulk result, else a single fetch;
      an index neither yields is skipped. */
  function IndexStatements(objects: seq<DbObject>, bulk: map<DbObject, string>, db: Database): (r: seq<string>)
    ensures |r| <= |objects|
    decreases |objects|
  {
    if |objects| == 0 then []
    else
      var d := IndexDdl(objects[0], bulk, db);
      (if d.Some? then [d.value] else []) + IndexStatements(objects[1..], bulk, db)
  }

  function Resolved(objects: seq<DbObject>, bulk: map<DbObject, string>, db: Database): seq<DbObject>
    decreases |objects|
  {
    if |objects| == 0 then []
    else (if IndexDdl(objects[0], bulk, db).Some? then [objects[0]] else []) + Resolved(objects[1..], bulk, db)
  }

  /** The k-th statement is the DDL of the k-th index that has one: an
      unresolvable index is skipped and leaves no gap. */
  lemma {:induction false} IndexStatementsSpec(objects: seq<DbObject>, bulk: map<DbObject, string>, db: Database)
    ensures var r := IndexStatements(objects, bulk, db); var ok := Resolved(objects, bulk, db);
      && |r| == |ok|
      && (forall k :: 0 <= k < |r| ==> IndexDdl(ok[k], bulk, db) == Some(r[k]))
      && Partitions.IsSubsequence(ok, objects)
    decreases |objects|
  {
    if |objects| > 0 {
      IndexStatementsSpec(objects[1..], bulk, db);
      var ok := Resolved(objects, bulk, db);
      var tail := Resolved(objects[1..], bulk, db);
      var r := IndexStatements(objects, bulk, db);
      var rest := IndexStatements(objects[1..], bulk, db);
      if IndexDdl(objects[0], bulk, db).Some? {
        assert ok[0] == objects[0] && ok[1..] == tail;
        assert r[0] == IndexDdl(objects[0], bulk, db).value && r[1..] == rest;
        forall k | 0 <= k < |r|
          ensures IndexDdl(ok[k], bulk, db) == Some(r[k])
        {
          if k > 0 {
            assert ok[k] == tail[k - 1] && r[k] == rest[k - 1];
          }
        }
      } else {
        assert r == rest;
        assert ok == tail;
        SubsequenceSkip(tail, objects);
      }
    }
  }

  /** `_extract_table_indexes`: nothing unless INDEX is configured; a failing
      index listing fails the table. */
  function TableIndexes(scope: Config.ScopeConfig, db: Database, table: DbObject): (r: Result<seq<string>, string>)
    ensures "INDEX" !in UpperAll(scope.objectTypes) ==> r == Success([])
    ensures r.Failure? <==> "INDEX" in UpperAll(scope.objectTypes) && db.tableIndexes(table).Failure?
  {
    if "INDEX" !in UpperAll(scope.objectTypes) then Success([])
    else
      match db.tableIndexes(table)
      case Failure(e) => Failure(e)
      case Success(rows) =>
        var objects := IndexObjects(rows);
        if objects == [] then Success([])
        else Success(IndexStatements(objects, Bulk.ExtractBulk(objects, db.bulkDdl).extracted, db))
  }

  function NonEmpty(parts: seq<string>): (r: seq<string>)
    ensures forall k :: 0 <= k < |r| ==> r[k] != ""
    decreases |parts|
  {
    if |parts| == 0 then [] else (if parts[0] != "" then [parts[0]] else []) + NonEmpty(parts[1..])
  }

  /** The bundle's sections: the stripped base DDL, the comment statements one
      per line, the index DDLs separated by blank lines. */
  function Sections(base: string, comments: seq<string>, indexes: seq<string>): seq<string> {
    [Strip(base)]
      + (if comments != [] then [Join(comments, "\n")] else [])
      + (if indexes != [] then [Join(indexes, "\n\n")] else [])
  }

  /** The non-empty sections separated by blank lines, trimmed, with one
      final newline. */
  function Bundle(base: string, comments: seq<string>, indexes: seq<string>): (r: string)
    ensures |r| > 0 && r[|r| - 1] == '\n'
  {
    Strip(Join(NonEmpty(Sections(base, comments, indexes)), "\n\n")) + "\n"
  }

  lemma StripIdempotent(s: string)
    ensures Strip(Strip(s)) == Strip(s)
  {
    TrimShape(s, Whitespace);
    TrimNoop(Strip(s), Whitespace);
  }

  /** Before its newline a bundle has no surrounding whitespace. */
  lemma BundleTrimmed(base: string, comments: seq<string>, indexes: seq<string>)
    ensures var r := Bundle(base, comments, indexes);
      r == "\n" || (!IsSpace(r[0]) && !IsSpace(r[|r| - 2]))
  {
    TrimShape(Join(NonEmpty(Sections(base, comments, indexes)), "\n\n"), Whitespace);
  }

  /** A table with neither comments nor indexes is its stripped DDL and a
      newline. */
  lemma BundleBaseOnly(base: string)
    ensures Bundle(base, [], []) == Strip(base) + "\n"
  {
    var b := Strip(base);
    assert Sections(base, [], []) == [b];
    if b != "" {
      assert NonEmpty([b]) == [b];
    } else {
      assert NonEmpty([b]) == [];
    }
    StripIdempotent(base);
  }

  /** Trimming the end keeps a prefix that ends in a kept character. */
  lemma TrimEndKeeps(s: string, n: nat, cs: set<char>)
    requires 0 < n <= |s| && s[n - 1] !in cs
    ensures n <= |TrimEnd(s, cs)|
  {
    var r := TrimEnd(s, cs);
    assert forall i :: |r| <= i < |s| ==> s[i] == s[|r|..][i - |r|];
  }

  lemma JoinStarts(parts: seq<string>, sep: string)
    requires |parts| > 0
    ensures StartsWith(Join(parts, sep), parts[0])
  {
    if |parts| > 1 {
      assert (parts[0] + sep + Join(parts[1..], sep))[..|parts[0]|] == parts[0];
    }
  }

  /** A bundle starts with the table's own DDL, whatever follows it. */
  lemma BundleStartsWithBase(base: string, comments: seq<string>, indexes: seq<string>)
    requires Strip(base) != ""
    ensures StartsWith(Bundle(base, comments, indexes), Strip(base))
  {
    var b := Strip(base);
    var secs := Sections(base, comments, indexes);
    var ne := NonEmpty(secs);
    assert secs[0] == b && secs == [b] + secs[1..];
    assert ne == [b] + NonEmpty(secs[1..]);
    var j := Join(ne, "\n\n");
    JoinStarts(ne, "\n\n");
    TrimShape(base, Whitespace);
    TrimStartNoop(j, Whitespace);
    TrimEndKeeps(j, |b|, Whitespace);
    var r := TrimEnd(j, Whitespace);
    assert r == j[..|r|];
    assert r[..|b|] == j[..|b|];
  }

  /** With comments and indexes, and text at both ends, the bundle is the
      DDL, a blank line, the comments one per line, a blank line, and the
      indexes separated by blank lines. */
  lemma BundleLayout(base: string, comments: seq<string>, indexes: seq<string>)
    requires Strip(base) != "" && Join(comments, "\n") != ""
    requires var ix := Join(indexes, "\n\n"); ix != "" && !IsSpace(ix[|ix| - 1])
    ensures Bundle(base, comments, indexes)
      == Strip(base) + "\n\n" + Join(comments, "\n") + "\n\n" + Join(indexes, "\n\n") + "\n"
  {
    var b := Strip(base);
    var c := Join(comments, "\n");
    var ix := Join(indexes, "\n\n");
    assert comments != [] && indexes != [];
    assert Sections(base, comments, indexes) == [b, c, ix];
    TrimShape(base, Whitespace);
    ThreeSections(b, c, ix);
    TrimNoop(b + "\n\n" + c + "\n\n" + ix, Whitespace);
  }

  /** Three non-empty sections joined by blank lines. */
  lemma ThreeSections(b: string, c: string, ix: string)
    requires b != "" && c != "" && ix != ""
    ensures var j := b + "\n\n" + c + "\n\n" + ix;
      && Join(NonEmpty([b, c, ix]), "\n\n") == j
      && j[0] == b[0] && j[|j| - 1] == ix[|ix| - 1]
  {
    assert NonEmpty([b, c, ix]) == [b, c, ix] by {
      assert NonEmpty([ix]) == [ix] by {
        assert [ix][1..] == [];
      }
      assert NonEmpty([c, ix]) == [c] + NonEmpty([ix]) by {
        assert [c, ix][1..] == [ix];
      }
      assert NonEmpty([b, c, ix]) == [b] + NonEmpty([c, ix]) by {
        assert [b, c, ix][1..] == [c, ix];
      }
    }
    assert Join([b, c, ix], "\n\n") == b + "\n\n" + (c + "\n\n" + ix) by {
      assert Join([ix], "\n\n") == ix;
      assert Join([c, ix], "\n\n") == c + "\n\n" + ix by {
        assert [c, ix][1..] == [ix];
      }
      assert [b, c, ix][1..] == [c, ix];
    }
  }


  /** `_extract_table_bundle_ddl`: the comment queries run first, then the
      index listing; either failing fails the table. */
  function TableBundle(scope: Config.ScopeConfig, db: Database, table: DbObject, base: string): (r: Result<string, string>)
    ensures r.Success? <==>
      Comments.TableComments(table, db.columnComments(table), db.tableComment(table)).Success?
      && TableIndexes(scope, db, table).Success?
    ensures r.Success? ==> r.value == Bundle(base,
      Comments.TableComments(table, db.columnComments(table), db.tableComment(table)).value,
      TableIndexes(scope, db, table).value)
    ensures r.Success? ==> |r.value| > 0 && r.value[|r.value| - 1] == '\n'
  {
    match Comments.TableComments(table, db.columnComments(table), db.tableComment(table))
    case Failure(e) => Failure(e)
    case Success(comments) =>
      match TableIndexes(scope, db, table)
      case Failure(e) => Failure(e)
      case Success(indexes) => Success(Bundle(base, comments, indexes))
  }

  // ---------------------------------------------------------------- the extract loop

  /** An object's own DDL: what the bulk pass found for it, else a single fetch. */
  function BaseDdl(db: Database, bulk: map<DbObject, string>, o: DbObject): Result<string, string> {
    if o in bulk then Success(bulk[o]) else GetDdl(db, o)
  }

  /** One object: its bulk DDL if the bulk pass found one, else a single
      fetch; a table gets its bundle built over that DDL. */
  function ExtractObject(scope: Config.ScopeConfig, db: Database, bulk: map<DbObject, string>, o: DbObject): (r: Result<string, string>)
    ensures o.objectType != "TABLE" && o in bulk ==> r == Success(bulk[o])
    ensures o.objectType != "TABLE" && o !in bulk ==> r == GetDdl(db, o)
    ensures o.objectType == "TABLE" && o in bulk ==> r == TableBundle(scope, db, o, bulk[o])
    ensures o.objectType == "TABLE" && o !in bulk ==>
      r == (match GetDdl(db, o) case Failure(e) => Failure(e) case Success(b) => TableBundle(scope, db, o, b))
    ensures o.objectType == "TABLE" && r.Success? ==> |r.value| > 0 && r.value[|r.value| - 1] == '\n'
  {
    match BaseDdl(db, bulk, o)
    case Failure(e) => Failure(e)
    case Success(b) => if o.objectType == "TABLE" then TableBundle(scope, db, o, b) else Success(b)
  }

  /** `"OWNER.TYPE.NAME: reason"`. */
  function FailureMessage(o: DbObject, reason: string): string {
    o.owner + "." + o.objectType + "." + o.objectName + ": " + reason
  }

  datatype ExtractionResult = ExtractionResult(items: seq<ExtractedDdl>, failures: seq<string>)

  /** One pass over the objects with a given outcome per object: the
      successes become items and the failures their messages, both in object
      order. */
  function Collect(objects: seq<DbObject>, outcome: DbObject -> Result<string, string>): ExtractionResult
    decreases |objects|
  {
    if |objects| == 0 then ExtractionResult([], [])
    else
      var rest := Collect(objects[1..], outcome);
      match outcome(objects[0])
      case Success(d) => ExtractionResult([ExtractedDdl(objects[0], d)] + rest.items, rest.failures)
      case Failure(e) => ExtractionResult(rest.items, [FailureMessage(objects[0], e)] + rest.failures)
  }

  /** The per-object loop of `extract`. */
  function ExtractAll(scope: Config.ScopeConfig, db: Database, bulk: map<DbObject, string>, objects: seq<DbObject>): ExtractionResult {
    Collect(objects, o => ExtractObject(scope, db, bulk, o))
  }

  function ObjectsOf(items: seq<ExtractedDdl>): (r: seq<DbObject>)
    ensures |r| == |items| && forall k :: 0 <= k < |items| ==> r[k] == items[k].dbObject
  {
    seq(|items|, k requires 0 <= k < |items| => items[k].dbObject)
  }

  lemma {:induction false} CollectShape(objects: seq<DbObject>, outcome: DbObject -> Result<string, string>)
    ensures var r := Collect(objects, outcome);
      && |r.items| + |r.failures| == |objects|
      && Partitions.IsSubsequence(ObjectsOf(r.items), objects)
      && (forall k :: 0 <= k < |r.items| ==> outcome(r.items[k].dbObject) == Success(r.items[k].ddl))
    decreases |objects|
  {
    if |objects| > 0 {
      var o := objects[0];
      var rest := Collect(objects[1..], outcome);
      var r := Collect(objects, outcome);
      CollectShape(objects[1..], outcome);
      match outcome(o)
      case Success(d) =>
        assert r.items == [ExtractedDdl(o, d)] + rest.items;
        assert ObjectsOf(r.items)[1..] == ObjectsOf(rest.items);
        assert ObjectsOf(r.items)[0] == o;
      case Failure(e) =>
        assert r.items == rest.items;
        SubsequenceSkip(ObjectsOf(rest.items), objects);
    }
  }

  lemma {:induction false} CollectCovers(objects: seq<DbObject>, outcome: DbObject -> Result<string, string>)
    ensures var r := Collect(objects, outcome);
      && (forall o :: o in objects && outcome(o).Success? ==> o in ObjectsOf(r.items))
      && (forall o :: o in objects && outcome(o).Failure? ==> FailureMessage(o, outcome(o).error) in r.failures)
    decreases |objects|
  {
    if |objects| > 0 {
      var o := objects[0];
      var rest := Collect(objects[1..], outcome);
      var r := Collect(objects, outcome);
      CollectCovers(objects[1..], outcome);
      assert forall x :: x in objects ==> x == o || x in objects[1..];
      match outcome(o)
      case Success(d) =>
        assert r.items == [ExtractedDdl(o, d)] + rest.items;
        assert ObjectsOf(r.items) == [o] + ObjectsOf(rest.items);
      case Failure(e) =>
        assert r.items == rest.items;
        assert r.failures == [FailureMessage(o, e)] + rest.failures;
    }
  }

  /** Every object gives one item or one failure, in object order: the items
      are the objects whose extraction succeeded, with that DDL, and every
      failing object leaves its message. */
  lemma ExtractAllSpec(scope: Config.ScopeConfig, db: Database, bulk: map<DbObject, string>, objects: seq<DbObject>)
    ensures var r := ExtractAll(scope, db, bulk, objects);
      && |r.items| + |r.failures| == |objects|
      && Partitions.IsSubsequence(ObjectsOf(r.items), objects)
      && (forall k :: 0 <= k < |r.items| ==>
            ExtractObject(scope, db, bulk, r.items[k].dbObject) == Success(r.items[k].ddl))
      && (forall o :: o in objects && ExtractObject(scope, db, bulk, o).Success? ==> o in ObjectsOf(r.items))
      && (forall o :: o in objects && ExtractObject(scope, db, bulk, o).Failure? ==>
            FailureMessage(o, ExtractObject(scope, db, bulk, o).error) in r.failures)
  {
    var outcome := o => ExtractObject(scope, db, bulk, o);
    CollectShape(objects, outcome);
    CollectCovers(objects, outcome);
  }


  /** An item's DDL is its bulk DDL unless the bulk pass handed it back, in
      which case it is the single fetch; a table's DDL is the bundle built
      over that base and ends with a newline. */
  lemma ItemsDdl(scope: Config.ScopeConfig, db: Database, bulk: map<DbObject, string>, objects: seq<DbObject>)
    ensures var r := ExtractAll(scope, db, bulk, objects);
      && (forall k :: 0 <= k < |r.items| ==>
            (r.items[k].dbObject.objectType != "TABLE" && r.items[k].dbObject in bulk ==>
               r.items[k].ddl == bulk[r.items[k].dbObject]))
      && (forall k :: 0 <= k < |r.items| && r.items[k].dbObject.objectType != "TABLE" ==>
            BaseDdl(db, bulk, r.items[k].dbObject) == Success(r.items[k].ddl))
      && (forall k :: 0 <= k < |r.items| && r.items[k].dbObject.objectType == "TABLE" ==>
            && BaseDdl(db, bulk, r.items[k].dbObject).Success?
            && TableBundle(scope, db, r.items[k].dbObject, BaseDdl(db, bulk, r.items[k].dbObject).value)
               == Success(r.items[k].ddl))
      && (forall k :: 0 <= k < |r.items| && r.items[k].dbObject.objectType == "TABLE" ==>
            (|r.items[k].ddl| > 0 && r.items[k].ddl[|r.items[k].ddl| - 1] == '\n'))
  {
    ExtractAllSpec(scope, db, bulk, objects);
  }

  /** `extract`: discover, fetch in bulk, then one pass over the objects. A
      failing discovery fails the whole extraction. */
  function Extract(scope: Config.ScopeConfig, db: Database): (r: Result<ExtractionResult, string>)
    ensures r.Failure? <==> Discover(scope, db).Failure?
  {
    match Discover(scope, db)
    case Failure(e) => Failure(e)
    case Success(objects) =>
      Success(ExtractAll(scope, db, Bulk.ExtractBulk(objects, db.bulkDdl).extracted, objects))
  }

  lemma ExtractAllFacts(scope: Config.ScopeConfig, db: Database, bulk: map<DbObject, string>, objects: seq<DbObject>)
    ensures var r := ExtractAll(scope, db, bulk, objects);
      && |r.items| + |r.failures| == |objects|
      && Partitions.IsSubsequence(ObjectsOf(r.items), objects)
      && (forall k :: 0 <= k < |r.items| ==> r.items[k].dbObject in objects)
      && (forall k :: 0 <= k < |r.items| ==>
            (r.items[k].dbObject.objectType != "TABLE" && r.items[k].dbObject in bulk ==>
               r.items[k].ddl == bulk[r.items[k].dbObject]))
      && (forall k :: 0 <= k < |r.items| && r.items[k].dbObject.objectType == "TABLE" ==>
            (|r.items[k].ddl| > 0 && r.items[k].ddl[|r.items[k].ddl| - 1] == '\n'))
      && (forall o :: o in objects && ExtractObject(scope, db, bulk, o).Success? ==> o in ObjectsOf(r.items))
      && (forall o :: o in objects && ExtractObject(scope, db, bulk, o).Failure? ==>
            FailureMessage(o, ExtractObject(scope, db, bulk, o).error) in r.failures)
  {
    var r := ExtractAll(scope, db, bulk, objects);
    ExtractAllSpec(scope, db, bulk, objects);
    ItemsDdl(scope, db, bulk, objects);
    SubsequenceMembers(ObjectsOf(r.items), objects);
    forall k | 0 <= k < |r.items|
      ensures r.items[k].dbObject in objects
    {
      assert ObjectsOf(r.items)[k] == r.items[k].dbObject;
    }
  }

  /** Each discovered object yields one item or one failure message, in
      discovery order; an item's DDL is its bulk DDL unless the bulk pass
      handed it back, and a table's DDL ends with a newline. */
  lemma ExtractSpec(scope: Config.ScopeConfig, db: Database)
    requires Extract(scope, db).Success?
    ensures var objects := Discover(scope, db).value; var r := Extract(scope, db).value;
      var bulk := Bulk.ExtractBulk(objects, db.bulkDdl).extracted;
      && |r.items| + |r.failures| == |objects|
      && Partitions.IsSubsequence(ObjectsOf(r.items), objects)
      && (forall k :: 0 <= k < |r.items| ==> r.items[k].dbObject in objects)
      && (forall k :: 0 <= k < |r.items| ==>
            (r.items[k].dbObject.objectType != "TABLE" && r.items[k].dbObject in bulk ==>
               r.items[k].ddl == bulk[r.items[k].dbObject]))
      && (forall k :: 0 <= k < |r.items| && r.items[k].dbObject.objectType == "TABLE" ==>
            (|r.items[k].ddl| > 0 && r.items[k].ddl[|r.items[k].ddl| - 1] == '\n'))
      && (forall o :: o in objects && ExtractObject(scope, db, bulk, o).Success? ==> o in ObjectsOf(r.items))
      && (forall o :: o in objects && ExtractObject(scope, db, bulk, o).Failure? ==>
            FailureMessage(o, ExtractObject(scope, db, bulk, o).error) in r.failures)
  {
    var objects := Discover(scope, db).value;
    ExtractAllFacts(scope, db, Bulk.ExtractBulk(objects, db.bulkDdl).extracted, objects);
  }

  lemma {:induction false} SubsequenceMembers<T>(sub: seq<T>, s: seq<T>)
    requires Partitions.IsSubsequence(sub, s)
    ensures forall x :: x in sub ==> x in s
    decreases |s|
  {
    if |sub| > 0 && |s| > 0 {
      if sub[0] == s[0] && Partitions.IsSubsequence(sub[1..], s[1..]) {
        SubsequenceMembers(sub[1..], s[1..]);
        assert forall x :: x in sub ==> x == sub[0] || x in sub[1..];
      } else {
        SubsequenceMembers(sub, s[1..]);
      }
    }
  }

  /** With distinct objects, the objects fetched one by one are exactly the
      ones the bulk pass handed back. */
  lemma FallbackIsBulkFailures(objects: seq<DbObject>, db: Database)
    requires Bulk.Distinct(objects)
    ensures var out := Bulk.ExtractBulk(objects, db.bulkDdl);
      forall o :: o in objects ==> (o !in out.extracted <==> o in out.failed)
  {
    Bulk.ExtractBulkSpec(objects, db.bulkDdl);
  }
}

=== FILE: jsonline.dfy ===
/** One JSON document per line, as `json.dumps(..., ensure_ascii=False)`
    writes the audit records: scalar values, objects with `", "` and `": "`
    separators, and strings with quotes, backslashes and control characters
    escaped. */
module JsonLine {
  import opened Wrappers
  import opened Text

  /** The values a serialised audit field can take. */
  datatype Json = JNull | JBool(b: bool) | JInt(i: int) | JStr(s: string)

  const HexDigits: string := "0123456789abcdef"

  /** A control character: below the space. */
  predicate Control(c: char) {
    c < ' '
  }

  /** The escaped form of one character inside a JSON string. */
  function EscapeChar(c: char): (r: string)
    ensures |r| > 0 && forall i :: 0 <= i < |r| ==> !Control(r[i])
  {
    if c == '"' then "\\\""
    else if c == '\\' then "\\\\"
    else if c == '\n' then "\\n"
    else if c == '\r' then "\\r"
    else if c == '\t' then "\\t"
    else if c as int == 8 then "\\b"
    else if c as int == 12 then "\\f"
    else if Control(c) then "\\u00" + [HexDigits[c as int / 16], HexDigits[c as int % 16]]
    else [c]
  }

  /** The body of a JSON string: every character escaped in turn. */
  function Escape(s: string): (r: string)
    ensures forall i :: 0 <= i < |r| ==> !Control(r[i])
    decreases |s|
  {
    if |s| == 0 then "" else EscapeChar(s[0]) + Escape(s[1..])
  }

  function HexValue(c: char): (r: Option<int>)
    ensures r.Some? ==> 0 <= r.value < 16
  {
    if '0' <= c <= '9' then Some(c as int - '0' as int)
    else if 'a' <= c <= 'f' then Some(c as int - 'a' as int + 10)
    else if 'A' <= c <= 'F' then Some(c as int - 'A' as int + 10)
    else None
  }

  /** The value of four hex digits. */
  function Hex4(t: string): (r: Option<int>)
    requires |t| == 4
    ensures r.Some? ==> 0 <= r.value < 0x10000
  {
    var a := HexValue(t[0]);
    var b := HexValue(t[1]);
    var c := HexValue(t[2]);
    var d := HexValue(t[3]);
    if a.None? || b.None? || c.None? || d.None? then None
    else
      var x := a.value * 16 + b.value;
      assert 0 <= x < 0x100;
      var y := x * 16 + c.value;
      assert 0 <= y < 0x1000;
      Some(y * 16 + d.value)
  }

  /** The character a two-character escape `\e` stands for. */
  function SimpleEscape(e: char): Option<char> {
    if e == '"' || e == '\\' || e == '/' then Some(e)
    else if e == 'b' then Some(8 as char)
    else if e == 'f' then Some(12 as char)
    else if e == 'n' then Some('\n')
    else if e == 'r' then Some('\r')
    else if e == 't' then Some('\t')
    else None
  }

  /** Read the body of a JSON string back: a strict reader, rejecting a bare
      quote, a bare control character, an unknown escape and a `\u` escape
      naming a surrogate. */
  function Unescape(t: string): Option<string>
    decreases |t|
  {
    if |t| == 0 then Some("")
    else if t[0] == '"' || Control(t[0]) then None
    else if t[0] != '\\' then Prepend(t[0], Unescape(t[1..]))
    else if |t| < 2 then None
    else if SimpleEscape(t[1]).Some? then Prepend(SimpleEscape(t[1]).value, Unescape(t[2..]))
    else if t[1] == 'u' && |t| >= 6 then
      var v := Hex4(t[2..6]);
      if v.None? || (0xD800 <= v.value < 0xE000) then None
      else Prepend(v.value as char, Unescape(t[6..]))
    else None
  }

  function Prepend(c: char, rest: Option<string>): Option<string> {
    if rest.Some? then Some([c] + rest.value) else None
  }

  lemma HexDigitValue(d: int)
    requires 0 <= d < 16
    ensures HexValue(HexDigits[d]) == Some(d)
  {
  }

  /** A two-character escape `\x` followed by `rest`. */
  lemma UnescapePair(c: char, e: char, rest: string)
    requires SimpleEscape(e) == Some(c)
    ensures Unescape(['\\', e] + rest) == Prepend(c, Unescape(rest))
  {
    assert (['\\', e] + rest)[2..] == rest;
  }

  /** A `\u00hh` escape followed by `rest`. */
  lemma UnescapeHex(c: char, rest: string)
    requires Control(c)
    ensures Unescape("\\u00" + [HexDigits[c as int / 16], HexDigits[c as int % 16]] + rest) == Prepend(c, Unescape(rest))
  {
    var v := c as int;
    var t := "\\u00" + [HexDigits[v / 16], HexDigits[v % 16]] + rest;
    HexDigitValue(v / 16);
    HexDigitValue(v % 16);
    assert t[2..6] == "00" + [HexDigits[v / 16], HexDigits[v % 16]];
    assert Hex4(t[2..6]) == Some(v);
    assert t[6..] == rest;
  }

  /** Reading one escaped character gives it back, whatever follows. */
  lemma UnescapeChar(c: char, rest: string)
    ensures Unescape(EscapeChar(c) + rest) == Prepend(c, Unescape(rest))
  {
    if c == '"' {
      UnescapePair(c, '"', rest);
    } else if c == '\\' {
      UnescapePair(c, '\\', rest);
    } else if c == '\n' {
      UnescapePair(c, 'n', rest);
    } else if c == '\r' {
      UnescapePair(c, 'r', rest);
    } else if c == '\t' {
      UnescapePair(c, 't', rest);
    } else if c as int == 8 {
      UnescapePair(c, 'b', rest);
    } else if c as int == 12 {
      UnescapePair(c, 'f', rest);
    } else if Control(c) {
      UnescapeHex(c, rest);
    } else {
      assert ([c] + rest)[1..] == rest;
    }
  }

  /** Escaping is undone by the strict reader. */
  lemma {:induction false} UnescapeEscape(s: string)
    ensures Unescape(Escape(s)) == Some(s)
    decreases |s|
  {
    if |s| > 0 {
      UnescapeEscape(s[1..]);
      UnescapeChar(s[0], Escape(s[1..]));
      assert [s[0]] + s[1..] == s;
    }
  }

  /** A value as `json.dumps` prints it. */
  function EncodeValue(v: Json): (r: string)
    ensures forall i :: 0 <= i < |r| ==> !Control(r[i])
  {
    match v
    case JNull => "null"
    case JBool(b) => if b then "true" else "false"
    case JInt(i) => DigitsPrintable(i); IntToString(i)
    case JStr(s) => "\"" + Escape(s) + "\""
  }

  lemma DigitsPrintable(n: int)
    ensures forall i :: 0 <= i < |IntToString(n)| ==> !Control(IntToString(n)[i])
  {
    var digits := NatToString(if n < 0 then -n else n);
    assert forall i :: 0 <= i < |digits| ==> IsDigit(digits[i]);
  }

  /** One `"key": value` member. */
  function Member(key: string, v: Json): (r: string)
    ensures forall i :: 0 <= i < |r| ==> !Control(r[i])
  {
    "\"" + Escape(key) + "\": " + EncodeValue(v)
  }

  /** The members separated by `", "`. */
  function Members(pairs: seq<(string, Json)>): (r: string)
    ensures forall i :: 0 <= i < |r| ==> !Control(r[i])
    decreases |pairs|
  {
    if |pairs| == 0 then ""
    else if |pairs| == 1 then Member(pairs[0].0, pairs[0].1)
    else Member(pairs[0].0, pairs[0].1) + ", " + Members(pairs[1..])
  }

  /** An object with its members in insertion order. */
  function EncodeObject(pairs: seq<(string, Json)>): (r: string)
    ensures |r| >= 2 && r[0] == '{' && r[|r| - 1] == '}'
  {
    "{" + Members(pairs) + "}"
  }

  /** An encoded object holds no control character, so no line break: with
      its `\n` it is exactly one line. */
  lemma EncodeObjectOneLine(pairs: seq<(string, Json)>)
    ensures forall i :: 0 <= i < |EncodeObject(pairs)| ==> !Control(EncodeObject(pairs)[i])
    ensures '\n' !in EncodeObject(pairs)
  {
    var m := Members(pairs);
    var r := EncodeObject(pairs);
    assert forall i :: 1 <= i < |r| - 1 ==> r[i] == m[i - 1];
  }
}

=== FILE: models.dfy ===
/** The value types the components exchange. */
module Models {
  import opened Wrappers

  /** A filesystem path as its sequence of names; the root directory is `[]`. */
  type Path = seq<string>

  /** A directory tree of text files: path to full file content. */
  type FileMap = map<Path, string>

  /** One catalog object. Datatype equality is equality of the triple, which is
      what lets the extractor use the object itself as a dictionary key. */
  datatype DbObject = DbObject(owner: string, objectType: string, objectName: string)

  /** DDL text as fetched from the catalog, before normalisation. */
  datatype ExtractedDdl = ExtractedDdl(dbObject: DbObject, ddl: string)

  /** Normalised DDL that the snapshot writer stores for one object. */
  datatype SnapshotEntry = SnapshotEntry(dbObject: DbObject, ddl: string)

  /** The snapshot writer's report of one run. */
  datatype WriteResult = WriteResult(
    addedFiles: seq<Path>,
    modifiedFiles: seq<Path>,
    deletedFiles: seq<Path>,
    unchangedFiles: nat)
  {
    /** The files the run created or rewrote: the added ones, then the modified ones. */
    function WrittenFiles(): (r: seq<Path>)
      ensures |r| == |addedFiles| + |modifiedFiles|
      ensures r[..|addedFiles|] == addedFiles && r[|addedFiles|..] == modifiedFiles
    {
      addedFiles + modifiedFiles
    }
  }

  /** What the version-control collaborator reports after a commit attempt. */
  datatype GitResult = GitResult(committed: bool, commitSha: Option<string>, pushed: bool)

  /** Is `p` strictly inside directory `root`? */
  predicate Under(p: Path, root: Path) {
    |p| > |root| && p[..|root|] == root
  }

  /** Read a file, `""` when it does not exist. */
  function ReadOr(files: FileMap, p: Path): string {
    if p in files then files[p] else ""
  }
}

=== FILE: normalizer.dfy ===
/** The DDL normaliser: folds line endings, deletes STORAGE and TABLESPACE
    clauses and partition definitions, strips trailing whitespace from every
    line, collapses runs of blank lines, trims the text and ends it with one
    line terminator in the configured style. */
module Normalizer {
  import opened Wrappers
  import opened Text
  import Clauses
  import Partitions

  // ---------------------------------------------------------------- line-ending setting

  datatype LineEnding = LF | CRLF

  function LineEndingName(le: LineEnding): string {
    match le
    case LF => "LF"
    case CRLF => "CRLF"
  }

  const LineEndingError := "line_ending must be LF or CRLF."

  /** The normaliser's constructor: the setting is read case-insensitively,
      and anything but `LF` or `CRLF` is refused with a `ValueError`. */
  function ParseLineEnding(s: string): (r: Result<LineEnding, string>)
    ensures r.Success? <==> Upper(s) == "LF" || Upper(s) == "CRLF"
    ensures r.Success? ==> LineEndingName(r.value) == Upper(s)
    ensures r.Failure? ==> r.error == LineEndingError
  {
    var u := Upper(s);
    if u == "LF" then Success(LF) else if u == "CRLF" then Success(CRLF) else Failure(LineEndingError)
  }

  /** A setting's own name is accepted as that setting. */
  lemma ParseLineEndingName(le: LineEnding)
    ensures ParseLineEnding(LineEndingName(le)) == Success(le)
  {
    var n := LineEndingName(le);
    assert Upper(n) == n;
  }

  /** The setting is case-insensitive. */
  lemma ParseLineEndingLower(s: string)
    ensures ParseLineEnding(Lower(s)) == ParseLineEnding(s)
  {
    UpperOfLower(s);
  }

  // ---------------------------------------------------------------- line endings

  /** `s.replace("\r\n", "\n")`. */
  function FoldCrLf(s: string): string
    decreases |s|
  {
    if |s| == 0 then ""
    else if |s| >= 2 && s[0] == '\r' && s[1] == '\n' then "\n" + FoldCrLf(s[2..])
    else [s[0]] + FoldCrLf(s[1..])
  }

  /** `s.replace("\r\n", "\n").replace("\r", "\n")`: every line break becomes `\n`. */
  function FoldLineEndings(s: string): string {
    ReplaceChar(FoldCrLf(s), '\r', "\n")
  }

  /** `s.replace("\n", "\r\n")`. */
  function ToCrlf(s: string): string {
    ReplaceChar(s, '\n', "\r\n")
  }

  /** No carriage return survives the fold. */
  lemma FoldLineEndingsNoCr(s: string)
    ensures '\r' !in FoldLineEndings(s)
  {
    ReplaceCharFree(FoldCrLf(s), '\r', "\n", '\r');
  }

  /** The fold undoes the CRLF conversion of text without carriage returns. */
  lemma {:induction false} FoldToCrlf(r: string)
    requires '\r' !in r
    ensures FoldCrLf(ToCrlf(r)) == r
    ensures FoldLineEndings(ToCrlf(r)) == r
    decreases |r|
  {
    if |r| > 0 {
      var rest := ToCrlf(r[1..]);
      FoldToCrlf(r[1..]);
      if r[0] == '\n' {
        assert ToCrlf(r) == "\r\n" + rest;
        assert ("\r\n" + rest)[2..] == rest;
      } else {
        assert ToCrlf(r) == [r[0]] + rest;
        assert ([r[0]] + rest)[1..] == rest;
      }
      assert [r[0]] + r[1..] == r;
    }
    ReplaceCharAbsent(r, '\r', "\n");
  }

  /** In CRLF text every `\r` starts a `\r\n` pair and every `\n` ends one. */
  predicate CrlfOnly(t: string) {
    && (forall i :: 0 <= i < |t| && t[i] == '\r' ==> i + 1 < |t| && t[i + 1] == '\n')
    && (forall i :: 0 <= i < |t| && t[i] == '\n' ==> 0 < i && t[i - 1] == '\r')
  }

  lemma {:induction false} ToCrlfShape(r: string)
    requires '\r' !in r
    ensures CrlfOnly(ToCrlf(r))
    decreases |r|
  {
    if |r| > 0 {
      var rest := ToCrlf(r[1..]);
      ToCrlfShape(r[1..]);
      var h := if r[0] == '\n' then "\r\n" else [r[0]];
      var t := h + rest;
      assert ToCrlf(r) == t;
      assert forall k :: 0 <= k < |rest| ==> t[|h| + k] == rest[k];
      assert forall k :: 0 <= k < |h| ==> t[k] == h[k];
    }
  }

  // ---------------------------------------------------------------- lines

  /** The text left once clauses and partition definitions are gone. */
  function Cleaned(ddl: string): string {
    Partitions.RemovePartitionLines(
      Clauses.RemoveTablespace(Clauses.RemoveStorage(FoldLineEndings(ddl))))
  }

  /** `[line.rstrip() for line in text.split("\n")]`. */
  function StripLines(text: string): (lines: seq<string>)
    ensures |lines| == |Split(text, '\n')|
    ensures forall i :: 0 <= i < |lines| ==> lines[i] == RStrip(Split(text, '\n')[i])
  {
    var parts := Split(text, '\n');
    seq(|parts|, i requires 0 <= i < |parts| => RStrip(parts[i]))
  }

  /** The blank-line compaction loop: a blank line directly after a blank line
      is dropped. `prevBlank` is the loop's `previous_blank`. */
  function Compact(lines: seq<string>, prevBlank: bool): seq<string>
    decreases |lines|
  {
    if |lines| == 0 then []
    else
      var blank := AllSpace(lines[0]);
      if blank && prevBlank then Compact(lines[1..], true)
      else [lines[0]] + Compact(lines[1..], blank)
  }

  /** Everything `normalize` does after the clauses are gone: strip every
      line, collapse blank runs, trim, and end with one `\n`. */
  function Layout(text: string): string {
    var r := Strip(Join(Compact(StripLines(text), false), "\n"));
    if r != "" && !EndsWith(r, "\n") then r + "\n" else r
  }

  /** `normalize` with `LF` line endings. */
  function NormalizeLf(ddl: string): string {
    Layout(Cleaned(ddl))
  }

  /** `DdlNormalizer(le).normalize(ddl)`. */
  function Normalize(ddl: string, le: LineEnding): string {
    var r := NormalizeLf(ddl);
    if le == CRLF then ToCrlf(r) else r
  }

  // ---------------------------------------------------------------- compaction

  lemma {:induction false} CompactMembers(lines: seq<string>, prevBlank: bool)
    ensures forall i :: 0 <= i < |Compact(lines, prevBlank)| ==> Compact(lines, prevBlank)[i] in lines
    decreases |lines|
  {
    if |lines| > 0 {
      CompactMembers(lines[1..], AllSpace(lines[0]) || prevBlank);
      CompactMembers(lines[1..], AllSpace(lines[0]));
      assert forall l :: l in lines[1..] ==> l in lines;
    }
  }

  /** Compaction drops blank lines only: the kept lines are in their
      original order, and every non-blank line is kept as often as it
      occurs. */
  lemma {:induction false} CompactKeeps(lines: seq<string>, prevBlank: bool)
    ensures forall i :: 0 <= i < |lines| && !AllSpace(lines[i]) ==> lines[i] in Compact(lines, prevBlank)
    ensures Partitions.IsSubsequence(Compact(lines, prevBlank), lines)
    ensures forall x :: !AllSpace(x) ==> multiset(Compact(lines, prevBlank))[x] == multiset(lines)[x]
    decreases |lines|
  {
    if |lines| > 0 {
      var blank := AllSpace(lines[0]);
      var next := if blank && prevBlank then true else blank;
      var rest := Compact(lines[1..], next);
      CompactKeeps(lines[1..], next);
      forall i | 0 <= i < |lines| && !AllSpace(lines[i])
        ensures lines[i] in Compact(lines, prevBlank)
      {
        if i > 0 {
          assert lines[i] == lines[1..][i - 1];
        }
      }
      assert lines == [lines[0]] + lines[1..];
      assert multiset(lines) == multiset{lines[0]} + multiset(lines[1..]);
      if !(blank && prevBlank) {
        var c := [lines[0]] + rest;
        assert c[1..] == rest;
        assert multiset(c) == multiset{lines[0]} + multiset(rest);
      }
    }
  }

  /** After compaction no two blank lines are adjacent, and none follows a
      blank line read before. */
  predicate NoAdjacentBlanks(lines: seq<string>) {
    forall i :: 1 <= i < |lines| ==> !(AllSpace(lines[i - 1]) && AllSpace(lines[i]))
  }

  lemma {:induction false} CompactNoAdjacentBlanks(lines: seq<string>, prevBlank: bool)
    ensures NoAdjacentBlanks(Compact(lines, prevBlank))
    ensures prevBlank && |Compact(lines, prevBlank)| > 0 ==> !AllSpace(Compact(lines, prevBlank)[0])
    decreases |lines|
  {
    if |lines| > 0 {
      var blank := AllSpace(lines[0]);
      if blank && prevBlank {
        CompactNoAdjacentBlanks(lines[1..], true);
      } else {
        var rest := Compact(lines[1..], blank);
        CompactNoAdjacentBlanks(lines[1..], blank);
        var c := [lines[0]] + rest;
        forall i | 1 <= i < |c|
          ensures !(AllSpace(c[i - 1]) && AllSpace(c[i]))
        {
          assert c[i] == rest[i - 1];
          if i > 1 {
            assert c[i - 1] == rest[i - 2];
          }
        }
      }
    }
  }

  // ---------------------------------------------------------------- layout

  /** A line without trailing whitespace. */
  predicate Tidy(line: string) {
    line == [] || !IsSpace(line[|line| - 1])
  }

  /** A `\n` at position `i` follows another `\n` or a non-blank character. */
  predicate CleanBreak(t: string, i: nat)
    requires i < |t|
  {
    0 < i && t[i] == '\n' ==> t[i - 1] == '\n' || !IsSpace(t[i - 1])
  }

  /** No line carries trailing whitespace. */
  predicate NoTrailingSpace(t: string) {
    forall i :: 0 <= i < |t| ==> CleanBreak(t, i)
  }

  /** Position `i` does not end a third `\n` in a row. */
  predicate SingleBlank(t: string, i: nat)
    requires i < |t|
  {
    1 < i && t[i] == '\n' && t[i - 1] == '\n' ==> t[i - 2] != '\n'
  }

  /** No `\n\n\n`: never two blank lines in a row. */
  predicate NoDoubleBlank(t: string) {
    forall i :: 0 <= i < |t| ==> SingleBlank(t, i)
  }

  lemma StripLinesTidy(text: string)
    ensures forall i :: 0 <= i < |StripLines(text)| ==>
      Tidy(StripLines(text)[i]) && '\n' !in StripLines(text)[i]
  {
    var parts := Split(text, '\n');
    forall i | 0 <= i < |parts|
      ensures Tidy(RStrip(parts[i])) && '\n' !in RStrip(parts[i])
    {
      assert parts[i] in parts;
    }
  }

  /** A join starts with its first part. */
  lemma JoinPrefix(parts: seq<string>, sep: string)
    requires |parts| >= 1
    ensures |parts[0]| <= |Join(parts, sep)| && Join(parts, sep)[..|parts[0]|] == parts[0]
  {
    if |parts| > 1 {
      assert Join(parts, sep) == parts[0] + (sep + Join(parts[1..], sep));
    }
  }

  /** The join of compacted lines never starts with two line breaks. */
  lemma JoinStart(parts: seq<string>)
    requires forall i :: 0 <= i < |parts| ==> '\n' !in parts[i]
    requires NoAdjacentBlanks(parts)
    ensures var j := Join(parts, "\n"); !(|j| >= 2 && j[0] == '\n' && j[1] == '\n')
  {
    var j := Join(parts, "\n");
    if |parts| == 1 {
      assert j == parts[0];
      assert forall k :: 0 <= k < |j| ==> j[k] != '\n';
    } else if |parts| > 1 {
      JoinPrefix(parts, "\n");
      if parts[0] == [] {
        assert AllSpace(parts[0]);
        assert !AllSpace(parts[1]);
        assert parts[1][0] != '\n' by {
          assert parts[1][0] in parts[1];
        }
        assert j == "\n" + Join(parts[1..], "\n");
        JoinPrefix(parts[1..], "\n");
        assert j[1] == parts[1][0];
      } else {
        assert j[0] == parts[0][0] && parts[0][0] in parts[0];
      }
    }
  }

  /** A tidy line followed by `\n` and tidy text has no trailing whitespace. */
  lemma SepNoTrailingSpace(a: string, b: string)
    requires '\n' !in a && Tidy(a)
    requires NoTrailingSpace(b)
    ensures NoTrailingSpace(a + "\n" + b)
  {
    var t := a + "\n" + b;
    var n := |a|;
    assert forall k :: 0 <= k < n ==> t[k] == a[k] && a[k] != '\n';
    assert t[n] == '\n';
    assert forall k :: 0 <= k < |b| ==> t[n + 1 + k] == b[k];
    forall i | n + 1 < i < |t|
      ensures CleanBreak(t, i)
    {
      assert CleanBreak(b, i - n - 1);
      assert t[i - 1] == b[i - n - 2];
    }
  }

  /** A line break between a `\n`-free line and text that neither holds nor
      starts with two blank lines does not make two blank lines either. */
  lemma SepNoDoubleBlank(a: string, b: string)
    requires '\n' !in a
    requires NoDoubleBlank(b)
    requires !(|b| >= 2 && b[0] == '\n' && b[1] == '\n')
    ensures NoDoubleBlank(a + "\n" + b)
  {
    var t := a + "\n" + b;
    var n := |a|;
    assert forall k :: 0 <= k < n ==> t[k] == a[k] && a[k] != '\n';
    assert forall k :: 0 <= k < |b| ==> t[n + 1 + k] == b[k];
    forall i | 0 <= i < |t|
      ensures SingleBlank(t, i)
    {
      if i > n + 2 {
        assert SingleBlank(b, i - n - 1);
        assert t[i - 2] == b[i - n - 3];
      } else if i == n + 1 && i > 1 {
        assert t[i - 2] == a[n - 1];
      }
    }
  }

  /** The joined lines of a compacted, right-stripped text have the layout. */
  lemma {:induction false} JoinLayout(c: seq<string>)
    requires forall i :: 0 <= i < |c| ==> '\n' !in c[i] && Tidy(c[i])
    requires NoAdjacentBlanks(c)
    ensures NoTrailingSpace(Join(c, "\n")) && NoDoubleBlank(Join(c, "\n"))
    decreases |c|
  {
    if |c| == 1 {
      assert Join(c, "\n") == c[0];
      assert forall i :: 0 <= i < |c[0]| ==> c[0][i] in c[0];
    } else if |c| > 1 {
      var rest := c[1..];
      var b := Join(rest, "\n");
      assert NoAdjacentBlanks(rest) by {
        forall i | 1 <= i < |rest|
          ensures !(AllSpace(rest[i - 1]) && AllSpace(rest[i]))
        {
          assert rest[i] == c[i + 1] && rest[i - 1] == c[i];
        }
      }
      JoinLayout(rest);
      JoinStart(rest);
      SepNoTrailingSpace(c[0], b);
      SepNoDoubleBlank(c[0], b);
    }
  }

  /** Slicing keeps the layout. */
  lemma SliceLayout(t: string, o: nat, e: nat, r: string)
    requires o <= e <= |t| && r == t[o..e]
    requires NoTrailingSpace(t) && NoDoubleBlank(t)
    ensures NoTrailingSpace(r) && NoDoubleBlank(r)
  {
    forall i | 0 <= i < |r|
      ensures CleanBreak(r, i) && SingleBlank(r, i)
    {
      assert CleanBreak(t, o + i) && SingleBlank(t, o + i);
      assert r[i] == t[o + i];
      if i > 0 {
        assert r[i - 1] == t[o + i - 1];
      }
      if i > 1 {
        assert r[i - 2] == t[o + i - 2];
      }
    }
  }

  /** The stripped text is a slice of the text that starts and ends with a
      non-blank character. */
  lemma StripSlice(j: string)
    ensures var body := Strip(j); var o := TrimOffset(j, Whitespace);
      && o + |body| <= |j| && body == j[o..o + |body|]
      && (body != [] ==> !IsSpace(body[0]) && !IsSpace(body[|body| - 1]))
  {
    TrimShape(j, Whitespace);
  }

  /** Ending a trimmed text with `\n` keeps the layout. */
  lemma TerminateLayout(r: string)
    requires r != [] && !IsSpace(r[|r| - 1])
    requires NoTrailingSpace(r) && NoDoubleBlank(r)
    ensures NoTrailingSpace(r + "\n") && NoDoubleBlank(r + "\n")
    ensures var t := r + "\n"; |t| >= 2 && t[0] == r[0] && t[|t| - 1] == '\n' && t[|t| - 2] == r[|r| - 1]
  {
    var t := r + "\n";
    assert forall k :: 0 <= k < |r| ==> t[k] == r[k];
    forall i | 0 <= i < |t|
      ensures CleanBreak(t, i) && SingleBlank(t, i)
    {
      if i < |r| {
        assert CleanBreak(r, i) && SingleBlank(r, i);
      }
    }
  }

  // ---------------------------------------------------------------- theorems

  /** The compacted lines of a text are tidy, free of `\n`, and never two
      blank lines in a row. */
  lemma CompactedLines(text: string)
    ensures var c := Compact(StripLines(text), false);
      && (forall i :: 0 <= i < |c| ==> '\n' !in c[i] && Tidy(c[i]))
      && NoAdjacentBlanks(c)
    ensures Partitions.IsSubsequence(Compact(StripLines(text), false), StripLines(text))
    ensures forall x :: !AllSpace(x) ==>
      multiset(Compact(StripLines(text), false))[x] == multiset(StripLines(text))[x]
  {
    var lines := StripLines(text);
    StripLinesTidy(text);
    CompactMembers(lines, false);
    CompactKeeps(lines, false);
    CompactNoAdjacentBlanks(lines, false);
  }

  /** A right-stripped line is blank exactly when the line was. */
  lemma RStripAllSpace(x: string)
    ensures AllSpace(RStrip(x)) <==> AllSpace(x)
  {
    var r := RStrip(x);
    assert x == r + x[|r|..];
    if AllSpace(r) {
      forall i | 0 <= i < |x| ensures IsSpace(x[i]) {
        if i >= |r| {
          assert x[i] == x[|r|..][i - |r|];
        }
      }
    }
  }

  /** Every line is blank. */
  predicate AllBlank(lines: seq<string>) {
    forall i :: 0 <= i < |lines| ==> AllSpace(lines[i])
  }

  /** A stripped line is blank exactly when the split line was. */
  lemma StripLinesBlank(text: string)
    ensures var parts := Split(text, '\n'); var lines := StripLines(text);
      forall i :: 0 <= i < |lines| ==> (AllSpace(lines[i]) <==> AllSpace(parts[i]))
  {
    var parts := Split(text, '\n');
    forall i | 0 <= i < |parts| ensures AllSpace(RStrip(parts[i])) <==> AllSpace(parts[i]) {
      RStripAllSpace(parts[i]);
    }
  }

  /** All-blank compacted lines come from an all-blank text. */
  lemma CompactedBlankText(text: string)
    requires AllBlank(Compact(StripLines(text), false))
    ensures AllSpace(text)
  {
    var parts := Split(text, '\n');
    var lines := StripLines(text);
    var c := Compact(lines, false);
    CompactKeeps(lines, false);
    StripLinesBlank(text);
    forall i | 0 <= i < |lines| ensures AllSpace(lines[i]) {
      if lines[i] in c {
        var k :| 0 <= k < |c| && c[k] == lines[i];
        assert AllSpace(c[k]);
      }
    }
    forall l | l in parts ensures AllSpace(l) {
      var i :| 0 <= i < |parts| && parts[i] == l;
      assert AllSpace(lines[i]);
    }
    AllSpaceSplit(text);
  }

  /** An all-blank text compacts to blank lines only. */
  lemma BlankTextCompacted(text: string)
    requires AllSpace(text)
    ensures AllBlank(Compact(StripLines(text), false))
  {
    var parts := Split(text, '\n');
    var lines := StripLines(text);
    var c := Compact(lines, false);
    CompactMembers(lines, false);
    StripLinesBlank(text);
    AllSpaceSplit(text);
    forall i | 0 <= i < |c| ensures AllSpace(c[i]) {
      var k :| 0 <= k < |lines| && lines[k] == c[i];
      assert parts[k] in parts;
    }
  }

  /** The layout pass yields nothing exactly when the text is all whitespace. */
  lemma LayoutEmpty(text: string)
    ensures Layout(text) == "" <==> AllSpace(text)
  {
    var c := Compact(StripLines(text), false);
    var j := Join(c, "\n");
    var r := Strip(j);
    assert Layout(text) == "" <==> r == "" by {
      if r != "" {
        assert |Layout(text)| >= |r|;
      }
    }
    assert r == "" <==> AllSpace(j) by {
      TrimShape(j, Whitespace);
    }
    assert AllSpace(j) <==> AllBlank(c) by {
      assert AllSpace("\n");
      AllSpaceJoin(c, "\n");
    }
    if AllSpace(text) {
      BlankTextCompacted(text);
    } else if AllBlank(c) {
      CompactedBlankText(text);
    }
  }

  /** The trimmed, compacted text: no trailing whitespace on any line, never
      two blank lines in a row, and non-blank at both ends. */
  lemma BodyShape(text: string)
    ensures var body := Strip(Join(Compact(StripLines(text), false), "\n"));
      && NoTrailingSpace(body) && NoDoubleBlank(body)
      && (body != [] ==> !IsSpace(body[0]) && !IsSpace(body[|body| - 1]))
  {
    JoinedLayout(text);
    StrippedLayout(Join(Compact(StripLines(text), false), "\n"));
  }

  /** Stripping a laid-out text keeps the layout and leaves non-blank ends. */
  lemma StrippedLayout(j: string)
    requires NoTrailingSpace(j) && NoDoubleBlank(j)
    ensures var body := Strip(j);
      && NoTrailingSpace(body) && NoDoubleBlank(body)
      && (body != [] ==> !IsSpace(body[0]) && !IsSpace(body[|body| - 1]))
  {
    StripSlice(j);
    SliceKeepsLayout(j, TrimOffset(j, Whitespace), Strip(j));
  }

  lemma SliceKeepsLayout(j: string, o: nat, body: string)
    requires o + |body| <= |j| && body == j[o..o + |body|]
    requires NoTrailingSpace(j) && NoDoubleBlank(j)
    ensures NoTrailingSpace(body) && NoDoubleBlank(body)
  {
    SliceLayout(j, o, o + |body|, body);
  }

  /** The joined compacted lines have the layout. */
  lemma JoinedLayout(text: string)
    ensures var j := Join(Compact(StripLines(text), false), "\n");
      NoTrailingSpace(j) && NoDoubleBlank(j)
  {
    CompactedLines(text);
    JoinLayout(Compact(StripLines(text), false));
  }

  /** A non-empty laid-out text starts with a non-blank character and ends
      with exactly one `\n` after a non-blank character; no line has trailing
      whitespace and there are never two blank lines in a row. */
  lemma LayoutShape(text: string)
    ensures var r := Layout(text);
      r != "" ==>
        && |r| >= 2 && !IsSpace(r[0]) && r[|r| - 1] == '\n' && !IsSpace(r[|r| - 2])
        && NoTrailingSpace(r) && NoDoubleBlank(r)
  {
    var body := Strip(Join(Compact(StripLines(text), false), "\n"));
    BodyShape(text);
    if body != "" {
      assert !EndsWith(body, "\n") by {
        assert body[|body| - 1] != '\n';
      }
      assert Layout(text) == body + "\n";
      TerminateLayout(body);
    }
  }

  /** The layout pass adds no carriage return. */
  lemma LayoutNoCr(text: string)
    requires '\r' !in text
    ensures '\r' !in Layout(text)
  {
    var j := Join(Compact(StripLines(text), false), "\n");
    JoinedNoCr(text);
    TrimFree(j, Whitespace, '\r');
  }

  lemma JoinedNoCr(text: string)
    requires '\r' !in text
    ensures '\r' !in Join(Compact(StripLines(text), false), "\n")
  {
    var parts := Split(text, '\n');
    var lines := StripLines(text);
    SplitFree(text, '\n', '\r');
    var c := Compact(lines, false);
    CompactMembers(lines, false);
    forall i | 0 <= i < |c| ensures '\r' !in c[i] {
      var k :| 0 <= k < |lines| && lines[k] == c[i];
      assert lines[k] == parts[k][..|lines[k]|];
    }
    JoinFree(c, "\n", '\r');
  }

  /** The output is empty exactly when nothing but whitespace is left once the
      clauses and partition definitions are removed. */
  lemma NormalizeEmpty(ddl: string, le: LineEnding)
    ensures Normalize(ddl, le) == "" <==> AllSpace(Cleaned(ddl))
  {
    LayoutEmpty(Cleaned(ddl));
    var r := NormalizeLf(ddl);
    if r != "" {
      assert ToCrlf(r) == (if r[0] == '\n' then "\r\n" else [r[0]]) + ToCrlf(r[1..]);
    }
  }

  /** The layout guarantees of `LayoutShape` hold for every normalised text. */
  lemma NormalizeLayout(ddl: string)
    ensures var r := NormalizeLf(ddl);
      r != "" ==>
        && |r| >= 2 && !IsSpace(r[0]) && r[|r| - 1] == '\n' && !IsSpace(r[|r| - 2])
        && NoTrailingSpace(r) && NoDoubleBlank(r)
  {
    LayoutShape(Cleaned(ddl));
  }

  /** Cleaning the text never leaves a carriage return. */
  lemma CleanedNoCr(ddl: string)
    ensures '\r' !in Cleaned(ddl)
  {
    var t0 := FoldLineEndings(ddl);
    FoldLineEndingsNoCr(ddl);
    var t1 := Clauses.RemoveStorage(t0);
    Clauses.DeleteMatchesChars(t0, Clauses.StorageMatch, '\r');
    var t2 := Clauses.RemoveTablespace(t1);
    Clauses.DeleteMatchesChars(t1, Clauses.TablespaceMatch, '\r');
    var lines := Split(t2, '\n');
    SplitFree(t2, '\n', '\r');
    var kept := Partitions.Scan(lines, Partitions.Idle);
    Partitions.ScanMembers(lines, Partitions.Idle);
    forall i | 0 <= i < |kept| ensures '\r' !in kept[i] {
      var k :| 0 <= k < |lines| && lines[k] == kept[i];
    }
    JoinFree(kept, "\n", '\r');
  }

  /** With `LF` endings the output holds no carriage return. */
  lemma NormalizeLfNoCr(ddl: string)
    ensures '\r' !in NormalizeLf(ddl)
  {
    CleanedNoCr(ddl);
    LayoutNoCr(Cleaned(ddl));
  }

  /** With `CRLF` endings every line break is `\r\n`, and folding the line
      endings back gives exactly the `LF` output. */
  lemma NormalizeCrlf(ddl: string)
    ensures CrlfOnly(Normalize(ddl, CRLF))
    ensures FoldLineEndings(Normalize(ddl, CRLF)) == Normalize(ddl, LF)
  {
    NormalizeLfNoCr(ddl);
    ToCrlfShape(NormalizeLf(ddl));
    FoldToCrlf(NormalizeLf(ddl));
  }
}

=== FILE: partitions.dfy ===
/** The line filter that drops the partition and sub-partition definitions of
    a partitioned table while keeping its `PARTITION BY` / `SUBPARTITION BY`
    header. A definition runs from its first line until the parenthesis depth
    it opened is closed again on a line that does not end with a comma. */
module Partitions {
  import opened Text

  /** Is the line, left-stripped and upper-cased, the start of a partition or
      sub-partition definition (as opposed to a `... BY` header)? */
  predicate IsInstanceLine(strippedUpper: string) {
    if StartsWith(strippedUpper, "PARTITION BY") then false
    else if StartsWith(strippedUpper, "SUBPARTITION BY") then false
    else StartsWith(strippedUpper, "PARTITION ") || StartsWith(strippedUpper, "SUBPARTITION ")
  }

  /** The test applied to each raw line. */
  predicate StartsInstance(line: string) {
    IsInstanceLine(Upper(LStrip(line)))
  }

  /** Parenthesis depth the line opens (negative when it closes more). */
  function Delta(line: string): int {
    Count(line, '(') - Count(line, ')')
  }

  /** A definition continues past a line that ends, ignoring trailing
      whitespace, with a comma. */
  predicate Continues(line: string) {
    EndsWith(RStrip(line), ",")
  }

  /** The filter's state between lines: inside a definition or not, and the
      parenthesis depth reached inside it. */
  datatype State = State(skipping: bool, depth: int)

  const Idle := State(false, 0)

  /** The state after a definition line that brings the depth to `depth`. */
  function Close(depth: int, line: string): (st: State)
    ensures st.skipping <==> depth > 0 || Continues(line)
    ensures !st.skipping ==> st == Idle
  {
    if depth <= 0 && !Continues(line) then Idle else State(true, depth)
  }

  /** The state after reading `line` in state `st`. */
  function Next(st: State, line: string): State {
    if !st.skipping && StartsInstance(line) then Close(Delta(line), line)
    else if st.skipping then Close(st.depth + Delta(line), line)
    else st
  }

  /** Is `line` copied to the output when read in state `st`? */
  predicate Kept(st: State, line: string) {
    !st.skipping && !StartsInstance(line)
  }

  /** The filter over a list of lines, from state `st`. */
  function Scan(lines: seq<string>, st: State): seq<string>
    decreases |lines|
  {
    if |lines| == 0 then []
    else (if Kept(st, lines[0]) then [lines[0]] else []) + Scan(lines[1..], Next(st, lines[0]))
  }

  /** The state after reading all of `lines` from `st`. */
  function Final(lines: seq<string>, st: State): State
    decreases |lines|
  {
    if |lines| == 0 then st else Final(lines[1..], Next(st, lines[0]))
  }

  /** `_remove_partition_instance_lines`: split on `\n`, filter, re-join. */
  function RemovePartitionLines(text: string): string {
    Join(Scan(Split(text, '\n'), Idle), "\n")
  }

  /** `sub` is `s` with some elements left out, order kept. */
  predicate IsSubsequence<T(==)>(sub: seq<T>, s: seq<T>)
    decreases |s|
  {
    if |sub| == 0 then true
    else if |s| == 0 then false
    else (sub[0] == s[0] && IsSubsequence(sub[1..], s[1..])) || IsSubsequence(sub, s[1..])
  }

  // ---------------------------------------------------------------- properties

  /** Outside a definition the depth is always zero: the state is either idle
      or skipping. */
  predicate Consistent(st: State) {
    st.skipping || st.depth == 0
  }

  lemma {:induction false} FinalConsistent(lines: seq<string>, st: State)
    requires Consistent(st)
    ensures Consistent(Final(lines, st))
    decreases |lines|
  {
    if |lines| > 0 {
      FinalConsistent(lines[1..], Next(st, lines[0]));
    }
  }

  /** The output keeps input lines in their order and adds none. */
  lemma {:induction false} ScanSubsequence(lines: seq<string>, st: State)
    ensures IsSubsequence(Scan(lines, st), lines)
    decreases |lines|
  {
    if |lines| > 0 {
      var rest := Scan(lines[1..], Next(st, lines[0]));
      ScanSubsequence(lines[1..], Next(st, lines[0]));
      if Kept(st, lines[0]) {
        assert Scan(lines, st) == [lines[0]] + rest;
        assert ([lines[0]] + rest)[1..] == rest;
      } else {
        assert Scan(lines, st) == rest;
      }
    }
  }

  /** Every output line is one of the input lines. */
  lemma {:induction false} ScanMembers(lines: seq<string>, st: State)
    ensures forall i :: 0 <= i < |Scan(lines, st)| ==> Scan(lines, st)[i] in lines
    decreases |lines|
  {
    if |lines| > 0 {
      ScanMembers(lines[1..], Next(st, lines[0]));
      assert forall l :: l in lines[1..] ==> l in lines;
    }
  }

  /** No line that starts a definition survives the filter. */
  lemma {:induction false} NoInstanceKept(lines: seq<string>, st: State)
    ensures forall i :: 0 <= i < |Scan(lines, st)| ==> !StartsInstance(Scan(lines, st)[i])
    decreases |lines|
  {
    if |lines| > 0 {
      NoInstanceKept(lines[1..], Next(st, lines[0]));
    }
  }

  /** With no definition in sight, the filter is the identity. */
  lemma {:induction false} ScanIdentity(lines: seq<string>)
    requires forall i :: 0 <= i < |lines| ==> !StartsInstance(lines[i])
    ensures Scan(lines, Idle) == lines
    ensures Final(lines, Idle) == Idle
    decreases |lines|
  {
    if |lines| > 0 {
      ScanIdentity(lines[1..]);
      assert [lines[0]] + lines[1..] == lines;
    }
  }

  /** Text without a partition definition line comes back unchanged. */
  lemma RemoveNothing(text: string)
    requires forall l :: l in Split(text, '\n') ==> !StartsInstance(l)
    ensures RemovePartitionLines(text) == text
  {
    var lines := Split(text, '\n');
    assert forall i :: 0 <= i < |lines| ==> lines[i] in lines;
    ScanIdentity(lines);
    JoinSplit(text, '\n');
  }

  /** Filtering a concatenation filters the second part from the state the
      first part leaves behind. */
  lemma {:induction false} ScanConcat(a: seq<string>, b: seq<string>, st: State)
    ensures Scan(a + b, st) == Scan(a, st) + Scan(b, Final(a, st))
    ensures Final(a + b, st) == Final(b, Final(a, st))
    decreases |a|
  {
    if |a| == 0 {
      assert a + b == b;
    } else {
      assert (a + b)[0] == a[0];
      assert (a + b)[1..] == a[1..] + b;
      ScanConcat(a[1..], b, Next(st, a[0]));
    }
  }

  /** A one-line definition (balanced, no trailing comma) drops just itself. */
  lemma SingleLineDefinition(line: string, rest: seq<string>)
    requires StartsInstance(line) && Delta(line) <= 0 && !Continues(line)
    ensures Scan([line] + rest, Idle) == Scan(rest, Idle)
  {
    assert ([line] + rest)[1..] == rest;
  }

  /** A definition line ending in a comma also drops the line after it,
      whatever that line holds; when that line closes the depth and does not
      end in a comma either, the definition ends there. This is the shape of
      `PARTITION P1 VALUES LESS THAN (10),` followed by the last partition. */
  lemma TwoLineDefinition(line: string, next: string, rest: seq<string>)
    requires StartsInstance(line) && Continues(line)
    requires Delta(line) + Delta(next) <= 0 && !Continues(next)
    ensures Scan([line, next] + rest, Idle) == Scan(rest, Idle)
  {
    assert ([line, next] + rest)[1..] == [next] + rest;
    assert ([next] + rest)[1..] == rest;
  }
}

=== FILE: pipeline.dfy ===
/** The snapshot pipeline: the commit message built from the writer's report,
    the logs directory chosen next to the configuration, and one run
    assembled from extraction, normalisation, writing and the commit. */
module Pipeline {
  import opened Wrappers
  import opened Text
  import opened Models
  import Config
  import Normalizer
  import Writer
  import Extractor

  // ---------------------------------------------------------------- the template

  /** What `template.format(timestamp=...)` does: the formatted `Output`, a
      `KeyError` for a field naming another keyword, or another exception
      (`ValueError`, `IndexError`) that the builder does not catch. A field
      that reaches the `timestamp` argument with a conversion, a format
      specification, an attribute or an index is `Beyond` what this model
      interprets. */
  datatype Formatted = Output(s: string) | MissingKey(name: string) | Raises(reason: string) | Beyond

  const UnmatchedOpen := "expected '}' before end of string"
  const SingleOpen := "Single '{' encountered in format string"
  const SingleClose := "Single '}' encountered in format string"
  const TooManyDigits := "Too many decimal digits in format string"
  const OpenInName := "unexpected '{' in field name"
  const ConversionAtEnd := "end of string while looking for conversion specifier"
  const ConversionNoColon := "expected ':' after conversion specifier"
  const UnmatchedSpec := "unmatched '{' in format spec"

  /** The largest positional index `str.format` parses (`PY_SSIZE_T_MAX` on
      a 64-bit build); a longer index is a `ValueError`. */
  const MaxIndex: nat := 0x7FFF_FFFF_FFFF_FFFF

  /** The `IndexError` for a positional field when only keywords are given. */
  function Positional(index: nat): string {
    "Replacement index " + NatToString(index) + " out of range for positional args tuple"
  }

  /** The characters that end a field's name. */
  predicate NameStop(c: char) {
    c == '{' || c == '}' || c == ':' || c == '!'
  }

  /** `parse_field`'s scan of a field name: the position of the first `{`,
      `}`, `:` or `!` outside square brackets, or the end of the text when
      there is none (an unclosed `[` runs to the end). */
  function NameEnd(u: string): (k: nat)
    ensures k <= |u|
    ensures k < |u| ==> NameStop(u[k])
    decreases |u|
  {
    if |u| == 0 then 0
    else if NameStop(u[0]) then 0
    else if u[0] == '[' then
      var b := IndexOf(u[1..], ']');
      if b == |u| - 1 then |u| else b + 2 + NameEnd(u[b + 2..])
    else 1 + NameEnd(u[1..])
  }

  /** The length of a format specification through the `}` that closes it,
      counting the braces of the fields nested in it; `None` when the text
      ends first. `open` is the number of braces still to close. */
  function SpecEnd(s: string, open: nat): (r: Option<nat>)
    requires open >= 1
    ensures r.Some? ==> 0 < r.value <= |s| && s[r.value - 1] == '}'
    decreases |s|
  {
    if |s| == 0 then None
    else if s[0] == '}' && open == 1 then Some(1)
    else
      var next := if s[0] == '{' then open + 1 else if s[0] == '}' then open - 1 else open;
      match SpecEnd(s[1..], next)
      case None => None
      case Some(j) => Some(j + 1)
  }

  /** A replacement field as `parse_field` reads it: its name, whether a
      conversion or a format specification follows the name, and the
      template after the field; or the `ValueError` that ends the parse. */
  datatype FieldParse = Field(name: string, more: bool, rest: string) | Malformed(reason: string)

  /** `parse_field` on the text after a field's opening `{`. */
  function ParseField(u: string): (r: FieldParse)
    ensures r.Field? ==> |r.rest| < |u| && r.name == u[..NameEnd(u)]
    ensures r.Field? && !r.more ==> u == r.name + "}" + r.rest
    ensures r.Malformed? && NameEnd(u) == |u| ==> r.reason == UnmatchedOpen
    ensures NameEnd(u) < |u| && u[NameEnd(u)] == '{' ==> r == Malformed(OpenInName)
  {
    var k := NameEnd(u);
    if k == |u| then Malformed(UnmatchedOpen)
    else if u[k] == '{' then Malformed(OpenInName)
    else if u[k] == '}' then
      assert u == u[..k] + "}" + u[k + 1..];
      Field(u[..k], false, u[k + 1..])
    else if u[k] == '!' && k + 1 == |u| then Malformed(ConversionAtEnd)
    else if u[k] == '!' && k + 2 < |u| && u[k + 2] == '}' then Field(u[..k], true, u[k + 3..])
    else if u[k] == '!' && k + 2 < |u| && u[k + 2] != ':' then Malformed(ConversionNoColon)
    else
      var spec := if u[k] == ':' then u[k + 1..] else if k + 2 < |u| then u[k + 3..] else "";
      match SpecEnd(spec, 1)
      case None => Malformed(UnmatchedSpec)
      case Some(j) => Field(u[..k], true, spec[j..])
  }

  /** The argument a field name looks up: the text before its first `.` or `[`. */
  function ArgName(name: string): (a: string)
    ensures |a| <= |name| && a == name[..|a|]
    ensures |a| < |name| ==> name[|a|] == '.' || name[|a|] == '['
    decreases |name|
  {
    if |name| == 0 || name[0] == '.' || name[0] == '[' then "" else [name[0]] + ArgName(name[1..])
  }

  /** The run of decimal digits that starts `s`. */
  function LeadingDigits(s: string): (d: string)
    ensures AllDigits(d) && |d| <= |s| && d == s[..|d|]
    ensures |d| < |s| ==> !IsDigit(s[|d|])
    decreases |s|
  {
    if |s| == 0 || !IsDigit(s[0]) then "" else [s[0]] + LeadingDigits(s[1..])
  }

  /** `get_field_object` on a parsed field. The argument name's leading
      digits are read as an index first, and one past `MaxIndex` fails
      before any lookup; a name that is all digits, or empty (the first
      automatic index), is a positional argument, which the call does not
      pass; any other name but `timestamp` is a missing keyword. */
  function Resolve(name: string, more: bool, ts: string): (f: Formatted)
    ensures f.Output? <==> name == "timestamp" && !more
    ensures f.Output? ==> f.s == ts
    ensures f.MissingKey? <==>
      (&& !AllDigits(ArgName(name))
       && ArgName(name) != "timestamp"
       && (LeadingDigits(ArgName(name)) == "" || DigitsValue(LeadingDigits(ArgName(name))) <= MaxIndex))
    ensures f.MissingKey? ==> f.name == ArgName(name)
  {
    var arg := ArgName(name);
    var lead := LeadingDigits(arg);
    if lead != "" && DigitsValue(lead) > MaxIndex then Raises(TooManyDigits)
    else if lead == arg then Raises(Positional(if arg == "" then 0 else DigitsValue(arg)))
    else if arg != "timestamp" then MissingKey(arg)
    else if name == arg && !more then Output(ts)
    else Beyond
  }

  /** A field name that is a keyword argument and nothing more: no
      attribute, index, conversion or nested brace, not an index, and no
      leading digit run long enough to overflow the index parser. */
  predicate KeyName(field: string) {
    && field != ""
    && !AllDigits(field)
    && (forall i :: 0 <= i < |field| ==> !NameStop(field[i]) && field[i] != '.' && field[i] != '[')
    && (LeadingDigits(field) == "" || DigitsValue(LeadingDigits(field)) <= MaxIndex)
  }

  function PrependText(t: string, f: Formatted): Formatted {
    if f.Output? then Output(t + f.s) else f
  }

  /** `str.format` with the single keyword `timestamp`, read left to right:
      the first failing field decides the outcome. */
  function Format(t: string, ts: string): Formatted
    decreases |t|
  {
    if |t| == 0 then Output("")
    else if t[0] == '{' then
      if |t| >= 2 && t[1] == '{' then PrependText("{", Format(t[2..], ts))
      else if |t| == 1 then Raises(SingleOpen)
      else
        match ParseField(t[1..])
        case Malformed(reason) => Raises(reason)
        case Field(name, more, rest) =>
          var v := Resolve(name, more, ts);
          if v.Output? then PrependText(v.s, Format(rest, ts)) else v
    else if t[0] == '}' then
      if |t| >= 2 && t[1] == '}' then PrependText("}", Format(t[2..], ts))
      else Raises(SingleClose)
    else PrependText([t[0]], Format(t[1..], ts))
  }

  /** The subject's base: the formatted template, or `snapshot: <timestamp>`
      when the template names a keyword other than `timestamp`. */
  function Base(template: string, ts: string): (r: Result<string, string>)
    ensures Format(template, ts).Output? ==> r == Success(Format(template, ts).s)
    ensures Format(template, ts).MissingKey? ==> r == Success("snapshot: " + ts)
    ensures Format(template, ts).Raises? ==> r == Failure(Format(template, ts).reason)
    ensures r.Success? <==> Format(template, ts).Output? || Format(template, ts).MissingKey?
  {
    match Format(template, ts)
    case Output(s) => Success(s)
    case MissingKey(_) => Success("snapshot: " + ts)
    case Raises(reason) => Failure(reason)
    case Beyond => Failure("replacement field not interpreted")
  }

  /** A template written as pieces: fixed text, or the timestamp field. */
  datatype TemplatePiece = Literal(text: string) | Stamp

  /** Fixed text as a template spells it: every brace doubled. */
  function EscapeBraces(s: string): string
    decreases |s|
  {
    if |s| == 0 then ""
    else (if s[0] == '{' then "{{" else if s[0] == '}' then "}}" else [s[0]]) + EscapeBraces(s[1..])
  }

  /** The template text of one piece. */
  function PieceSource(p: TemplatePiece): string {
    match p
    case Literal(t) => EscapeBraces(t)
    case Stamp => "{timestamp}"
  }

  /** What one piece should format to. */
  function PieceFill(p: TemplatePiece, ts: string): string {
    match p
    case Literal(t) => t
    case Stamp => ts
  }

  /** The template text of a list of pieces. */
  function Source(pieces: seq<TemplatePiece>): string
    decreases |pieces|
  {
    if |pieces| == 0 then "" else PieceSource(pieces[0]) + Source(pieces[1..])
  }

  /** What a list of pieces should format to. */
  function Fill(pieces: seq<TemplatePiece>, ts: string): string
    decreases |pieces|
  {
    if |pieces| == 0 then "" else PieceFill(pieces[0], ts) + Fill(pieces[1..], ts)
  }

  lemma PrependTextAssoc(a: string, b: string, f: Formatted)
    ensures PrependText(a, PrependText(b, f)) == PrependText(a + b, f)
  {
  }

  /** One character of fixed text, escaped, formats to itself. */
  lemma FormatHead(c: char, rest: string, ts: string)
    ensures var head := if c == '{' then "{{" else if c == '}' then "}}" else [c];
      Format(head + rest, ts) == PrependText([c], Format(rest, ts))
  {
    var head := if c == '{' then "{{" else if c == '}' then "}}" else [c];
    assert (head + rest)[|head|..] == rest;
  }

  lemma {:induction false} FormatEscaped(s: string, rest: string, ts: string)
    ensures Format(EscapeBraces(s) + rest, ts) == PrependText(s, Format(rest, ts))
    decreases |s|
  {
    if |s| == 0 {
      assert EscapeBraces(s) + rest == rest;
    } else {
      var head := if s[0] == '{' then "{{" else if s[0] == '}' then "}}" else [s[0]];
      var t := EscapeBraces(s) + rest;
      assert t == head + (EscapeBraces(s[1..]) + rest);
      FormatEscaped(s[1..], rest, ts);
      FormatHead(s[0], EscapeBraces(s[1..]) + rest, ts);
      PrependTextAssoc([s[0]], s[1..], Format(rest, ts));
      assert [s[0]] + s[1..] == s;
    }
  }
  /** Fixed text in front of a template that fails does not change the failure. */
  lemma AfterText(s: string, t: string, ts: string)
    requires !Format(t, ts).Output?
    ensures Format(EscapeBraces(s) + t, ts) == Format(t, ts)
  {
    FormatEscaped(s, t, ts);
  }

  /** A name free of stops and brackets ends at the stop that follows it. */
  lemma {:induction false} NameEndAt(name: string, c: char, rest: string)
    requires forall i :: 0 <= i < |name| ==> !NameStop(name[i]) && name[i] != '['
    requires NameStop(c)
    ensures NameEnd(name + [c] + rest) == |name|
    decreases |name|
  {
    var u := name + [c] + rest;
    if |name| == 0 {
      assert u[0] == c;
    } else {
      assert u[0] == name[0];
      assert u[1..] == name[1..] + [c] + rest;
      NameEndAt(name[1..], c, rest);
    }
  }

  /** Text without a stop character is all field name, brackets or not. */
  lemma {:induction false} NameEndFree(u: string)
    requires forall i :: 0 <= i < |u| ==> !NameStop(u[i])
    ensures NameEnd(u) == |u|
    decreases |u|
  {
    if |u| > 0 {
      if u[0] == '[' {
        var b := IndexOf(u[1..], ']');
        if b != |u| - 1 {
          NameEndFree(u[b + 2..]);
        }
      } else {
        NameEndFree(u[1..]);
      }
    }
  }

  /** The digit run that starts a name is the digits written before the
      first non-digit. */
  lemma LeadingDigitsOf(d: string, x: string)
    requires AllDigits(d) && (x == "" || !IsDigit(x[0]))
    ensures LeadingDigits(d + x) == d
  {
    var l := LeadingDigits(d + x);
    assert |l| <= |d| by {
      if |d| < |d + x| {
        assert (d + x)[|d|] == x[0];
      }
    }
    assert l == (d + x)[..|d|] == d;
  }

  /** A `{` as the template's last character is a lone brace. */
  lemma TrailingOpen(s: string, ts: string)
    ensures Format(EscapeBraces(s) + "{", ts) == Raises(SingleOpen)
  {
    AfterText(s, "{", ts);
  }

  /** A field opened and never closed: its name runs into the end of the
      template (a second `{` straight after the first would be an escaped
      brace, and `:` or `!` would start a conversion or a specification). */
  lemma OpenNeverClosed(s: string, f: string, ts: string)
    requires f != "" && forall i :: 0 <= i < |f| ==> !NameStop(f[i])
    ensures Format(EscapeBraces(s) + "{" + f, ts) == Raises(UnmatchedOpen)
  {
    var t := "{" + f;
    assert EscapeBraces(s) + "{" + f == EscapeBraces(s) + t;
    assert t[1..] == f;
    NameEndFree(f);
    assert Format(t, ts) == Raises(UnmatchedOpen);
    AfterText(s, t, ts);
  }

  /** A `{` inside a field's name. */
  lemma BraceInName(s: string, name: string, rest: string, ts: string)
    requires name != "" && forall i :: 0 <= i < |name| ==> !NameStop(name[i]) && name[i] != '['
    ensures Format(EscapeBraces(s) + "{" + name + "{" + rest, ts) == Raises(OpenInName)
  {
    var t := "{" + name + "{" + rest;
    assert EscapeBraces(s) + "{" + name + "{" + rest == EscapeBraces(s) + t;
    assert t[1..] == name + ['{'] + rest;
    NameEndAt(name, '{', rest);
    assert t[1] == name[0];
    assert Format(t, ts) == Raises(OpenInName);
    AfterText(s, t, ts);
  }

  /** A `!` as the template's last character leaves the conversion out. */
  lemma ConversionMissing(s: string, name: string, ts: string)
    requires forall i :: 0 <= i < |name| ==> !NameStop(name[i]) && name[i] != '['
    ensures Format(EscapeBraces(s) + "{" + name + "!", ts) == Raises(ConversionAtEnd)
  {
    var t := "{" + name + "!";
    assert EscapeBraces(s) + "{" + name + "!" == EscapeBraces(s) + t;
    assert t[1..] == name + ['!'] + "";
    NameEndAt(name, '!', "");
    assert Format(t, ts) == Raises(ConversionAtEnd);
    AfterText(s, t, ts);
  }

  /** A conversion character must be followed by `}` or `:`. */
  lemma ConversionUnfinished(s: string, name: string, conv: char, c: char, rest: string, ts: string)
    requires forall i :: 0 <= i < |name| ==> !NameStop(name[i]) && name[i] != '['
    requires c != '}' && c != ':'
    ensures Format(EscapeBraces(s) + "{" + name + "!" + [conv, c] + rest, ts) == Raises(ConversionNoColon)
  {
    var t := "{" + name + "!" + [conv, c] + rest;
    assert EscapeBraces(s) + "{" + name + "!" + [conv, c] + rest == EscapeBraces(s) + t;
    var u := t[1..];
    assert u == name + ['!'] + ([conv, c] + rest);
    NameEndAt(name, '!', [conv, c] + rest);
    assert u[|name| + 2] == c;
    assert Format(t, ts) == Raises(ConversionNoColon);
    AfterText(s, t, ts);
  }

  /** A format specification that no `}` closes. */
  lemma SpecNeverClosed(s: string, name: string, spec: string, ts: string)
    requires forall i :: 0 <= i < |name| ==> !NameStop(name[i]) && name[i] != '['
    requires '}' !in spec
    ensures Format(EscapeBraces(s) + "{" + name + ":" + spec, ts) == Raises(UnmatchedSpec)
  {
    var t := "{" + name + ":" + spec;
    assert EscapeBraces(s) + "{" + name + ":" + spec == EscapeBraces(s) + t;
    var u := t[1..];
    assert u == name + [':'] + spec;
    NameEndAt(name, ':', spec);
    assert u[|name| + 1..] == spec;
    assert SpecEnd(spec, 1) == None;
    assert Format(t, ts) == Raises(UnmatchedSpec);
    AfterText(s, t, ts);
  }

  /** A positional field, `{}` or `{<digits>}`, names an argument the call
      does not pass; its index is in the message. */
  lemma PositionalField(s: string, d: string, rest: string, ts: string)
    requires AllDigits(d) && (d == "" || DigitsValue(d) <= MaxIndex)
    ensures Format(EscapeBraces(s) + "{" + d + "}" + rest, ts)
         == Raises(Positional(if d == "" then 0 else DigitsValue(d)))
  {
    var t := "{" + d + "}" + rest;
    assert EscapeBraces(s) + "{" + d + "}" + rest == EscapeBraces(s) + t;
    PositionalAt(d, rest, ts);
    AfterText(s, t, ts);
  }

  lemma PositionalAt(d: string, rest: string, ts: string)
    requires AllDigits(d) && (d == "" || DigitsValue(d) <= MaxIndex)
    ensures Format("{" + d + "}" + rest, ts) == Raises(Positional(if d == "" then 0 else DigitsValue(d)))
  {
    var t := "{" + d + "}" + rest;
    assert t[1..] == d + ['}'] + rest;
    assert forall i :: 0 <= i < |d| ==> IsDigit(d[i]);
    NameEndAt(d, '}', rest);
    assert t[1..][..|d|] == d;
    assert ArgName(d) == d;
    LeadingDigitsOf(d, "");
    assert d + "" == d;
    if d != "" {
      assert t[1] == d[0];
    }
  }

  /** An argument name whose leading digits pass `MaxIndex` overflows the
      index parser before any lookup, whatever non-digits follow. */
  lemma OverlongIndex(s: string, d: string, x: string, rest: string, ts: string)
    requires AllDigits(d) && DigitsValue(d) > MaxIndex
    requires x == "" || !IsDigit(x[0])
    requires forall i :: 0 <= i < |x| ==> !NameStop(x[i]) && x[i] != '[' && x[i] != '.'
    ensures Format(EscapeBraces(s) + "{" + d + x + "}" + rest, ts) == Raises(TooManyDigits)
  {
    var t := "{" + (d + x) + "}" + rest;
    assert EscapeBraces(s) + "{" + d + x + "}" + rest == EscapeBraces(s) + t;
    OverlongAt(d, x, rest, ts);
    AfterText(s, t, ts);
  }

  lemma OverlongAt(d: string, x: string, rest: string, ts: string)
    requires AllDigits(d) && DigitsValue(d) > MaxIndex
    requires x == "" || !IsDigit(x[0])
    requires forall i :: 0 <= i < |x| ==> !NameStop(x[i]) && x[i] != '[' && x[i] != '.'
    ensures Format("{" + (d + x) + "}" + rest, ts) == Raises(TooManyDigits)
  {
    var name := d + x;
    var t := "{" + name + "}" + rest;
    assert t[1..] == name + ['}'] + rest;
    forall i | 0 <= i < |name| ensures !NameStop(name[i]) && name[i] != '[' && name[i] != '.' {
      if i < |d| {
        assert name[i] == d[i] && IsDigit(d[i]);
      } else {
        assert name[i] == x[i - |d|];
      }
    }
    NameEndAt(name, '}', rest);
    assert t[1..][..|name|] == name;
    assert ArgName(name) == name;
    LeadingDigitsOf(d, x);
    assert d != "";
    assert t[1] == d[0];
  }

  /** Ten to the `n`. */
  function Pow10(n: nat): nat {
    if n == 0 then 1 else 10 * Pow10(n - 1)
  }

  lemma {:induction false} Pow10Add(a: nat, b: nat)
    ensures Pow10(a + b) == Pow10(a) * Pow10(b)
    decreases a
  {
    if a > 0 {
      Pow10Add(a - 1, b);
    }
  }

  /** A run of `n` nines is one less than ten to the `n`. */
  lemma {:induction false} NinesValue(d: string)
    requires forall i :: 0 <= i < |d| ==> d[i] == '9'
    ensures AllDigits(d) && DigitsValue(d) + 1 == Pow10(|d|)
    decreases |d|
  {
    if |d| > 0 {
      NinesValue(d[..|d| - 1]);
    }
  }

  /** Twenty nines are past `MaxIndex`. */
  lemma TwentyNines(d: string)
    requires |d| == 20 && forall i :: 0 <= i < |d| ==> d[i] == '9'
    ensures AllDigits(d) && DigitsValue(d) > MaxIndex
  {
    NinesValue(d);
    Pow10Add(5, 5);
    Pow10Add(10, 10);
    assert Pow10(5) == 100000;
  }

  /** Twenty nines followed by a letter overflow before the letter is read,
      so the builder's `KeyError` fallback does not apply. */
  lemma OverlongFieldRaises(ts: string)
    ensures Base("{99999999999999999999x}", ts) == Failure(TooManyDigits)
  {
    var d := "99999999999999999999";
    TwentyNines(d);
    OverlongIndex("", d, "x", "", ts);
    assert EscapeBraces("") + "{" + d + "x" + "}" + "" == "{99999999999999999999x}";
  }

  lemma {:induction false} EscapeBracesFree(s: string)
    requires '{' !in s && '}' !in s
    ensures EscapeBraces(s) == s
    decreases |s|
  {
    if |s| > 0 {
      EscapeBracesFree(s[1..]);
      assert [s[0]] + s[1..] == s;
    }
  }

  lemma FormatStamp(rest: string, ts: string)
    ensures Format("{timestamp}" + rest, ts) == PrependText(ts, Format(rest, ts))
  {
    var t := "{timestamp}" + rest;
    assert t[1..] == "timestamp" + ['}'] + rest;
    NameEndAt("timestamp", '}', rest);
    assert t[1..][..9] == "timestamp";
    assert t[11..] == rest;
  }

  /** A template built from pieces formats to the pieces filled in: doubled
      braces are literal braces and `{timestamp}` is the timestamp. */
  /** Formatting reads one piece off the front of a template. */
  lemma FormatPiece(p: TemplatePiece, rest: string, ts: string)
    ensures Format(PieceSource(p) + rest, ts) == PrependText(PieceFill(p, ts), Format(rest, ts))
  {
    match p
    case Literal(t) =>
      FormatEscaped(t, rest, ts);
    case Stamp =>
      FormatStamp(rest, ts);
  }

  lemma {:induction false} FormatSource(pieces: seq<TemplatePiece>, ts: string)
    ensures Format(Source(pieces), ts) == Output(Fill(pieces, ts))
    decreases |pieces|
  {
    if |pieces| > 0 {
      FormatSource(pieces[1..], ts);
      FormatPiece(pieces[0], Source(pieces[1..]), ts);
    }
  }

  lemma FormatMissing(name: string, rest: string, ts: string)
    requires KeyName(name) && name != "timestamp"
    ensures Format("{" + name + "}" + rest, ts) == MissingKey(name)
  {
    var t := "{" + name + "}" + rest;
    assert t[1..] == name + ['}'] + rest;
    NameEndAt(name, '}', rest);
    assert t[1..][..|name|] == name;
    assert ArgName(name) == name;
    assert t[1] == name[0];
  }

  lemma {:induction false} PrependMissing(pieces: seq<TemplatePiece>, rest: string, ts: string, name: string)
    requires Format(rest, ts) == MissingKey(name)
    ensures Format(Source(pieces) + rest, ts) == MissingKey(name)
    decreases |pieces|
  {
    if |pieces| == 0 {
      assert Source(pieces) + rest == rest;
    } else {
      var tail := Source(pieces[1..]) + rest;
      PrependMissing(pieces[1..], rest, ts, name);
      assert Source(pieces) + rest == PieceSource(pieces[0]) + tail;
      FormatPiece(pieces[0], tail, ts);
    }
  }


  /** A template whose first unknown field names another keyword falls back
      to `snapshot: <timestamp>`, whatever follows that field. */
  lemma MissingKeyFallback(pieces: seq<TemplatePiece>, name: string, rest: string, ts: string)
    requires KeyName(name) && name != "timestamp"
    ensures Base(Source(pieces) + "{" + name + "}" + rest, ts) == Success("snapshot: " + ts)
  {
    FormatMissing(name, rest, ts);
    assert Source(pieces) + "{" + name + "}" + rest == Source(pieces) + ("{" + name + "}" + rest);
    PrependMissing(pieces, "{" + name + "}" + rest, ts, name);
  }

  /** Fixed text followed by the timestamp field formats to the text and
      the timestamp, as the default template does. */
  lemma LeadThenStamp(lead: string, ts: string)
    requires '{' !in lead && '}' !in lead
    ensures Base(lead + "{timestamp}", ts) == Success(lead + ts)
  {
    var stamp := "{timestamp}";
    EscapeBracesFree(lead);
    FormatStamp("", ts);
    assert stamp + "" == stamp;
    assert Format("", ts) == Output("");
    assert Format(stamp, ts) == Output(ts + "");
    assert ts + "" == ts;
    FormatEscaped(lead, stamp, ts);
    assert Format(lead + stamp, ts) == Output(lead + ts);
  }

  /** The default template gives `snapshot: <timestamp>`. */
  lemma DefaultTemplateBase(ts: string)
    ensures Base(Config.DefaultTemplate, ts) == Success("snapshot: " + ts)
  {
    var lead := "snapshot: ";
    assert Config.DefaultTemplate == lead + "{timestamp}";
    LeadThenStamp(lead, ts);
  }


  // ---------------------------------------------------------------- repository-relative paths

  /** `_to_repo_relative_path`: the path below the repository as POSIX text,
      `.` for the repository itself, and the absolute path for anything
      outside it. */
  function RepoRelative(p: Path, repo: Path): string {
    if p == repo then "."
    else if Under(p, repo) then Join(p[|repo|..], "/")
    else "/" + Join(p, "/")
  }

  /** Read a path the way `RepoRelative` writes it. */
  function ResolveRelative(r: string, repo: Path): Path {
    if r == "." then repo
    else if r == "/" then []
    else if |r| > 0 && r[0] == '/' then Split(r[1..], '/')
    else repo + Split(r, '/')
  }

  /** A name a resolved path can hold: non-empty, not `.`, no `/`. */
  predicate Segment(s: string) {
    s != "" && s != "." && '/' !in s
  }

  predicate Segments(p: Path) {
    forall i :: 0 <= i < |p| ==> Segment(p[i])
  }

  lemma SplitJoinSegments(p: Path)
    requires |p| > 0 && Segments(p)
    ensures Split(Join(p, "/"), '/') == p
    ensures Join(p, "/") != "" && Join(p, "/") != "." && Join(p, "/")[0] != '/'
  {
    SplitJoin(p, '/');
    JoinStartsWithFirst(p);
  }

  lemma {:induction false} JoinStartsWithFirst(p: Path)
    requires |p| > 0 && Segments(p)
    ensures |Join(p, "/")| >= |p[0]| && Join(p, "/")[..|p[0]|] == p[0]
    ensures Join(p, "/") == "." ==> p == ["."]
    decreases |p|
  {
    if |p| > 1 {
      assert Join(p, "/") == p[0] + "/" + Join(p[1..], "/");
      assert (p[0] + "/" + Join(p[1..], "/"))[..|p[0]|] == p[0];
    }
  }

  /** The text in a commit message names the file: reading it against the
      repository gives the path back. */
  lemma RepoRelativeRoundTrip(p: Path, repo: Path)
    requires Segments(p)
    ensures ResolveRelative(RepoRelative(p, repo), repo) == p
  {
    var r := RepoRelative(p, repo);
    if p == repo {
    } else if Under(p, repo) {
      var rest := p[|repo|..];
      assert Segments(rest) by {
        forall i | 0 <= i < |rest| ensures Segment(rest[i]) {
          assert rest[i] == p[|repo| + i];
        }
      }
      SplitJoinSegments(rest);
      assert r != ".";
      assert repo + rest == p;
    } else if p == [] {
      assert r == "/";
    } else {
      SplitJoinSegments(p);
      assert r[1..] == Join(p, "/");
      assert r != "." && r != "/";
    }
  }

  // ---------------------------------------------------------------- the commit message

  const MaxCommitMessageFiles: nat := 30

  /** One change line per path, tagged `A`, `M` or `D`. */
  function Tagged(tag: string, paths: seq<Path>, repo: Path): seq<string> {
    seq(|paths|, i requires 0 <= i < |paths| => tag + " " + RepoRelative(paths[i], repo))
  }

  /** The change lines: every added file, then every modified, then every deleted. */
  function ChangeLines(repo: Path, added: seq<Path>, modified: seq<Path>, deleted: seq<Path>): seq<string> {
    Tagged("A", added, repo) + Tagged("M", modified, repo) + Tagged("D", deleted, repo)
  }

  function Subject(base: string, n: nat): string {
    base + " (" + IntToString(n) + " files)"
  }

  function Bullets(lines: seq<string>): seq<string> {
    seq(|lines|, i requires 0 <= i < |lines| => "- " + lines[i])
  }

  function MoreLine(n: nat): string {
    "- ... (+" + IntToString(n) + " more)"
  }

  /** The message for a base and its change lines: the base alone when
      nothing changed; otherwise a subject counting the changes, a blank
      line, a heading, at most `MaxCommitMessageFiles` bullets and a line
      counting the rest. */
  function MessageOf(base: string, lines: seq<string>): string {
    if |lines| == 0 then base
    else
      var shown := if |lines| > MaxCommitMessageFiles then lines[..MaxCommitMessageFiles] else lines;
      var more := if |lines| > MaxCommitMessageFiles then [MoreLine(|lines| - MaxCommitMessageFiles)] else [];
      Subject(base, |lines|) + "\n" + Join(["", "Changed files:"] + Bullets(shown) + more, "\n")
  }

  /** `_build_commit_message`, with the timestamp given. */
  function CommitMessage(template: string, ts: string, repo: Path,
                         added: seq<Path>, modified: seq<Path>, deleted: seq<Path>): (r: Result<string, string>)
    ensures r.Success? <==> Base(template, ts).Success?
  {
    match Base(template, ts)
    case Failure(e) => Failure(e)
    case Success(base) => Success(MessageOf(base, ChangeLines(repo, added, modified, deleted)))
  }

  /** Read a change line back: its tag and the path it names. */
  function ReadChange(line: string, repo: Path): (char, Path)
    requires |line| >= 2
  {
    (line[0], ResolveRelative(line[2..], repo))
  }

  lemma TaggedRead(tag: char, paths: seq<Path>, repo: Path)
    requires forall i :: 0 <= i < |paths| ==> Segments(paths[i])
    ensures var t := Tagged([tag], paths, repo);
      |t| == |paths| && forall i :: 0 <= i < |t| ==> |t[i]| >= 2 && ReadChange(t[i], repo) == (tag, paths[i])
  {
    var t := Tagged([tag], paths, repo);
    forall i | 0 <= i < |t| ensures |t[i]| >= 2 && ReadChange(t[i], repo) == (tag, paths[i]) {
      RepoRelativeRoundTrip(paths[i], repo);
      assert t[i][2..] == RepoRelative(paths[i], repo);
    }
  }

  /** The change lines list every added file, then every modified, then every
      deleted one, each readable back as its tag and path. */
  lemma ChangeLinesRead(repo: Path, added: seq<Path>, modified: seq<Path>, deleted: seq<Path>)
    requires forall i :: 0 <= i < |added| ==> Segments(added[i])
    requires forall i :: 0 <= i < |modified| ==> Segments(modified[i])
    requires forall i :: 0 <= i < |deleted| ==> Segments(deleted[i])
    ensures var lines := ChangeLines(repo, added, modified, deleted);
      var a := |added|; var m := |modified|;
      && |lines| == |added| + |modified| + |deleted|
      && (forall i :: 0 <= i < |lines| ==> |lines[i]| >= 2)
      && (forall i :: 0 <= i < a ==> ReadChange(lines[i], repo) == ('A', added[i]))
      && (forall i :: 0 <= i < m ==> ReadChange(lines[a + i], repo) == ('M', modified[i]))
      && (forall i :: 0 <= i < |deleted| ==> ReadChange(lines[a + m + i], repo) == ('D', deleted[i]))
  {
    TaggedRead('A', added, repo);
    TaggedRead('M', modified, repo);
    TaggedRead('D', deleted, repo);
  }

  lemma RepoRelativeOneLine(p: Path, repo: Path)
    requires forall i :: 0 <= i < |p| ==> '\n' !in p[i]
    ensures '\n' !in RepoRelative(p, repo)
  {
    if p != repo && Under(p, repo) {
      JoinFree(p[|repo|..], "/", '\n');
    } else if p != repo {
      JoinFree(p, "/", '\n');
    }
  }

  /** A change line holds no line break when its path holds none. */
  lemma ChangeLinesOneLine(repo: Path, added: seq<Path>, modified: seq<Path>, deleted: seq<Path>)
    requires forall p :: p in added + modified + deleted ==> forall i :: 0 <= i < |p| ==> '\n' !in p[i]
    ensures forall l :: l in ChangeLines(repo, added, modified, deleted) ==> '\n' !in l
  {
    var all := added + modified + deleted;
    var lines := ChangeLines(repo, added, modified, deleted);
    assert |lines| == |all|;
    forall k | 0 <= k < |lines| ensures '\n' !in lines[k] {
      var p := all[k];
      RepoRelativeOneLine(p, repo);
      assert lines[k][2..] == RepoRelative(p, repo);
    }
  }

  /** The lines of a message with changes, before they are joined. */
  function MessageParts(base: string, lines: seq<string>): seq<string> {
    var over := |lines| > MaxCommitMessageFiles;
    var shown := if over then lines[..MaxCommitMessageFiles] else lines;
    [Subject(base, |lines|), "", "Changed files:"] + Bullets(shown)
      + (if over then [MoreLine(|lines| - MaxCommitMessageFiles)] else [])
  }

  lemma MessageJoin(base: string, lines: seq<string>)
    requires |lines| > 0
    ensures MessageOf(base, lines) == Join(MessageParts(base, lines), "\n")
  {
    var over := |lines| > MaxCommitMessageFiles;
    var shown := if over then lines[..MaxCommitMessageFiles] else lines;
    var body := ["", "Changed files:"] + Bullets(shown) + (if over then [MoreLine(|lines| - MaxCommitMessageFiles)] else []);
    var parts := MessageParts(base, lines);
    assert parts == [Subject(base, |lines|)] + body;
    assert |parts| > 1 && parts[1..] == body;
    assert Join(parts, "\n") == parts[0] + "\n" + Join(parts[1..], "\n");
  }

  lemma MessagePartsShape(base: string, lines: seq<string>)
    ensures var parts := MessageParts(base, lines);
      var shown := if |lines| > MaxCommitMessageFiles then MaxCommitMessageFiles else |lines|;
      && |parts| == 3 + shown + (if |lines| > MaxCommitMessageFiles then 1 else 0)
      && parts[0] == Subject(base, |lines|) && parts[1] == "" && parts[2] == "Changed files:"
      && (forall i :: 0 <= i < shown ==> parts[3 + i] == "- " + lines[i])
      && (|lines| > MaxCommitMessageFiles ==> parts[|parts| - 1] == MoreLine(|lines| - MaxCommitMessageFiles))
  {
  }

  lemma NumberOneLine(n: nat)
    ensures '\n' !in IntToString(n)
  {
    assert AllDigits(NatToString(n));
  }

  lemma MessagePartsOneLine(base: string, lines: seq<string>)
    requires '\n' !in base
    requires forall i :: 0 <= i < |lines| ==> '\n' !in lines[i]
    ensures forall i :: 0 <= i < |MessageParts(base, lines)| ==> '\n' !in MessageParts(base, lines)[i]
  {
    var parts := MessageParts(base, lines);
    MessagePartsShape(base, lines);
    NumberOneLine(|lines|);
    if |lines| > MaxCommitMessageFiles {
      NumberOneLine(|lines| - MaxCommitMessageFiles);
    }
  }

  /** The lines of a message: the subject, a blank line, the heading, one
      bullet for each of the first `MaxCommitMessageFiles` changes, and a
      last line counting the others when there are more; with no change,
      just the base. */
  lemma MessageLines(base: string, lines: seq<string>)
    requires '\n' !in base
    requires forall i :: 0 <= i < |lines| ==> '\n' !in lines[i]
    ensures |lines| == 0 ==> MessageOf(base, lines) == base
    ensures |lines| > 0 ==>
      var sp := Split(MessageOf(base, lines), '\n');
      var shown := if |lines| > MaxCommitMessageFiles then MaxCommitMessageFiles else |lines|;
      && |sp| == 3 + shown + (if |lines| > MaxCommitMessageFiles then 1 else 0)
      && sp[0] == Subject(base, |lines|) && sp[1] == "" && sp[2] == "Changed files:"
      && (forall i :: 0 <= i < shown ==> sp[3 + i] == "- " + lines[i])
      && (|lines| > MaxCommitMessageFiles ==> sp[|sp| - 1] == MoreLine(|lines| - MaxCommitMessageFiles))
  {
    if |lines| > 0 {
      MessageJoin(base, lines);
      MessagePartsShape(base, lines);
      MessagePartsOneLine(base, lines);
      SplitJoin(MessageParts(base, lines), '\n');
    }
  }

  // ---------------------------------------------------------------- the logs directory

  /** `Path.parent`: the root is its own parent. */
  function Parent(p: Path): Path {
    if |p| == 0 then [] else p[..|p| - 1]
  }

  /** `Path.name`: empty for the root. */
  function Name(p: Path): string {
    if |p| == 0 then "" else p[|p| - 1]
  }

  /** `_resolve_logs_dir`: `logs` beside the directory holding the
      configuration when that directory is named `config` in any case, and
      inside it otherwise. */
  function ResolveLogsDir(configPath: Path): Path {
    var dir := Parent(configPath);
    if Lower(Name(dir)) == "config" then Parent(dir) + ["logs"] else dir + ["logs"]
  }

  /** The logs directory is a `logs` directory two levels above the
      configuration file exactly when the file sits in a `config` directory,
      and one level above it otherwise. */
  lemma LogsDirPlacement(configPath: Path)
    requires |configPath| >= 2
    ensures var r := ResolveLogsDir(configPath);
      && |r| >= 1 && r[|r| - 1] == "logs"
      && r[..|r| - 1] == configPath[..|r| - 1]
      && (|r| == |configPath| - 1 <==> Lower(configPath[|configPath| - 2]) == "config")
      && (|r| == |configPath| <==> Lower(configPath[|configPath| - 2]) != "config")
  {
    var r := ResolveLogsDir(configPath);
    var dir := Parent(configPath);
    assert Name(dir) == configPath[|configPath| - 2];
    if Lower(Name(dir)) == "config" {
      assert r[..|r| - 1] == Parent(dir);
    } else {
      assert r[..|r| - 1] == dir;
    }
  }

  // ---------------------------------------------------------------- one run

  /** `SnapshotRunResult`. */
  datatype RunResult = RunResult(
    extractedCount: nat,
    failedCount: nat,
    writtenCount: nat,
    deletedCount: nat,
    unchangedCount: nat,
    committed: bool,
    commitSha: Option<string>,
    pushed: bool,
    failures: seq<string>,
    logFile: Option<Path>)

  /** The arguments of `commit_if_changed`. */
  datatype GitRequest = GitRequest(paths: seq<Path>, message: string, autoPush: bool, branch: Option<string>, remote: string)

  /** The writer's entries: each extracted object with its DDL normalised. */
  function Entries(items: seq<ExtractedDdl>, le: Normalizer.LineEnding): seq<SnapshotEntry> {
    seq(|items|, i requires 0 <= i < |items| => SnapshotEntry(items[i].dbObject, Normalizer.Normalize(items[i].ddl, le)))
  }

  /** Each entry is its item's object, unchanged, with DDL in the configured
      line-ending style: no carriage return for `LF`, and for `CRLF` exactly
      the `LF` text with every break written `\r\n`. */
  lemma EntriesSpec(items: seq<ExtractedDdl>, le: Normalizer.LineEnding)
    ensures var e := Entries(items, le);
      && |e| == |items|
      && (forall k :: 0 <= k < |e| ==> e[k].dbObject == items[k].dbObject)
      && (le == Normalizer.LF ==> forall k :: 0 <= k < |e| ==> '\r' !in e[k].ddl)
      && (le == Normalizer.CRLF ==> forall k :: 0 <= k < |e| ==>
            Normalizer.FoldLineEndings(e[k].ddl) == Normalizer.Normalize(items[k].ddl, Normalizer.LF))
  {
    var e := Entries(items, le);
    forall k | 0 <= k < |e|
      ensures le == Normalizer.LF ==> '\r' !in e[k].ddl
      ensures le == Normalizer.CRLF ==> Normalizer.FoldLineEndings(e[k].ddl) == Normalizer.Normalize(items[k].ddl, Normalizer.LF)
    {
      Normalizer.NormalizeLfNoCr(items[k].ddl);
      Normalizer.NormalizeCrlf(items[k].ddl);
    }
  }

  /** A list without repeats has as many elements as the set it enumerates. */
  lemma {:induction false} DistinctCount<T>(s: seq<T>, S: set<T>)
    requires forall i, j :: 0 <= i < j < |s| ==> s[i] != s[j]
    requires forall x :: x in s <==> x in S
    ensures |s| == |S|
    decreases |s|
  {
    if |s| > 0 {
      var x := s[|s| - 1];
      var init := s[..|s| - 1];
      assert s == init + [x];
      assert x !in init;
      DistinctCount(init, S - {x});
    }
  }

  /** What a run writes from: the extraction and the entries it normalises to. */
  datatype Prepared = Prepared(extraction: Extractor.ExtractionResult, entries: seq<SnapshotEntry>)

  /** The run's first half: extract, then build the normaliser. A failed
      discovery comes first, then a refused line-ending setting; either ends
      the run. */
  function Prepare(config: Config.AppConfig, db: Extractor.Database): (r: Result<Prepared, string>)
    ensures r.Success? <==> Extractor.Extract(config.scope, db).Success? && Normalizer.ParseLineEnding(config.output.lineEnding).Success?
    ensures Extractor.Extract(config.scope, db).Failure? ==> r == Failure(Extractor.Extract(config.scope, db).error)
    ensures Extractor.Extract(config.scope, db).Success? && Normalizer.ParseLineEnding(config.output.lineEnding).Failure? ==>
      r == Failure(Normalizer.LineEndingError)
    ensures r.Success? ==>
      && r.value.extraction == Extractor.Extract(config.scope, db).value
      && r.value.entries == Entries(r.value.extraction.items, Normalizer.ParseLineEnding(config.output.lineEnding).value)
  {
    match Extractor.Extract(config.scope, db)
    case Failure(e) => Failure(e)
    case Success(ex) =>
      match Normalizer.ParseLineEnding(config.output.lineEnding)
      case Failure(e) => Failure(e)
      case Success(le) => Success(Prepared(ex, Entries(ex.items, le)))
  }

  /** The commit step of a real run: build the message from the writer's
      report and hand it to version control. A template that raises ends the
      run before any request; a failing commit or push ends it after one. */
  method Publish(git: Config.GitConfig, root: Path, report: WriteResult,
                 vcs: GitRequest -> Result<GitResult, string>, timestamp: string)
    returns (outcome: Result<GitResult, string>, requests: seq<GitRequest>)
    ensures var message := CommitMessage(git.commitMessageTemplate, timestamp, git.repoPath,
                                         report.addedFiles, report.modifiedFiles, report.deletedFiles);
      && (message.Failure? ==> outcome == Failure(message.error) && requests == [])
      && (message.Success? ==>
            && requests == [GitRequest([root], message.value, git.autoPush, git.branch, git.remote)]
            && outcome == vcs(requests[0]))
  {
    var message := CommitMessage(git.commitMessageTemplate, timestamp, git.repoPath,
                                 report.addedFiles, report.modifiedFiles, report.deletedFiles);
    if message.Failure? {
      outcome := Failure(message.error);
      requests := [];
      return;
    }
    var request := GitRequest([root], message.value, git.autoPush, git.branch, git.remote);
    requests := [request];
    outcome := vcs(request);
  }

  /** `SnapshotPipeline.run`, with the database, the filesystem, the
      version-control step and the clock given. Besides the result it yields
      the files afterwards, the writer's report, and the commit requests made. */
  method Run(config: Config.AppConfig, db: Extractor.Database, files: FileMap,
             vcs: GitRequest -> Result<GitResult, string>, timestamp: string,
             logFile: Option<Path>, dryRun: bool)
    returns (result: Result<RunResult, string>, after: FileMap, report: WriteResult, requests: seq<GitRequest>)
    ensures Prepare(config, db).Failure? ==>
      result == Failure(Prepare(config, db).error) && after == files && requests == []
    ensures dryRun ==> after == files && requests == []
    ensures dryRun && result.Success? ==> !result.value.committed && result.value.commitSha.None? && !result.value.pushed
    ensures result.Success? ==>
      && Prepare(config, db).Success?
      && var ex := Prepare(config, db).value.extraction;
      && result.value.extractedCount == |ex.items|
      && result.value.failedCount == |ex.failures|
      && result.value.failures == ex.failures
      && result.value.writtenCount == |report.addedFiles| + |report.modifiedFiles|
      && result.value.deletedCount == |report.deletedFiles|
      && result.value.unchangedCount == report.unchangedFiles
      && result.value.writtenCount + result.value.unchangedCount == result.value.extractedCount
      && result.value.logFile == logFile
    ensures Prepare(config, db).Success? ==>
      var entries := Prepare(config, db).value.entries;
      var root := config.output.snapshotRoot;
      && |report.deletedFiles| == |Writer.Stale(files, root, Writer.Desired(root, entries))|
      && (forall p :: p in report.deletedFiles <==> p in Writer.Stale(files, root, Writer.Desired(root, entries)))
      && (!dryRun ==> after == Writer.FinalFiles(files, root, entries))
    ensures !dryRun && Prepare(config, db).Success? ==>
      var message := CommitMessage(config.git.commitMessageTemplate, timestamp, config.git.repoPath,
                                   report.addedFiles, report.modifiedFiles, report.deletedFiles);
      && (message.Failure? ==> result == Failure(message.error) && requests == [])
      && (message.Success? ==>
            && requests == [GitRequest([config.output.snapshotRoot], message.value, config.git.autoPush, config.git.branch, config.git.remote)]
            && (vcs(requests[0]).Failure? ==> result == Failure(vcs(requests[0]).error))
            && (vcs(requests[0]).Success? ==>
                  && result.Success?
                  && result.value.committed == vcs(requests[0]).value.committed
                  && result.value.commitSha == vcs(requests[0]).value.commitSha
                  && result.value.pushed == vcs(requests[0]).value.pushed))
  {
    requests := [];
    report := WriteResult([], [], [], 0);
    after := files;
    var prepared := Prepare(config, db);
    if prepared.Failure? {
      result := Failure(prepared.error);
      return;
    }
    var ex := prepared.value.extraction;
    var entries := prepared.value.entries;
    var root := config.output.snapshotRoot;
    report, after := Writer.Write(files, root, entries, dryRun);
    DistinctCount(report.deletedFiles, Writer.Stale(files, root, Writer.Desired(root, entries)));
    var git := GitResult(false, None, false);
    if !dryRun {
      var outcome;
      outcome, requests := Publish(config.git, root, report, vcs, timestamp);
      if outcome.Failure? {
        result := Failure(outcome.error);
        return;
      }
      git := outcome.value;
    }
    result := Success(RunResult(|ex.items|, |ex.failures|, |report.WrittenFiles()|, |report.deletedFiles|,
                                report.unchangedFiles, git.committed, git.commitSha, git.pushed, ex.failures, logFile));
  }
}

=== FILE: safenames.dfy ===
/** Path-segment sanitising shared by the snapshot writer and the audit
    exporter: strip the value, turn every run of characters outside
    `[A-Za-z0-9_.-]` into one `_`, trim `_` from both ends, and fall back to
    a fixed name when nothing is left. */
module SafeNames {
  import opened Text

  /** The characters a path segment may hold. */
  predicate SafeChar(c: char) {
    ('A' <= c <= 'Z') || ('a' <= c <= 'z') || ('0' <= c <= '9') || c == '_' || c == '.' || c == '-'
  }

  /** The characters that carry the name: safe and not the filler `_`. */
  predicate Significant(c: char) {
    SafeChar(c) && c != '_'
  }

  /** A finished segment: non-empty, safe characters only, no `_` at either end. */
  predicate Clean(t: string) {
    && t != ""
    && (forall i :: 0 <= i < |t| ==> SafeChar(t[i]))
    && t[0] != '_' && t[|t| - 1] != '_'
  }

  /** The significant characters of `s`, in order. */
  function Kept(s: string): string
    decreases |s|
  {
    if |s| == 0 then ""
    else (if Significant(s[0]) then [s[0]] else "") + Kept(s[1..])
  }

  /** Length of the run of unsafe characters that starts `s`. */
  function UnsafeRun(s: string): (n: nat)
    ensures n <= |s|
    ensures forall i :: 0 <= i < n ==> !SafeChar(s[i])
    ensures n < |s| ==> SafeChar(s[n])
    decreases |s|
  {
    if |s| > 0 && !SafeChar(s[0]) then 1 + UnsafeRun(s[1..]) else 0
  }

  /** `SAFE_NAME_PATTERN.sub("_", s)`: each maximal run of unsafe characters
      becomes one `_`. */
  function Sanitize(s: string): string
    decreases |s|
  {
    if |s| == 0 then ""
    else if SafeChar(s[0]) then [s[0]] + Sanitize(s[1..])
    else "_" + Sanitize(s[UnsafeRun(s)..])
  }

  const Underscore: set<char> := {'_'}

  /** `cleaned.strip("_")` applied to the sanitised, stripped value. */
  function Core(value: string): string {
    Trim(Sanitize(Strip(value)), Underscore)
  }

  /** `_safe_name` with the given fallback: the sanitised segment, or the
      fallback when nothing significant survives. */
  function SafeNameOr(value: string, fallback: string): (r: string)
    ensures Kept(value) == "" ==> r == fallback
    ensures Kept(value) != "" ==> Clean(r) && Kept(r) == Kept(value)
    ensures Clean(fallback) ==> Clean(r)
  {
    CoreShape(value);
    var c := Core(value);
    if c == "" then fallback else c
  }

  /** The snapshot writer's `_safe_name`, falling back to `unnamed`. */
  function WriterSafeName(value: string): (r: string)
    ensures Clean(r)
    ensures Kept(value) != "" ==> Kept(r) == Kept(value)
    ensures Kept(value) == "" ==> r == "unnamed"
  {
    assert Clean("unnamed");
    SafeNameOr(value, "unnamed")
  }

  /** The audit exporter's `_safe_name`, falling back to `UNKNOWN`. */
  function AuditSafeName(value: string): (r: string)
    ensures Clean(r)
    ensures Kept(value) != "" ==> Kept(r) == Kept(value)
    ensures Kept(value) == "" ==> r == "UNKNOWN"
  {
    assert Clean("UNKNOWN");
    SafeNameOr(value, "UNKNOWN")
  }

  // ---------------------------------------------------------------- lemmas

  lemma {:induction false} KeptConcat(a: string, b: string)
    ensures Kept(a + b) == Kept(a) + Kept(b)
    decreases |a|
  {
    if |a| > 0 {
      assert (a + b)[0] == a[0];
      assert (a + b)[1..] == a[1..] + b;
      KeptConcat(a[1..], b);
    } else {
      assert a + b == b;
    }
  }

  /** A string keeps nothing exactly when it has no significant character. */
  lemma {:induction false} KeptEmpty(s: string)
    ensures Kept(s) == "" <==> forall i :: 0 <= i < |s| ==> !Significant(s[i])
    decreases |s|
  {
    if |s| > 0 {
      KeptEmpty(s[1..]);
      assert forall i :: 1 <= i < |s| ==> s[i] == s[1..][i - 1];
    }
  }

  lemma KeptNothing(s: string, a: nat, b: nat)
    requires a <= b <= |s|
    requires forall i :: a <= i < b ==> !Significant(s[i])
    ensures Kept(s[a..b]) == ""
  {
    var x := s[a..b];
    assert forall i :: 0 <= i < |x| ==> x[i] == s[a + i];
    KeptEmpty(x);
  }

  lemma KeptAround(x: string, y: string, z: string)
    requires Kept(x) == "" && Kept(z) == ""
    ensures Kept(x + y + z) == Kept(y)
  {
    KeptConcat(x + y, z);
    KeptConcat(x, y);
  }

  /** Stripping characters that are never significant keeps `Kept`. */
  lemma KeptSlice(s: string, a: nat, b: nat)
    requires a <= b <= |s|
    requires forall i :: 0 <= i < a ==> !Significant(s[i])
    requires forall i :: b <= i < |s| ==> !Significant(s[i])
    ensures Kept(s[a..b]) == Kept(s)
  {
    KeptNothing(s, 0, a);
    KeptNothing(s, b, |s|);
    assert s[0..a] + s[a..b] == s[..b];
    assert s[..b] + s[b..|s|] == s;
    KeptAround(s[0..a], s[a..b], s[b..|s|]);
  }


  /** Sanitising keeps the significant characters and their order, and
      leaves only safe characters. */
  lemma {:induction false} SanitizeKeeps(s: string)
    ensures Kept(Sanitize(s)) == Kept(s)
    ensures forall i :: 0 <= i < |Sanitize(s)| ==> SafeChar(Sanitize(s)[i])
    decreases |s|
  {
    if |s| > 0 {
      if SafeChar(s[0]) {
        SanitizeKeeps(s[1..]);
        KeptConcat([s[0]], Sanitize(s[1..]));
      } else {
        var n := UnsafeRun(s);
        var rest := Sanitize(s[n..]);
        SanitizeKeeps(s[n..]);
        KeptConcat("_", rest);
        KeptSlice(s, n, |s|);
        assert s[n..|s|] == s[n..];
      }
    }
  }

  /** A string of safe characters sanitises to itself. */
  lemma {:induction false} SanitizeSafe(s: string)
    requires forall i :: 0 <= i < |s| ==> SafeChar(s[i])
    ensures Sanitize(s) == s
    decreases |s|
  {
    if |s| > 0 {
      SanitizeSafe(s[1..]);
      assert [s[0]] + s[1..] == s;
    }
  }

  /** Trimming characters that are never significant keeps `Kept`. */
  lemma TrimKept(s: string, cs: set<char>)
    requires forall c :: c in cs ==> !Significant(c)
    ensures Kept(Trim(s, cs)) == Kept(s)
  {
    var o := TrimOffset(s, cs);
    var r := Trim(s, cs);
    TrimShape(s, cs);
    TrimSegments(s, cs);
    KeptSlice(s, o, o + |r|);
  }

  /** Where the `_`-trimmed text sits in its input. */
  lemma TrimUnderscoreShape(s: string)
    ensures var c := Trim(s, Underscore); var p := TrimOffset(s, Underscore);
      && p + |c| <= |s|
      && (forall i :: 0 <= i < |c| ==> c[i] == s[p + i])
      && (c != [] ==> c[0] != '_' && c[|c| - 1] != '_')
      && Kept(c) == Kept(s)
  {
    var c := Trim(s, Underscore);
    var p := TrimOffset(s, Underscore);
    TrimShape(s, Underscore);
    assert forall x :: x in Underscore ==> !Significant(x);
    TrimKept(s, Underscore);
  }

  /** Trimming `_` from safe text leaves nothing or a clean segment. */
  lemma TrimUnderscoreClean(s: string)
    requires forall i :: 0 <= i < |s| ==> SafeChar(s[i])
    ensures var c := Trim(s, Underscore); c == "" <==> Kept(s) == ""
    ensures var c := Trim(s, Underscore); c != "" ==> Clean(c)
  {
    var c := Trim(s, Underscore);
    TrimUnderscoreShape(s);
    if c != "" {
      assert Significant(c[0]);
      KeptEmpty(c);
    }
  }

  /** What is left before the fallback is either empty or a clean segment
      with the value's significant characters. */
  lemma CoreShape(value: string)
    ensures Core(value) == "" <==> Kept(value) == ""
    ensures Core(value) != "" ==> Clean(Core(value)) && Kept(Core(value)) == Kept(value)
  {
    StripKept(value);
    SanitizeKeeps(Strip(value));
    CoreOfSafe(Sanitize(Strip(value)));
  }

  lemma StripKept(value: string)
    ensures Kept(Strip(value)) == Kept(value)
  {
    assert forall c :: c in Whitespace ==> !Significant(c);
    TrimKept(value, Whitespace);
  }

  /** The `_`-trim of safe text is empty or clean, and keeps `Kept`. */
  lemma CoreOfSafe(sz: string)
    requires forall i :: 0 <= i < |sz| ==> SafeChar(sz[i])
    ensures var c := Trim(sz, Underscore);
      && (c == "" <==> Kept(sz) == "")
      && (c != "" ==> Clean(c) && Kept(c) == Kept(sz))
  {
    TrimUnderscoreShape(sz);
    TrimUnderscoreClean(sz);
  }

  /** A clean segment is its own safe name. */
  lemma SafeNameFixed(t: string, fallback: string)
    requires Clean(t)
    ensures SafeNameOr(t, fallback) == t
  {
    assert forall c :: c in Whitespace ==> !SafeChar(c);
    TrimStartNoop(t, Whitespace);
    TrimEndNoop(t, Whitespace);
    SanitizeSafe(t);
    TrimStartNoop(t, Underscore);
    TrimEndNoop(t, Underscore);
  }

  /** Sanitising twice changes nothing. */
  lemma SafeNameIdempotent(value: string, fallback: string)
    requires Clean(fallback)
    ensures SafeNameOr(SafeNameOr(value, fallback), fallback) == SafeNameOr(value, fallback)
  {
    SafeNameFixed(SafeNameOr(value, fallback), fallback);
  }
}

=== FILE: text.dfy ===
/** String primitives shared by every component, with Python's `str`
    semantics restricted to ASCII: `strip`, `upper`, `lower`, `split("\n")`,
    `"sep".join(...)`, `count`, `startswith`/`endswith`, `replace` and `str(int)`. */
module Text {
  import opened Wrappers

  /** The ASCII characters Python's `str.isspace` (and regex `\s`) accept. */
  const Whitespace: set<char> :=
    {' ', '\t', '\n', '\U{0B}', '\U{0C}', '\r', '\U{1C}', '\U{1D}', '\U{1E}', '\U{1F}'}

  predicate IsSpace(c: char) {
    c in Whitespace
  }

  predicate AllIn(s: string, cs: set<char>) {
    forall i :: 0 <= i < |s| ==> s[i] in cs
  }

  predicate AllSpace(s: string) {
    AllIn(s, Whitespace)
  }

  // ---------------------------------------------------------------- case

  function UpperChar(c: char): char {
    if 'a' <= c <= 'z' then (c as int - 32) as char else c
  }

  function LowerChar(c: char): char {
    if 'A' <= c <= 'Z' then (c as int + 32) as char else c
  }

  /** Python's `s.upper()` on ASCII letters. */
  function Upper(s: string): (r: string)
    ensures |r| == |s|
    ensures forall i :: 0 <= i < |s| ==> r[i] == UpperChar(s[i])
  {
    seq(|s|, i requires 0 <= i < |s| => UpperChar(s[i]))
  }

  /** Python's `s.lower()` on ASCII letters. */
  function Lower(s: string): (r: string)
    ensures |r| == |s|
    ensures forall i :: 0 <= i < |s| ==> r[i] == LowerChar(s[i])
  {
    seq(|s|, i requires 0 <= i < |s| => LowerChar(s[i]))
  }

  /** Upper-casing ignores the case the text was in. */
  lemma UpperOfLower(s: string)
    ensures Upper(Lower(s)) == Upper(s)
  {
  }

  // ---------------------------------------------------------------- trimming

  /** Python's `s.lstrip(chars)`. */
  function TrimStart(s: string, cs: set<char>): (r: string)
    ensures |r| <= |s| && r == s[|s| - |r|..]
    ensures AllIn(s[..|s| - |r|], cs)
    ensures r == [] || r[0] !in cs
    decreases |s|
  {
    if |s| > 0 && s[0] in cs then
      var r := TrimStart(s[1..], cs);
      assert s[..|s| - |r|] == [s[0]] + s[1..][..|s| - 1 - |r|];
      r
    else s
  }

  /** Python's `s.rstrip(chars)`. */
  function TrimEnd(s: string, cs: set<char>): (r: string)
    ensures |r| <= |s| && r == s[..|r|]
    ensures AllIn(s[|r|..], cs)
    ensures r == [] || r[|r| - 1] !in cs
    decreases |s|
  {
    if |s| > 0 && s[|s| - 1] in cs then
      var t := s[..|s| - 1];
      var r := TrimEnd(t, cs);
      assert s[|r|..] == t[|r|..] + [s[|s| - 1]];
      r
    else s
  }

  /** Python's `s.strip(chars)`. */
  function Trim(s: string, cs: set<char>): string {
    TrimEnd(TrimStart(s, cs), cs)
  }

  function LStrip(s: string): string { TrimStart(s, Whitespace) }
  function RStrip(s: string): string { TrimEnd(s, Whitespace) }
  function Strip(s: string): string { Trim(s, Whitespace) }

  lemma TrimStartNoop(s: string, cs: set<char>)
    requires s == [] || s[0] !in cs
    ensures TrimStart(s, cs) == s
  {
  }

  lemma TrimEndNoop(s: string, cs: set<char>)
    requires s == [] || s[|s| - 1] !in cs
    ensures TrimEnd(s, cs) == s
  {
  }

  /** Trimming a string whose ends are already kept changes nothing. */
  lemma TrimNoop(s: string, cs: set<char>)
    requires s == [] || (s[0] !in cs && s[|s| - 1] !in cs)
    ensures Trim(s, cs) == s
  {
    TrimStartNoop(s, cs);
    TrimEndNoop(s, cs);
  }

  /** Where `Trim` starts reading its input. */
  function TrimOffset(s: string, cs: set<char>): nat {
    |s| - |TrimStart(s, cs)|
  }

  lemma TrimSlices(s: string, t: string, r: string, a: nat)
    requires a <= |s| && t == s[a..] && |r| <= |t| && r == t[..|r|]
    ensures a + |r| <= |s| && r == s[a..a + |r|]
  {
  }

  /** The two trims composed, over their postconditions alone. */
  lemma TrimCompose(s: string, t: string, r: string, a: nat, cs: set<char>)
    requires a <= |s| && t == s[a..] && AllIn(s[..a], cs) && (t == [] || t[0] !in cs)
    requires |r| <= |t| && r == t[..|r|] && AllIn(t[|r|..], cs) && (r == [] || r[|r| - 1] !in cs)
    ensures a + |r| <= |s| && r == s[a..a + |r|]
    ensures r == [] <==> AllIn(s, cs)
    ensures r != [] ==> r[0] !in cs && r[|r| - 1] !in cs
  {
    TrimSlices(s, t, r, a);
    if r == [] {
      assert t[|r|..] == t;
      assert t == [];
      assert s[..a] == s;
    } else {
      assert r[0] == t[0] == s[a];
    }
  }

  /** `Trim` returns a contiguous piece of its input whose ends are kept
      characters, and it is empty exactly when every character is trimmed. */
  lemma TrimShape(s: string, cs: set<char>)
    ensures var r := Trim(s, cs); var a := TrimOffset(s, cs);
      && a + |r| <= |s| && r == s[a..a + |r|]
      && (r == [] <==> AllIn(s, cs))
      && (r != [] ==> r[0] !in cs && r[|r| - 1] !in cs)
  {
    var t := TrimStart(s, cs);
    TrimCompose(s, t, TrimEnd(t, cs), |s| - |t|, cs);
  }

  lemma TrimCut(s: string, t: string, r: string, a: nat, cs: set<char>)
    requires a <= |s| && t == s[a..] && AllIn(s[..a], cs)
    requires |r| <= |t| && r == t[..|r|] && AllIn(t[|r|..], cs)
    ensures a + |r| <= |s|
    ensures forall i :: 0 <= i < a ==> s[i] in cs
    ensures forall i :: a + |r| <= i < |s| ==> s[i] in cs
  {
    assert forall i :: 0 <= i < a ==> s[i] == s[..a][i];
    assert forall i :: a + |r| <= i < |s| ==> s[i] == t[|r|..][i - a - |r|];
  }

  /** Everything `Trim` cuts off, on either side, is a trimmed character. */
  lemma TrimSegments(s: string, cs: set<char>)
    ensures var r := Trim(s, cs); var a := TrimOffset(s, cs);
      && a + |r| <= |s|
      && (forall i :: 0 <= i < a ==> s[i] in cs)
      && (forall i :: a + |r| <= i < |s| ==> s[i] in cs)
  {
    var t := TrimStart(s, cs);
    TrimCut(s, t, TrimEnd(t, cs), |s| - |t|, cs);
  }

  /** Trimming adds no character. */
  lemma TrimFree(s: string, cs: set<char>, d: char)
    requires d !in s
    ensures d !in Trim(s, cs)
  {
    TrimShape(s, cs);
    var r := Trim(s, cs);
    var a := TrimOffset(s, cs);
    assert forall i :: 0 <= i < |r| ==> r[i] == s[a + i];
  }

  // ---------------------------------------------------------------- prefixes

  predicate StartsWith(s: string, p: string) {
    |p| <= |s| && s[..|p|] == p
  }

  predicate EndsWith(s: string, p: string) {
    |p| <= |s| && s[|s| - |p|..] == p
  }

  /** Python's `s.count(c)` for a single character. */
  function Count(s: string, c: char): nat
    decreases |s|
  {
    if |s| == 0 then 0 else (if s[0] == c then 1 else 0) + Count(s[1..], c)
  }

  lemma CountConcat(a: string, b: string, c: char)
    ensures Count(a + b, c) == Count(a, c) + Count(b, c)
    decreases |a|
  {
    if |a| > 0 {
      assert (a + b)[0] == a[0];
      assert (a + b)[1..] == a[1..] + b;
      CountConcat(a[1..], b, c);
    } else {
      assert a + b == b;
    }
  }

  // ---------------------------------------------------------------- split / join

  /** Index of the first `c` in `s`, or `|s|` when there is none. */
  function IndexOf(s: string, c: char): (k: nat)
    ensures k <= |s|
    ensures k < |s| ==> s[k] == c
    ensures forall i :: 0 <= i < k ==> s[i] != c
    decreases |s|
  {
    if |s| == 0 then 0 else if s[0] == c then 0 else 1 + IndexOf(s[1..], c)
  }

  /** Python's `s.split(c)`: never empty, and no piece contains `c`. */
  function Split(s: string, c: char): (lines: seq<string>)
    ensures |lines| >= 1
    ensures forall l :: l in lines ==> c !in l
    decreases |s|
  {
    var k := IndexOf(s, c);
    if k == |s| then [s] else [s[..k]] + Split(s[k + 1..], c)
  }

  /** Python's `sep.join(parts)`. */
  function Join(parts: seq<string>, sep: string): string
    decreases |parts|
  {
    if |parts| == 0 then "" else if |parts| == 1 then parts[0]
    else parts[0] + sep + Join(parts[1..], sep)
  }

  /** Joining the pieces of a split restores the text. */
  lemma {:induction false} JoinSplit(s: string, c: char)
    ensures Join(Split(s, c), [c]) == s
    decreases |s|
  {
    var k := IndexOf(s, c);
    if k < |s| {
      var rest := Split(s[k + 1..], c);
      var parts := [s[..k]] + rest;
      assert Split(s, c) == parts;
      assert parts[1..] == rest;
      assert Join(parts, [c]) == s[..k] + [c] + Join(rest, [c]);
      JoinSplit(s[k + 1..], c);
      assert s == s[..k] + [c] + s[k + 1..];
    }
  }

  /** Splitting a join of separator-free pieces gives the pieces back. */
  lemma {:induction false} SplitJoin(parts: seq<string>, c: char)
    requires |parts| >= 1
    requires forall i :: 0 <= i < |parts| ==> c !in parts[i]
    ensures Split(Join(parts, [c]), c) == parts
    decreases |parts|
  {
    if |parts| > 1 {
      var s := Join(parts, [c]);
      var p := parts[0];
      assert s == p + [c] + Join(parts[1..], [c]);
      IndexOfAfterFree(p, Join(parts[1..], [c]), c);
      assert s[..|p|] == p;
      assert s[|p| + 1..] == Join(parts[1..], [c]);
      SplitJoin(parts[1..], c);
    } else {
      IndexOfFree(parts[0], c);
    }
  }

  lemma IndexOfFree(s: string, c: char)
    requires c !in s
    ensures IndexOf(s, c) == |s|
  {
  }

  lemma IndexOfAfterFree(p: string, rest: string, c: char)
    requires c !in p
    ensures IndexOf(p + [c] + rest, c) == |p|
  {
    var s := p + [c] + rest;
    assert s[|p|] == c;
    assert forall i :: 0 <= i < |p| ==> s[i] == p[i];
  }

  /** A join with a whitespace separator is all whitespace exactly when every
      part is. */
  lemma {:induction false} AllSpaceJoin(parts: seq<string>, sep: string)
    requires AllSpace(sep)
    ensures AllSpace(Join(parts, sep)) <==> forall i :: 0 <= i < |parts| ==> AllSpace(parts[i])
    decreases |parts|
  {
    if |parts| > 1 {
      AllSpaceJoin(parts[1..], sep);
      var j := Join(parts[1..], sep);
      var s := parts[0] + sep + j;
      assert s[..|parts[0]|] == parts[0];
      assert s[|parts[0]| + |sep|..] == j;
      if AllSpace(parts[0]) && AllSpace(j) {
        forall i | 0 <= i < |s| ensures IsSpace(s[i]) {
          if i < |parts[0]| { assert s[i] == parts[0][i]; }
          else if i < |parts[0]| + |sep| { assert s[i] == sep[i - |parts[0]|]; }
          else { assert s[i] == j[i - |parts[0]| - |sep|]; }
        }
      }
      if AllSpace(s) {
        assert forall i :: 0 <= i < |parts[0]| ==> parts[0][i] == s[i];
        assert forall i :: 0 <= i < |j| ==> j[i] == s[i + |parts[0]| + |sep|];
        assert forall i :: 1 <= i < |parts| ==> parts[i] == parts[1..][i - 1];
      }
    }
  }

  /** Text is all whitespace exactly when each of its `\n`-separated lines is. */
  lemma AllSpaceSplit(s: string)
    ensures AllSpace(s) <==> forall l :: l in Split(s, '\n') ==> AllSpace(l)
  {
    JoinSplit(s, '\n');
    var parts := Split(s, '\n');
    assert AllSpace("\n");
    AllSpaceJoin(parts, "\n");
  }

  /** A character absent from the parts and the separator is absent from
      their join. */
  lemma {:induction false} JoinFree(parts: seq<string>, sep: string, d: char)
    requires d !in sep
    requires forall i :: 0 <= i < |parts| ==> d !in parts[i]
    ensures d !in Join(parts, sep)
    decreases |parts|
  {
    if |parts| > 1 {
      JoinFree(parts[1..], sep, d);
    }
  }

  /** Splitting never introduces a character. */
  lemma {:induction false} SplitFree(s: string, c: char, d: char)
    requires d !in s
    ensures forall i :: 0 <= i < |Split(s, c)| ==> d !in Split(s, c)[i]
    decreases |s|
  {
    var k := IndexOf(s, c);
    if k < |s| {
      var rest := s[k + 1..];
      assert d !in rest;
      SplitFree(s[k + 1..], c, d);
    }
  }

  // ---------------------------------------------------------------- replace

  /** Python's `s.replace(c, t)` for a single-character pattern. */
  function ReplaceChar(s: string, c: char, t: string): (r: string)
    decreases |s|
  {
    if |s| == 0 then "" else (if s[0] == c then t else [s[0]]) + ReplaceChar(s[1..], c, t)
  }

  /** Replacing `c` by a `d`-free text leaves no `d` behind (when `d` is `c`
      itself, or absent to begin with). */
  lemma {:induction false} ReplaceCharFree(s: string, c: char, t: string, d: char)
    requires d !in t && (d != c ==> d !in s)
    ensures d !in ReplaceChar(s, c, t)
    decreases |s|
  {
    if |s| > 0 {
      assert d != c ==> d !in s[1..];
      ReplaceCharFree(s[1..], c, t, d);
    }
  }

  /** Replacing a character that does not occur changes nothing. */
  lemma {:induction false} ReplaceCharAbsent(s: string, c: char, t: string)
    requires c !in s
    ensures ReplaceChar(s, c, t) == s
    decreases |s|
  {
    if |s| > 0 {
      assert c !in s[1..];
      ReplaceCharAbsent(s[1..], c, t);
      assert [s[0]] + s[1..] == s;
    }
  }

  lemma ReplaceCharConcat(a: string, b: string, c: char, t: string)
    ensures ReplaceChar(a + b, c, t) == ReplaceChar(a, c, t) + ReplaceChar(b, c, t)
    decreases |a|
  {
    if |a| > 0 {
      assert (a + b)[0] == a[0];
      assert (a + b)[1..] == a[1..] + b;
      ReplaceCharConcat(a[1..], b, c, t);
    } else {
      assert a + b == b;
    }
  }

  // ---------------------------------------------------------------- integers

  function DigitChar(d: nat): char
    requires d < 10
  {
    ('0' as int + d) as char
  }

  predicate IsDigit(c: char) {
    '0' <= c <= '9'
  }

  predicate AllDigits(s: string) {
    forall i :: 0 <= i < |s| ==> IsDigit(s[i])
  }

  function NatToString(n: nat): (r: string)
    ensures |r| >= 1 && AllDigits(r)
    decreases n
  {
    if n < 10 then [DigitChar(n)] else NatToString(n / 10) + [DigitChar(n % 10)]
  }

  /** Python's `str(n)` for an integer. */
  function IntToString(n: int): string {
    if n < 0 then "-" + NatToString(-n) else NatToString(n)
  }

  /** The value of a non-empty run of decimal digits. */
  function DigitsValue(s: string): nat
    requires AllDigits(s)
    decreases |s|
  {
    if |s| == 0 then 0
    else
      assert IsDigit(s[|s| - 1]);
      10 * DigitsValue(s[..|s| - 1]) + (s[|s| - 1] as int - '0' as int)
  }

  /** Python's `int(s)` on text: surrounding whitespace, an optional sign and
      decimal digits, which may be grouped by single underscores. */
  function ParseInt(s: string): Option<int> {
    ParseSigned(Strip(s))
  }

  /** Digits, possibly grouped by underscores: it starts and ends with a
      digit and no two underscores are adjacent, as in `1_000`. */
  predicate DigitGroups(d: string) {
    && |d| > 0 && IsDigit(d[0]) && IsDigit(d[|d| - 1])
    && (forall i :: 0 <= i < |d| ==> IsDigit(d[i]) || d[i] == '_')
    && (forall i :: 0 <= i < |d| - 1 ==> IsDigit(d[i]) || IsDigit(d[i + 1]))
  }

  /** The digits of a digit group, underscores removed. */
  function DropUnderscores(d: string): (r: string)
    requires forall i :: 0 <= i < |d| ==> IsDigit(d[i]) || d[i] == '_'
    ensures AllDigits(r) && |r| <= |d|
    ensures AllDigits(d) ==> r == d
    ensures |d| > 0 && IsDigit(d[0]) ==> |r| > 0 && r[0] == d[0]
    decreases |d|
  {
    if |d| == 0 then ""
    else (if d[0] == '_' then "" else [d[0]]) + DropUnderscores(d[1..])
  }

  /** An optional sign followed by a digit group. */
  function ParseSigned(t: string): Option<int> {
    if |t| > 0 && (t[0] == '-' || t[0] == '+') then
      var d := t[1..];
      if DigitGroups(d) then
        var v: int := DigitsValue(DropUnderscores(d));
        Some(if t[0] == '-' then -v else v)
      else None
    else if DigitGroups(t) then Some(DigitsValue(DropUnderscores(t)))
    else None
  }

  /** A leading, trailing or doubled underscore is refused. */
  lemma UnderscoreGroups()
    ensures ParseSigned("_1") == None && ParseSigned("1_") == None && ParseSigned("1__0") == None
  {
    assert !DigitGroups("_1") by { assert !IsDigit("_1"[0]); }
    assert !DigitGroups("1_") by { assert !IsDigit("1_"[1]); }
    assert !DigitGroups("1__0") by { assert !(IsDigit("1__0"[1]) || IsDigit("1__0"[2])); }
  }

  /** Underscores between digits group them: `1_000` reads as a thousand. */
  lemma ThousandGroups()
    ensures ParseSigned("1_000") == Some(1000)
  {
    assert DigitGroups("1_000");
    assert DropUnderscores("1_000") == "1000" by {
      assert "1_000"[1..] == "_000" && "_000"[1..] == "000";
      assert DropUnderscores("000") == "000";
    }
    assert DigitsValue("1000") == 1000 by {
      assert "1000"[..3] == "100" && "100"[..2] == "10" && "10"[..1] == "1";
    }
  }

  lemma {:induction false} DigitsOfNat(n: nat)
    ensures DigitsValue(NatToString(n)) == n
    decreases n
  {
    var r := NatToString(n);
    if n >= 10 {
      DigitsOfNat(n / 10);
      assert r[..|r| - 1] == NatToString(n / 10);
    }
  }

  /** A printed integer has no surrounding whitespace. */
  lemma PrintedStripped(n: int)
    ensures Strip(IntToString(n)) == IntToString(n)
  {
    var s := IntToString(n);
    var digits := NatToString(if n < 0 then -n else n);
    assert s[|s| - 1] == digits[|digits| - 1];
    assert IsDigit(s[0]) || s[0] == '-';
    TrimNoop(s, Whitespace);
  }

  lemma ReadDigits(d: string, v: nat)
    requires |d| > 0 && AllDigits(d) && DigitsValue(d) == v
    ensures ParseSigned(d) == Some(v)
    ensures ParseSigned("-" + d) == Some(-(v as int))
  {
    assert IsDigit(d[0]) && IsDigit(d[|d| - 1]);
    assert ("-" + d)[1..] == d;
    assert DigitGroups(d);
  }

  /** `int(str(n)) == n`: printing an integer and parsing it back is the identity. */
  lemma {:induction false} ParsePrintedInt(n: int)
    ensures ParseInt(IntToString(n)) == Some(n)
  {
    var m: nat := if n < 0 then -n else n;
    var digits := NatToString(m);
    DigitsOfNat(m);
    ReadDigits(digits, m);
    PrintedStripped(n);
  }
}

=== FILE: wrappers.dfy ===
/** Failure-carrying values used throughout the model in place of exceptions
    and `None` returns. */
module Wrappers {

  /** A value that may be absent (Python's `None`). */
  datatype Option<+T> = None | Some(value: T) {

    /** The wrapped value, or `default` when absent (Python's `d.get(k, default)`). */
    function GetOr(default: T): T {
      match this
      case Some(v) => v
      case None => default
    }
  }

  /** The outcome of an operation that may raise: `Failure` carries the
      exception's message. */
  datatype Result<+T, +E> = Success(value: T) | Failure(error: E)
}

=== FILE: writer.dfy ===
/** The snapshot writer: one `.sql` file per catalog object under the
    snapshot root, each classified as added, modified or unchanged against
    what is already on disk, followed by a pass that deletes every other
    `.sql` file under the root. The filesystem is a map from paths to file
    contents. */
module Writer {
  import opened Text
  import opened Models
  import opened SafeNames

  // ---------------------------------------------------------------- paths

  /** The type segment: upper-cased, spaces turned into `_`, then sanitised. */
  function TypeSegment(objectType: string): string {
    WriterSafeName(ReplaceChar(Upper(objectType), ' ', "_"))
  }

  /** `_entry_path` relative to the root: owner, type, `<name>.sql`. */
  function EntryRelPath(o: DbObject): (p: Path)
    ensures |p| == 3
    ensures Clean(p[0]) && Clean(p[1])
    ensures |p[2]| > 4 && Clean(p[2][..|p[2]| - 4]) && EndsWith(p[2], ".sql")
    ensures p[0] == WriterSafeName(o.owner) && p[1] == TypeSegment(o.objectType)
    ensures p[2][..|p[2]| - 4] == WriterSafeName(o.objectName)
  {
    var n := WriterSafeName(o.objectName);
    assert (n + ".sql")[..|n|] == n;
    [WriterSafeName(o.owner), TypeSegment(o.objectType), n + ".sql"]
  }

  /** The target file of an entry. */
  function EntryPath(root: Path, e: SnapshotEntry): Path {
    root + EntryRelPath(e.dbObject)
  }

  /** A `.sql` file strictly inside the root: what `rglob("*.sql")` finds. */
  predicate SqlUnder(p: Path, root: Path) {
    Under(p, root) && EndsWith(p[|p| - 1], ".sql")
  }

  /** Every entry path is a `.sql` file under the root. */
  lemma EntryPathSql(root: Path, e: SnapshotEntry)
    ensures SqlUnder(EntryPath(root, e), root)
  {
    var p := EntryPath(root, e);
    assert p[..|root|] == root;
    assert p[|p| - 1] == EntryRelPath(e.dbObject)[2];
  }

  // ---------------------------------------------------------------- content

  /** The stored text: the DDL, ending with exactly the terminator it already
      has, or with an added `\n`. */
  function StoredContent(ddl: string): (c: string)
    ensures EndsWith(c, "\n")
    ensures |ddl| <= |c| <= |ddl| + 1 && c[..|ddl|] == ddl
  {
    if EndsWith(ddl, "\n") then ddl else ddl + "\n"
  }

  /** Storing is the least extension that ends with `\n`: text that already
      ends with one is stored as it is. */
  lemma StoredContentFixed(ddl: string)
    ensures EndsWith(ddl, "\n") <==> StoredContent(ddl) == ddl
    ensures StoredContent(StoredContent(ddl)) == StoredContent(ddl)
  {
  }

  // ---------------------------------------------------------------- classification

  /** The buckets an entry can land in. */
  datatype Bucket = Added | Modified | Unchanged

  /** How `write` classifies a target against the current files. */
  function Classify(files: FileMap, target: Path, content: string): (b: Bucket)
    ensures b == Added <==> target !in files
    ensures b == Modified <==> target in files && files[target] != content
    ensures b == Unchanged <==> target in files && files[target] == content
  {
    if target !in files then Added
    else if files[target] == content then Unchanged
    else Modified
  }

  /** What the loop does for one entry: the file it targets and the text
      that file must hold. */
  datatype Item = Item(target: Path, content: string)

  function ItemOf(root: Path, e: SnapshotEntry): Item {
    Item(EntryPath(root, e), StoredContent(e.ddl))
  }

  /** The loop's items, one per entry, in order. */
  function Items(root: Path, entries: seq<SnapshotEntry>): (items: seq<Item>)
    ensures |items| == |entries|
    ensures forall i :: 0 <= i < |entries| ==> items[i] == ItemOf(root, entries[i])
  {
    seq(|entries|, i requires 0 <= i < |entries| => ItemOf(root, entries[i]))
  }

  /** The paths a list of items targets. */
  function Targets(items: seq<Item>): set<Path> {
    set i | 0 <= i < |items| :: items[i].target
  }

  /** The paths the run wants to exist: `desired_rel_paths`, as full paths. */
  function Desired(root: Path, entries: seq<SnapshotEntry>): set<Path> {
    Targets(Items(root, entries))
  }

  /** The desired paths are the entry paths and are all `.sql` files under
      the root. */
  lemma DesiredPaths(root: Path, entries: seq<SnapshotEntry>)
    ensures forall p :: p in Desired(root, entries) <==> exists i :: 0 <= i < |entries| && p == EntryPath(root, entries[i])
    ensures forall p :: p in Desired(root, entries) ==> SqlUnder(p, root)
  {
    var items := Items(root, entries);
    forall i | 0 <= i < |entries| ensures SqlUnder(items[i].target, root) {
      EntryPathSql(root, entries[i]);
    }
  }

  /** The loop's running state: the files as the run sees them and the
      lists it reports. */
  datatype Pass = Pass(files: FileMap, added: seq<Path>, modified: seq<Path>, kept: nat)

  /** One iteration of the entry loop. A dry run classifies but never writes. */
  function WriteEntry(pass: Pass, item: Item, dryRun: bool): (r: Pass)
    ensures |r.added| + |r.modified| + r.kept == |pass.added| + |pass.modified| + pass.kept + 1
    ensures item.target !in pass.files ==>
      r.added == pass.added + [item.target] && r.modified == pass.modified && r.kept == pass.kept
    ensures item.target in pass.files && pass.files[item.target] != item.content ==>
      r.added == pass.added && r.modified == pass.modified + [item.target] && r.kept == pass.kept
    ensures item.target in pass.files && pass.files[item.target] == item.content ==>
      r.added == pass.added && r.modified == pass.modified && r.kept == pass.kept + 1 && r.files == pass.files
    ensures !dryRun ==> r.files == pass.files[item.target := item.content]
  {
    var files := if dryRun then pass.files else pass.files[item.target := item.content];
    match Classify(pass.files, item.target, item.content)
    case Unchanged => pass.(kept := pass.kept + 1)
    case Modified => pass.(files := files, modified := pass.modified + [item.target])
    case Added => pass.(files := files, added := pass.added + [item.target])
  }

  /** The entry loop over `items`, from the state `pass`. */
  function WriteAll(pass: Pass, items: seq<Item>, dryRun: bool): (r: Pass)
    ensures |r.added| + |r.modified| + r.kept == |pass.added| + |pass.modified| + pass.kept + |items|
    ensures dryRun ==> r.files == pass.files
    decreases |items|
  {
    if |items| == 0 then pass
    else WriteAll(WriteEntry(pass, items[0], dryRun), items[1..], dryRun)
  }

  /** Reference for the added list: the targets with no file, in entry order. */
  function AddedOf(files: FileMap, items: seq<Item>): seq<Path>
    decreases |items|
  {
    if |items| == 0 then []
    else (if items[0].target !in files then [items[0].target] else []) + AddedOf(files, items[1..])
  }

  /** Reference for the modified list: the targets whose file holds other
      text, in entry order. */
  function ModifiedOf(files: FileMap, items: seq<Item>): seq<Path>
    decreases |items|
  {
    if |items| == 0 then []
    else
      var t := items[0].target;
      (if t in files && files[t] != items[0].content then [t] else []) + ModifiedOf(files, items[1..])
  }

  /** Reference for the unchanged count: the targets whose file already holds
      the content. */
  function UnchangedOf(files: FileMap, items: seq<Item>): nat
    decreases |items|
  {
    if |items| == 0 then 0
    else
      var t := items[0].target;
      (if t in files && files[t] == items[0].content then 1 else 0) + UnchangedOf(files, items[1..])
  }

  /** Two file maps that agree on every target give the same reference buckets. */
  lemma {:induction false} BucketsAgree(f1: FileMap, f2: FileMap, items: seq<Item>)
    requires forall i :: 0 <= i < |items| ==>
      (items[i].target in f1 <==> items[i].target in f2)
      && (items[i].target in f1 ==> f1[items[i].target] == f2[items[i].target])
    ensures AddedOf(f1, items) == AddedOf(f2, items)
    ensures ModifiedOf(f1, items) == ModifiedOf(f2, items)
    ensures UnchangedOf(f1, items) == UnchangedOf(f2, items)
    decreases |items|
  {
    if |items| > 0 {
      var rest := items[1..];
      forall i | 0 <= i < |rest|
        ensures (rest[i].target in f1 <==> rest[i].target in f2)
          && (rest[i].target in f1 ==> f1[rest[i].target] == f2[rest[i].target])
      {
        assert rest[i] == items[i + 1];
      }
      BucketsAgree(f1, f2, rest);
    }
  }

  /** A report classifies the items against the files before the run. */
  predicate Reported(result: WriteResult, files: FileMap, items: seq<Item>) {
    && result.addedFiles == AddedOf(files, items)
    && result.modifiedFiles == ModifiedOf(files, items)
    && result.unchangedFiles == UnchangedOf(files, items)
  }

  /** Dropping the first item keeps the targets distinct. */
  lemma DistinctTail(items: seq<Item>)
    requires |items| > 0 && Distinct(items)
    ensures Distinct(items[1..])
  {
    var rest := items[1..];
    forall i, j | 0 <= i < j < |rest| ensures rest[i].target != rest[j].target {
      assert rest[i] == items[i + 1] && rest[j] == items[j + 1];
    }
  }

  /** One step leaves the files of the other targets as they were. */
  lemma {:induction false} EntryKeepsOthers(pass: Pass, items: seq<Item>, dryRun: bool)
    requires |items| > 0 && (dryRun || Distinct(items))
    ensures var next := WriteEntry(pass, items[0], dryRun);
      && AddedOf(next.files, items[1..]) == AddedOf(pass.files, items[1..])
      && ModifiedOf(next.files, items[1..]) == ModifiedOf(pass.files, items[1..])
      && UnchangedOf(next.files, items[1..]) == UnchangedOf(pass.files, items[1..])
  {
    var next := WriteEntry(pass, items[0], dryRun);
    var rest := items[1..];
    forall i | 0 <= i < |rest|
      ensures (rest[i].target in next.files <==> rest[i].target in pass.files)
        && (rest[i].target in next.files ==> next.files[rest[i].target] == pass.files[rest[i].target])
    {
      assert rest[i] == items[i + 1];
      if !dryRun {
        assert rest[i].target != items[0].target;
      }
    }
    BucketsAgree(next.files, pass.files, rest);
  }

  /** The loop classifies every entry against the files as they were before
      the run: added are the targets with no file, modified those whose file
      differs, in entry order, and the rest are counted unchanged. A dry run
      never writes, so this holds of it always; a real run needs distinct
      targets, since otherwise a later entry sees an earlier entry's write. */
  lemma WriteAllBuckets(pass: Pass, items: seq<Item>, dryRun: bool)
    requires dryRun || Distinct(items)
    ensures var r := WriteAll(pass, items, dryRun);
      && r.added == pass.added + AddedOf(pass.files, items)
      && r.modified == pass.modified + ModifiedOf(pass.files, items)
      && r.kept == pass.kept + UnchangedOf(pass.files, items)
  {
    AddedBucket(pass, items, dryRun);
    ModifiedBucket(pass, items, dryRun);
    KeptBucket(pass, items, dryRun);
  }

  lemma {:induction false} AddedBucket(pass: Pass, items: seq<Item>, dryRun: bool)
    requires dryRun || Distinct(items)
    ensures WriteAll(pass, items, dryRun).added == pass.added + AddedOf(pass.files, items)
    decreases |items|
  {
    if |items| > 0 {
      var next := WriteEntry(pass, items[0], dryRun);
      var t := items[0].target;
      var rest := items[1..];
      if !dryRun {
        DistinctTail(items);
      }
      EntryKeepsOthers(pass, items, dryRun);
      AddedBucket(next, rest, dryRun);
      if t !in pass.files {
        assert next.added == pass.added + [t];
        assert AddedOf(pass.files, items) == [t] + AddedOf(pass.files, rest);
        assert pass.added + [t] + AddedOf(pass.files, rest) == pass.added + ([t] + AddedOf(pass.files, rest));
      } else {
        assert next.added == pass.added;
        assert AddedOf(pass.files, items) == AddedOf(pass.files, rest);
      }
    }
  }

  lemma {:induction false} ModifiedBucket(pass: Pass, items: seq<Item>, dryRun: bool)
    requires dryRun || Distinct(items)
    ensures WriteAll(pass, items, dryRun).modified == pass.modified + ModifiedOf(pass.files, items)
    decreases |items|
  {
    if |items| > 0 {
      var next := WriteEntry(pass, items[0], dryRun);
      var t := items[0].target;
      var rest := items[1..];
      if !dryRun {
        DistinctTail(items);
      }
      EntryKeepsOthers(pass, items, dryRun);
      ModifiedBucket(next, rest, dryRun);
      if t in pass.files && pass.files[t] != items[0].content {
        assert next.modified == pass.modified + [t];
        assert ModifiedOf(pass.files, items) == [t] + ModifiedOf(pass.files, rest);
        assert pass.modified + [t] + ModifiedOf(pass.files, rest) == pass.modified + ([t] + ModifiedOf(pass.files, rest));
      } else {
        assert next.modified == pass.modified;
        assert ModifiedOf(pass.files, items) == ModifiedOf(pass.files, rest);
      }
    }
  }

  lemma {:induction false} KeptBucket(pass: Pass, items: seq<Item>, dryRun: bool)
    requires dryRun || Distinct(items)
    ensures WriteAll(pass, items, dryRun).kept == pass.kept + UnchangedOf(pass.files, items)
    decreases |items|
  {
    if |items| > 0 {
      var next := WriteEntry(pass, items[0], dryRun);
      if !dryRun {
        DistinctTail(items);
      }
      EntryKeepsOthers(pass, items, dryRun);
      KeptBucket(next, items[1..], dryRun);
    }
  }

  /** The report of a run whose entries each have their own path, or of a
      dry run, classifies the entries against the files before the run. */
  lemma WriteReported(files: FileMap, root: Path, entries: seq<SnapshotEntry>, dryRun: bool)
    requires dryRun || |Desired(root, entries)| == |entries|
    ensures var pass := WriteAll(Pass(files, [], [], 0), Items(root, entries), dryRun);
      Reported(WriteResult(pass.added, pass.modified, [], pass.kept), files, Items(root, entries))
  {
    var items := Items(root, entries);
    assert dryRun || |Targets(items)| == |items|;
    DistinctByCount(items);
    WriteAllBuckets(Pass(files, [], [], 0), items, dryRun);
  }

  /** Reference for the files after the loop: every item written in order,
      whether or not its content changed. */
  function Overwrite(files: FileMap, items: seq<Item>): FileMap
    decreases |items|
  {
    if |items| == 0 then files
    else Overwrite(files[items[0].target := items[0].content], items[1..])
  }

  /** The `.sql` files under the root that no entry asked for. */
  function Stale(files: FileMap, root: Path, desired: set<Path>): (s: set<Path>)
    ensures s <= files.Keys
  {
    set p | p in files && SqlUnder(p, root) && p !in desired
  }

  /** Writing only desired paths leaves the stale files as they were. */
  lemma StaleAfterWrites(files: FileMap, written: FileMap, root: Path, desired: set<Path>)
    requires written.Keys == files.Keys + desired
    ensures Stale(written, root, desired) == Stale(files, root, desired)
  {
  }

  /** The files after the loop's writes and the deletion pass. */
  function Settled(files: FileMap, root: Path, items: seq<Item>): FileMap {
    var written := Overwrite(files, items);
    written - Stale(written, root, Targets(items))
  }

  /** The files after a full, non-dry run. */
  function FinalFiles(files: FileMap, root: Path, entries: seq<SnapshotEntry>): FileMap {
    Settled(files, root, Items(root, entries))
  }

  // ---------------------------------------------------------------- lemmas

  /** Skipping the write of an unchanged file is the same as rewriting it:
      the loop's files are the reference overwrite. */
  lemma {:induction false} WriteAllFiles(pass: Pass, items: seq<Item>)
    ensures WriteAll(pass, items, false).files == Overwrite(pass.files, items)
    decreases |items|
  {
    if |items| > 0 {
      var next := WriteEntry(pass, items[0], false);
      assert next.files == pass.files[items[0].target := items[0].content];
      WriteAllFiles(next, items[1..]);
    }
  }

  lemma TargetsCons(items: seq<Item>)
    requires |items| > 0
    ensures Targets(items) == {items[0].target} + Targets(items[1..])
  {
    var rest := items[1..];
    forall p | p in Targets(items) ensures p in {items[0].target} + Targets(rest) {
      var i :| 0 <= i < |items| && p == items[i].target;
      if i > 0 {
        assert items[i] == rest[i - 1];
      }
    }
    forall p | p in Targets(rest) ensures p in Targets(items) {
      var i :| 0 <= i < |rest| && p == rest[i].target;
      assert rest[i] == items[i + 1];
    }
  }

  /** Overwriting touches the targets only, and creates all of them. */
  lemma {:induction false} OverwriteKeys(files: FileMap, items: seq<Item>)
    ensures Overwrite(files, items).Keys == files.Keys + Targets(items)
    ensures forall p :: p in files && p !in Targets(items) ==> Overwrite(files, items)[p] == files[p]
    decreases |items|
  {
    if |items| > 0 {
      OverwriteKeys(files[items[0].target := items[0].content], items[1..]);
      TargetsCons(items);
    } else {
      assert Targets(items) == {};
    }
  }

  /** Items with the same target agree on the content. */
  predicate Consistent(items: seq<Item>) {
    forall i, j :: 0 <= i < |items| && 0 <= j < |items| && items[i].target == items[j].target
      ==> items[i].content == items[j].content
  }

  /** Every item's file holds that item's content. */
  predicate Current(files: FileMap, items: seq<Item>) {
    forall i :: 0 <= i < |items| ==> items[i].target in files && files[items[i].target] == items[i].content
  }

  /** No two items share a target. */
  predicate Distinct(items: seq<Item>) {
    forall i, j :: 0 <= i < j < |items| ==> items[i].target != items[j].target
  }

  /** No list has more targets than items. */
  lemma {:induction false} TargetsBound(items: seq<Item>)
    ensures |Targets(items)| <= |items|
    decreases |items|
  {
    if |items| > 0 {
      TargetsCons(items);
      TargetsBound(items[1..]);
    }
  }

  /** The targets are distinct exactly when there are as many as items. */
  lemma {:induction false} DistinctByCount(items: seq<Item>)
    ensures Distinct(items) <==> |Targets(items)| == |items|
    decreases |items|
  {
    if |items| > 0 {
      var t := items[0].target;
      var rest := items[1..];
      TargetsCons(items);
      TargetsBound(rest);
      DistinctByCount(rest);
      if Distinct(items) {
        DistinctTail(items);
        forall j | 0 <= j < |rest| ensures rest[j].target != t {
          assert items[j + 1] == rest[j];
        }
      }
      if |Targets(items)| == |items| {
        assert t !in Targets(rest);
        forall i, j | 0 <= i < j < |items| ensures items[i].target != items[j].target {
          assert items[j] == rest[j - 1];
          if i > 0 {
            assert items[i] == rest[i - 1];
          }
        }
      }
    }
  }

  /** After overwriting consistent items, every item is current; items
      already current beforehand stay current. */
  lemma {:induction false} OverwriteCurrent(files: FileMap, done: seq<Item>, items: seq<Item>)
    requires Consistent(done + items)
    requires Current(files, done)
    ensures Current(Overwrite(files, items), done + items)
    decreases |items|
  {
    if |items| == 0 {
      assert done + items == done;
    } else {
      var e := items[0];
      var f1 := files[e.target := e.content];
      var all := done + items;
      var done1 := done + [e];
      assert done1 + items[1..] == all;
      forall i | 0 <= i < |done1|
        ensures done1[i].target in f1 && f1[done1[i].target] == done1[i].content
      {
        assert done1[i] == all[i];
        assert e == all[|done|];
      }
      OverwriteCurrent(f1, done1, items[1..]);
    }
  }

  /** A loop over items that are all current writes nothing and counts every
      item as unchanged. */
  lemma {:induction false} WriteAllCurrent(pass: Pass, items: seq<Item>, dryRun: bool)
    requires Current(pass.files, items)
    ensures WriteAll(pass, items, dryRun) == pass.(kept := pass.kept + |items|)
    decreases |items|
  {
    if |items| > 0 {
      var next := WriteEntry(pass, items[0], dryRun);
      assert next == pass.(kept := pass.kept + 1);
      var rest := items[1..];
      assert Current(next.files, rest) by {
        forall i | 0 <= i < |rest| ensures rest[i].target in next.files && next.files[rest[i].target] == rest[i].content {
          assert rest[i] == items[i + 1];
        }
      }
      WriteAllCurrent(next, rest, dryRun);
    }
  }

  /** Overwriting files that are already current changes nothing. */
  lemma {:induction false} OverwriteSame(files: FileMap, done: seq<Item>, items: seq<Item>)
    requires Current(files, done + items)
    ensures Overwrite(files, items) == files
    decreases |items|
  {
    if |items| > 0 {
      var e := items[0];
      var all := done + items;
      assert e == all[|done|];
      assert files[e.target := e.content] == files;
      assert done + [e] + items[1..] == all;
      OverwriteSame(files, done + [e], items[1..]);
    }
  }

  /** After a full run the `.sql` files under the root are exactly the entry
      paths, and no other file changed. */
  lemma FinalFilesMirror(files: FileMap, root: Path, entries: seq<SnapshotEntry>)
    ensures var f := FinalFiles(files, root, entries);
      && (forall p :: SqlUnder(p, root) ==> (p in f <==> p in Desired(root, entries)))
      && (forall p :: !SqlUnder(p, root) ==> (p in f <==> p in files))
      && (forall p :: p in files && !SqlUnder(p, root) ==> f[p] == files[p])
  {
    OverwriteKeys(files, Items(root, entries));
    DesiredPaths(root, entries);
  }

  /** Settling consistent items a second time finds every item unchanged,
      writes nothing and deletes nothing. */
  lemma SettledAgain(files: FileMap, root: Path, items: seq<Item>)
    requires Consistent(items)
    ensures var f := Settled(files, root, items);
      && WriteAll(Pass(f, [], [], 0), items, false) == Pass(f, [], [], |items|)
      && Stale(f, root, Targets(items)) == {}
      && Settled(f, root, items) == f
  {
    SettledCurrent(files, root, items);
    StaleRemoved(Overwrite(files, items), root, Targets(items));
    FixedPoint(Settled(files, root, items), root, items);
  }

  /** Files that already hold every item and nothing stale are a fixed point
      of settling, and a pass over them finds every item unchanged. */
  lemma FixedPoint(f: FileMap, root: Path, items: seq<Item>)
    requires Current(f, items) && Stale(f, root, Targets(items)) == {}
    ensures WriteAll(Pass(f, [], [], 0), items, false) == Pass(f, [], [], |items|)
    ensures Settled(f, root, items) == f
  {
    WriteAllCurrent(Pass(f, [], [], 0), items, false);
    assert [] + items == items;
    OverwriteSame(f, [], items);
    assert f - {} == f;
  }

  /** Removing the stale files leaves none. */
  lemma StaleRemoved(w: FileMap, root: Path, desired: set<Path>)
    ensures Stale(w - Stale(w, root, desired), root, desired) == {}
  {
  }

  /** After settling, every item's file holds its content. */
  lemma SettledCurrent(files: FileMap, root: Path, items: seq<Item>)
    requires Consistent(items)
    ensures Current(Settled(files, root, items), items)
  {
    var w := Overwrite(files, items);
    assert [] + items == items;
    OverwriteCurrent(files, [], items);
    assert Current(w, items);
    forall i | 0 <= i < |items| ensures items[i].target in Targets(items) {
    }
  }


  /** Running the same entries a second time, when entries sharing a path
      share their content, reports every entry as unchanged, writes nothing
      and deletes nothing. */
  lemma RerunUnchanged(files: FileMap, root: Path, entries: seq<SnapshotEntry>)
    requires Consistent(Items(root, entries))
    ensures var f := FinalFiles(files, root, entries);
      && WriteAll(Pass(f, [], [], 0), Items(root, entries), false) == Pass(f, [], [], |entries|)
      && Stale(f, root, Desired(root, entries)) == {}
      && FinalFiles(f, root, entries) == f
  {
    SettledAgain(files, root, Items(root, entries));
  }

  /** Two runs that agree on every remaining target make the same
      classification. */
  lemma {:induction false} SameClassification(p1: Pass, p2: Pass, items: seq<Item>, d1: bool, d2: bool)
    requires p1.added == p2.added && p1.modified == p2.modified && p1.kept == p2.kept
    requires Distinct(items)
    requires forall i :: 0 <= i < |items| ==>
      (items[i].target in p1.files <==> items[i].target in p2.files)
      && (items[i].target in p1.files ==> p1.files[items[i].target] == p2.files[items[i].target])
    ensures var r1 := WriteAll(p1, items, d1); var r2 := WriteAll(p2, items, d2);
      r1.added == r2.added && r1.modified == r2.modified && r1.kept == r2.kept
    decreases |items|
  {
    if |items| > 0 {
      var n1 := WriteEntry(p1, items[0], d1);
      var n2 := WriteEntry(p2, items[0], d2);
      var rest := items[1..];
      forall i | 0 <= i < |rest|
        ensures (rest[i].target in n1.files <==> rest[i].target in n2.files)
          && (rest[i].target in n1.files ==> n1.files[rest[i].target] == n2.files[rest[i].target])
      {
        assert rest[i] == items[i + 1];
        assert rest[i].target != items[0].target;
      }
      SameClassification(n1, n2, rest, d1, d2);
    }
  }

  /** With distinct entry paths, a dry run reports exactly the added, modified
      and unchanged files a real run would, and leaves the files alone. */
  lemma DryRunClassification(files: FileMap, items: seq<Item>)
    requires Distinct(items)
    ensures var dry := WriteAll(Pass(files, [], [], 0), items, true);
      var live := WriteAll(Pass(files, [], [], 0), items, false);
      && dry.files == files
      && dry.added == live.added && dry.modified == live.modified && dry.kept == live.kept
  {
    SameClassification(Pass(files, [], [], 0), Pass(files, [], [], 0), items, true, false);
  }

  // ---------------------------------------------------------------- the run

  /** The deletion pass: every stale file is reported once, in the order the
      directory walk finds them (left open here), and removed unless this is
      a dry run. */
  method DeleteStale(files: FileMap, stale: set<Path>, dryRun: bool) returns (after: FileMap, deleted: seq<Path>)
    requires stale <= files.Keys
    ensures forall p :: p in deleted <==> p in stale
    ensures forall i, j :: 0 <= i < j < |deleted| ==> deleted[i] != deleted[j]
    ensures dryRun ==> after == files
    ensures !dryRun ==> after == files - stale
  {
    after := files;
    deleted := [];
    var remaining := stale;
    while remaining != {}
      invariant remaining <= stale
      invariant forall p :: p in deleted <==> p in stale && p !in remaining
      invariant forall i, j :: 0 <= i < j < |deleted| ==> deleted[i] != deleted[j]
      invariant dryRun ==> after == files
      invariant !dryRun ==> after == files - (stale - remaining)
      decreases remaining
    {
      var p :| p in remaining;
      deleted := deleted + [p];
      if !dryRun {
        after := after - {p};
      }
      remaining := remaining - {p};
    }
  }

  /** `SnapshotWriter.write`. */
  method Write(files: FileMap, root: Path, entries: seq<SnapshotEntry>, dryRun: bool)
    returns (result: WriteResult, after: FileMap)
    ensures |result.addedFiles| + |result.modifiedFiles| + result.unchangedFiles == |entries|
    ensures forall p :: p in result.deletedFiles <==> p in files && SqlUnder(p, root) && p !in Desired(root, entries)
    ensures forall i, j :: 0 <= i < j < |result.deletedFiles| ==> result.deletedFiles[i] != result.deletedFiles[j]
    ensures dryRun ==> after == files
    ensures !dryRun ==> after == FinalFiles(files, root, entries)
    ensures !dryRun ==> forall p :: SqlUnder(p, root) ==> (p in after <==> p in Desired(root, entries))
    ensures !dryRun ==> forall p :: p in files && !SqlUnder(p, root) ==> p in after && after[p] == files[p]
    ensures dryRun || |Desired(root, entries)| == |entries| ==> Reported(result, files, Items(root, entries))
  {
    var items := Items(root, entries);
    var pass := WriteAll(Pass(files, [], [], 0), items, dryRun);
    if dryRun || |Desired(root, entries)| == |entries| {
      WriteReported(files, root, entries, dryRun);
    }
    var desired := Desired(root, entries);
    OverwriteKeys(files, items);
    if !dryRun {
      WriteAllFiles(Pass(files, [], [], 0), items);
    }
    if !dryRun {
      StaleAfterWrites(files, pass.files, root, desired);
    }
    var stale := Stale(pass.files, root, desired);
    var deleted: seq<Path>;
    after, deleted := DeleteStale(pass.files, stale, dryRun);
    result := WriteResult(pass.added, pass.modified, deleted, pass.kept);
    if !dryRun {
      FinalFilesMirror(files, root, entries);
    }
  }
}
